=== FILE: README.md ===
# Device-side core of the I2C device integration layer, in Dafny

This project models the part of the device integration library that runs
next to the hardware. It covers the logic that decides which bus
transactions happen, which bits and bytes they carry, and what the caller
gets back. Each part lives in its own module:

- `Ht16k33Controller` is the JSON front end of an HT16K33 LED display. `setPayload`
  applies a partial update: brightness, blink rate, on/off, and one of
  text, raw segments or a background task. It builds a response document
  and keeps at most one background task (the clock or the self test)
  running. `getUpdatePayload` reports the display's state, and `close`
  stops the task.
- `JsonDoc` holds the few `JSONObject` accessors the controller relies on:
  `getInt`, `getString`, `optString` and `optBoolean`, together with
  `Integer.parseInt`, `String.length()` in UTF-16 units and
  `equalsIgnoreCase`.
- `Bmp280` is the MS56xx-style PROM driver:
  - the command bytes;
  - the big-endian assembly of PROM words and 24-bit ADC values;
  - the PROM CRC-4 (a faithful loop method, proved equal to a reference
    definition over the PROM's wire bytes);
  - `initialise` with its failure paths and the integer coefficients it
    derives.
- `AlphaNumericLed` is the 15-segment mask table, with encoding a set of
  segments into a word and decoding a word back into segments.
- `HumidityCalibration` unpacks the BME688 humidity parameters from
  calibration bytes 23..30, two of which share a byte nibble-wise. It also
  gives the inverse repacking.
- `SensorReadings` models the BME688 measurement field: its register
  addresses and the idle-gated `doMeasurements`.
- `Registers`, `InterruptMap1`, `CalibSrcoTrco` and `ThresholdPressure` cover
  a cached register with `reload` and the masked `setControlRegister`,
  plus three registers built on it. These are the MSA311 new-data
  interrupt bit, the AS3935 TRCO-calibration-done bit, and the LPS25 THS_P
  register with its auto-increment address flag.
- `TimeHelper` is the clock text `HH:mm[:ss]` or `HH mm[ ss]`, with the
  time of day passed in.
- `Base` holds `Option`, `Result`, the `Fault` kinds, and Java's `int`
  narrowing and `byte` promotion.

Java `int` values that take part in bit operations are `bv32` and bytes are
`bv8`, with sign extension written out where Java promotes a byte. The
bus, the driver and the clock are not called. What they return is a
parameter: `None` for a transaction that threw. What is sent is recorded
as a trace of commands or events.

In five places the code does something other than the general partial-update
contract, which says that only genuinely changed fields are written and
echoed. The model follows the code:

- The blink rate is set and echoed even when it is the current one.
- A text or raw value is written and echoed without comparing it to the
  current one.
- The driver keeps only the masked level `brightness & 0xF`. A brightness
  outside 0..15, such as the 16 the update schema allows, therefore never
  equals the current one, and it is written again on every update.
- An unknown blink name aborts the whole update after the brightness write
  has already happened.
- An invalid value is handled differently from field to field:
  - `brightness`: a value that is neither a number nor a string holding a
    decimal `int`
    aborts the update.
  - `blink`: a number or a boolean is looked up by its text and `null`
    means `OFF`; a name that is no rate aborts.
  - `enabled`: a value that is neither a boolean nor `true`/`false` in any
    case reads as the current state, so nothing happens and nothing aborts.
  - `display`: a value that is no string aborts after the task was stopped.
    A text longer than five UTF-16 units is skipped without an error, and
    the task stays stopped.
  - `raw`: a value that is no string aborts after the task was stopped.
  - `task`: a value that is no string aborts after the task was stopped and
    the display blanked. A name other than clock or test is ignored, which
    leaves no task running and no key in the response.

## Model

All source paths are under `src/main/java/io/mapsmessaging/`, written out in full below.

| member | source | states |
|---|---|---|
| Base.Wrap32 | src/main/java/io/mapsmessaging/devices/i2c/devices/output/led/ht16k33/HT16K33Controller.java:96 | narrowing to `int` yields an `int` congruent to the input modulo 2^32, and leaves an `int` unchanged |
| Base.SignExtend | src/main/java/io/mapsmessaging/server/i2c/devices/sensors/BMP280Sensor.java:96 | a promoted byte keeps its low 8 bits; bits 8..31 copy bit 7 |
| Base.Unsigned | src/main/java/io/mapsmessaging/server/i2c/devices/sensors/BMP280Sensor.java:120 | `b & 0xFF` on a promoted byte is the byte's unsigned value whatever its sign |
| Bmp280.Code | src/main/java/io/mapsmessaging/server/i2c/devices/sensors/BMP280Sensor.java:9-23 | the PROM read of word i sends the i-th of the eight commands 0xA0..0xAE |
| Bmp280.PromCommand | src/main/java/io/mapsmessaging/server/i2c/devices/sensors/BMP280Sensor.java:119 | `(byte)(0xA0 + 2i)` is the PROM command of word i for every i in 0..7 |
| Bmp280.AssembleWord | src/main/java/io/mapsmessaging/server/i2c/devices/sensors/BMP280Sensor.java:120 | a PROM word is below 2^16 and its high and low bytes are the first and second byte read |
| Bmp280.Assemble24 | src/main/java/io/mapsmessaging/server/i2c/devices/sensors/BMP280Sensor.java:96 | an ADC value is below 2^24 and its three bytes are the bytes read, most significant first |
| Bmp280.WordRoundTrip | src/main/java/io/mapsmessaging/server/i2c/devices/sensors/BMP280Sensor.java:120 | every 16-bit word split into its two bytes reassembles to itself |
| Bmp280.Adc24RoundTrip | src/main/java/io/mapsmessaging/server/i2c/devices/sensors/BMP280Sensor.java:100 | every 24-bit value split into its three bytes reassembles to itself |
| Bmp280.PromBytesRoundTrip | src/main/java/io/mapsmessaging/server/i2c/devices/sensors/BMP280Sensor.java:118-121 | the wire bytes of a 16-bit PROM read back pairwise give each word |
| Bmp280.ReferenceCrc4 | src/main/java/io/mapsmessaging/server/i2c/devices/sensors/BMP280Sensor.java:72-74 | the checksum is a 4-bit value |
| Bmp280.ReferenceCrc4IgnoresCrcByte | src/main/java/io/mapsmessaging/server/i2c/devices/sensors/BMP280Sensor.java:56 | the checksum does not depend on the low (CRC) byte of word 7 |
| Bmp280.ShiftByte | src/main/java/io/mapsmessaging/server/i2c/devices/sensors/BMP280Sensor.java:64-70 | the inner loop's eight shifts of the `int` remainder agree, in the low 16 bits, with eight reference polynomial steps |
| Bmp280.DriverInputIsWireByte | src/main/java/io/mapsmessaging/server/i2c/devices/sensors/BMP280Sensor.java:59-63 | the byte the loop folds in at step cnt is wire byte cnt of the PROM (high byte of each word first) |
| Bmp280.CrcByteStep | src/main/java/io/mapsmessaging/server/i2c/devices/sensors/BMP280Sensor.java:57-71 | one turn of the outer loop advances the remainder exactly as the reference does over one more wire byte |
| Bmp280.Crc4 | src/main/java/io/mapsmessaging/server/i2c/devices/sensors/BMP280Sensor.java:49-75 | the result is below 16, the PROM is unchanged on return, and on a 16-bit PROM the result is the reference checksum |
| Bmp280.ReadPromFrom | src/main/java/io/mapsmessaging/server/i2c/devices/sensors/BMP280Sensor.java:118-121 | the loop issues the PROM reads in word order and a successful loop returns exactly the replies it received |
| Bmp280.ReadPromOutcome | src/main/java/io/mapsmessaging/server/i2c/devices/sensors/BMP280Sensor.java:118-121 | the loop succeeds iff every read does; on failure the last read issued is the first one that failed |
| Bmp280.AssembleProm | src/main/java/io/mapsmessaging/server/i2c/devices/sensors/BMP280Sensor.java:120 | every assembled PROM word fits in 16 bits |
| Bmp280.AssemblePromRoundTrip | src/main/java/io/mapsmessaging/server/i2c/devices/sensors/BMP280Sensor.java:118-121 | sending the assembled PROM over the wire reproduces the bytes received, in order |
| Bmp280.Initialise | src/main/java/io/mapsmessaging/server/i2c/devices/sensors/BMP280Sensor.java:114-138 | the reset comes first, then PROM reads in word order; a failed reset throws with no further transaction |
| Bmp280.InitialiseOutcome | src/main/java/io/mapsmessaging/server/i2c/devices/sensors/BMP280Sensor.java:114-121 | initialisation succeeds iff the reset and all eight reads do; on failure it throws an I/O fault at the first failed read |
| Bmp280.InitialiseProm | src/main/java/io/mapsmessaging/server/i2c/devices/sensors/BMP280Sensor.java:118-129 | after success the PROM holds the bytes the bus returned, the stored CRC is the low nibble of word 7 and the computed one is the reference checksum |
| Bmp280.FirstFailedRead | src/main/java/io/mapsmessaging/server/i2c/devices/sensors/BMP280Sensor.java:118-121 | the reads before the returned word all complete and the read of that word throws, unless all eight complete |
| Bmp280.InitialisedState | src/main/java/io/mapsmessaging/server/i2c/devices/sensors/BMP280Sensor.java:114-137 | a failed reset changes nothing; a failed PROM read keeps every coefficient and both CRC fields; a complete run derives them from the new PROM |
| Bmp280.InitialisedWord | src/main/java/io/mapsmessaging/server/i2c/devices/sensors/BMP280Sensor.java:118-121 | PROM word k is overwritten with the bytes read for it exactly when the reset and the reads of words 0..k complete, and otherwise keeps its old value |
| Bmp280.InitialisedStateAgrees | src/main/java/io/mapsmessaging/server/i2c/devices/sensors/BMP280Sensor.java:114-137 | the state agrees with the reported outcome: on success it is the derived calibration; on a thrown read exactly the words read before it are new and everything else is unchanged |
| Bmp280.Coefficients | src/main/java/io/mapsmessaging/server/i2c/devices/sensors/BMP280Sensor.java:122-132 | C1..C6 are PROM words 1..6, the stored CRC is the low nibble of word 7, and the computed CRC is the reference checksum of the whole PROM |
| Bmp280.CoefficientsExact | src/main/java/io/mapsmessaging/server/i2c/devices/sensors/BMP280Sensor.java:122-137 | C1..C6 are PROM words 1..6; SENS_T1 = C1·2^15 and OFF_T1 = C2·2^16 exactly; TCS and TCO are the floors of C3/2^8 and C4/2^7; nothing overflows |
| Bmp280.CrcMismatchIffNibbleDiffers | src/main/java/io/mapsmessaging/server/i2c/devices/sensors/BMP280Sensor.java:128-132 | a mismatch is flagged iff the stored nibble differs from the computed checksum (and initialisation still completes) |
| Bmp280.Conversion | src/main/java/io/mapsmessaging/server/i2c/devices/sensors/BMP280Sensor.java:90-104 | the commands sent are, in order, a prefix of convert-D2, read-ADC, convert-D1, read-ADC that stops at the first failed transfer; a failed D2 transfer leaves both values as they were; a failed D1 transfer keeps the new D2 and the old D1; each new value is the three bytes read, most significant first, and below 2^24 |
| AlphaNumericLed.Ordinal | src/main/java/io/mapsmessaging/devices/i2c/devices/output/led/ht16k33/AlphaNumericLed.java:5-20 | a segment's ordinal is its position in declaration order |
| AlphaNumericLed.Mask | src/main/java/io/mapsmessaging/devices/i2c/devices/output/led/ht16k33/AlphaNumericLed.java:6-27 | the mask of each segment is the single bit at its ordinal |
| AlphaNumericLed.FifteenSegments | src/main/java/io/mapsmessaging/devices/i2c/devices/output/led/ht16k33/AlphaNumericLed.java:5-20 | there are exactly fifteen segments, all distinct |
| AlphaNumericLed.MaskIsOrdinalBit | src/main/java/io/mapsmessaging/devices/i2c/devices/output/led/ht16k33/AlphaNumericLed.java:6-20 | the mask of the segment at ordinal i is `1 << i` |
| AlphaNumericLed.MasksDisjoint | src/main/java/io/mapsmessaging/devices/i2c/devices/output/led/ht16k33/AlphaNumericLed.java:6-20 | two masks share a bit iff they belong to the same segment |
| AlphaNumericLed.AllSegmentsWord | src/main/java/io/mapsmessaging/devices/i2c/devices/output/led/ht16k33/AlphaNumericLed.java:6-20 | the OR of all fifteen masks is 0x7FFF |
| AlphaNumericLed.EncodeTopBitClear | src/main/java/io/mapsmessaging/devices/i2c/devices/output/led/ht16k33/AlphaNumericLed.java:6-20 | no set of segments lights bit 15 |
| AlphaNumericLed.EncodeHas | src/main/java/io/mapsmessaging/devices/i2c/devices/output/led/ht16k33/AlphaNumericLed.java:22-27 | a segment's bit is set in an encoded word iff the segment is in the encoded list |
| AlphaNumericLed.FilterMembers | src/main/java/io/mapsmessaging/devices/i2c/devices/output/led/ht16k33/AlphaNumericLed.java:22-27 | decoding keeps exactly the listed segments whose bit is set |
| AlphaNumericLed.EncodeDecode | src/main/java/io/mapsmessaging/devices/i2c/devices/output/led/ht16k33/AlphaNumericLed.java:6-27 | every 15-bit word decoded into segments and re-encoded is the same word |
| AlphaNumericLed.DecodeEncode | src/main/java/io/mapsmessaging/devices/i2c/devices/output/led/ht16k33/AlphaNumericLed.java:6-27 | decoding an encoded list gives exactly the segments of the list |
| HumidityCalibration.Unpack | src/main/java/io/mapsmessaging/devices/i2c/devices/sensors/bme688/measurement/HumidityCalibrationData.java:16-20 | parH3..parH7 are bytes 26..30 copied unchanged |
| HumidityCalibration.ParH1 | src/main/java/io/mapsmessaging/devices/i2c/devices/sensors/bme688/measurement/HumidityCalibrationData.java:14 | parH1 keeps the low nibble of byte 24 as its low nibble and, for a byte 25, is a 12-bit value whose upper eight bits are byte 25 |
| HumidityCalibration.ParH2 | src/main/java/io/mapsmessaging/devices/i2c/devices/sensors/bme688/measurement/HumidityCalibrationData.java:15 | for bytes 23 and 24, parH2 is a 12-bit value whose upper eight bits are byte 23 and whose low nibble is the high nibble of byte 24 |
| HumidityCalibration.ParH1Value | src/main/java/io/mapsmessaging/devices/i2c/devices/sensors/bme688/measurement/HumidityCalibrationData.java:14 | parH1 = byte25·16 + byte24 mod 16 |
| HumidityCalibration.ParH2Value | src/main/java/io/mapsmessaging/devices/i2c/devices/sensors/bme688/measurement/HumidityCalibrationData.java:15 | parH2 = byte23·16 + byte24 div 16 |
| HumidityCalibration.ParH1Below | src/main/java/io/mapsmessaging/devices/i2c/devices/sensors/bme688/measurement/HumidityCalibrationData.java:14 | parH1 is a 12-bit value |
| HumidityCalibration.ParH2Below | src/main/java/io/mapsmessaging/devices/i2c/devices/sensors/bme688/measurement/HumidityCalibrationData.java:15 | parH2 is a 12-bit value |
| HumidityCalibration.ParH1LowNibble | src/main/java/io/mapsmessaging/devices/i2c/devices/sensors/bme688/measurement/HumidityCalibrationData.java:14 | the low nibble of parH1 is the low nibble of byte 24 |
| HumidityCalibration.ParH2LowNibble | src/main/java/io/mapsmessaging/devices/i2c/devices/sensors/bme688/measurement/HumidityCalibrationData.java:15 | the low nibble of parH2 is the high nibble of byte 24 |
| HumidityCalibration.ParH1HighPart | src/main/java/io/mapsmessaging/devices/i2c/devices/sensors/bme688/measurement/HumidityCalibrationData.java:14 | the upper eight bits of parH1 are byte 25 |
| HumidityCalibration.ParH2HighPart | src/main/java/io/mapsmessaging/devices/i2c/devices/sensors/bme688/measurement/HumidityCalibrationData.java:15 | the upper eight bits of parH2 are byte 23 |
| HumidityCalibration.SharedByteSplit | src/main/java/io/mapsmessaging/devices/i2c/devices/sensors/bme688/measurement/HumidityCalibrationData.java:14-15 | the two nibbles of byte 24 given to parH1 and parH2 put together are the byte |
| HumidityCalibration.RepackUnpack | src/main/java/io/mapsmessaging/devices/i2c/devices/sensors/bme688/measurement/HumidityCalibrationData.java:13-21 | unpacking loses nothing: repacking the seven parameters gives back bytes 23..30 |
| HumidityCalibration.OnlyBytes23To30 | src/main/java/io/mapsmessaging/devices/i2c/devices/sensors/bme688/measurement/HumidityCalibrationData.java:14-20 | two blocks that agree on bytes 23..30 unpack to the same parameters |
| HumidityCalibration.UnpackRanges | src/main/java/io/mapsmessaging/devices/i2c/devices/sensors/bme688/measurement/HumidityCalibrationData.java:14-20 | parH1 and parH2 are 12-bit, parH3..parH7 are bytes |
| SensorReadings.New | src/main/java/io/mapsmessaging/devices/i2c/devices/sensors/bme688/SensorReadings.java:39-48 | construction succeeds iff the index is 0..2 and both register reads succeed; a bad index throws an index error and a failed read an I/O error; the addresses come from the tables, lastRead and the sub-index register hold the value read, and dataReady starts at 0 |
| SensorReadings.SubIndexFollowsStatus | src/main/java/io/mapsmessaging/devices/i2c/devices/sensors/bme688/SensorReadings.java:13-14 | for every field the sub-index register address is the status address plus one |
| SensorReadings.NewSubIndexFollowsStatus | src/main/java/io/mapsmessaging/devices/i2c/devices/sensors/bme688/SensorReadings.java:45-46 | a constructed object's two registers are adjacent |
| SensorReadings.DoMeasurements | src/main/java/io/mapsmessaging/devices/i2c/devices/sensors/bme688/SensorReadings.java:50-60 | every call reads the status register, then the sub-index register, then measures temperature first; dataReady and the addresses never change |
| SensorReadings.Measure | src/main/java/io/mapsmessaging/devices/i2c/devices/sensors/bme688/SensorReadings.java:54-58 | the measurements leave dataReady, lastRead and the registers alone and take temperature first |
| SensorReadings.BusyKeepsReadings | src/main/java/io/mapsmessaging/devices/i2c/devices/sensors/bme688/SensorReadings.java:53 | while measuring or reading gas, lastRead and all four readings are unchanged and nothing is measured |
| SensorReadings.IdleRefreshesAll | src/main/java/io/mapsmessaging/devices/i2c/devices/sensors/bme688/SensorReadings.java:53-58 | when idle, lastRead becomes the sub-index read and the four readings are refreshed in the order temperature, humidity, pressure, gas |
| SensorReadings.MeasuresOnlyWhenIdle | src/main/java/io/mapsmessaging/devices/i2c/devices/sensors/bme688/SensorReadings.java:50-59 | a measurement is taken iff both reads succeeded and the status is idle |
| SensorReadings.ReadFailureKeepsReadings | src/main/java/io/mapsmessaging/devices/i2c/devices/sensors/bme688/SensorReadings.java:51-52 | a failed register read throws before any reading changes |
| SensorReadings.MeasurementFailureIsPartial | src/main/java/io/mapsmessaging/devices/i2c/devices/sensors/bme688/SensorReadings.java:53-58 | for every outcome of the four measurements in which one throws: the update throws after the reads and the measurements up to the failing one, the readings taken before it are the new values, and the failing one and those after it keep their old values |
| SensorReadings.DoMeasurementsIdempotent | src/main/java/io/mapsmessaging/devices/i2c/devices/sensors/bme688/SensorReadings.java:50-60 | with the same replies a second call leaves the state where the first put it |
| Registers.Reload | src/main/java/io/mapsmessaging/devices/i2c/devices/sensors/as3935/registers/Calib_SRCO_TRCO_Register.java:34 | a reload succeeds iff the read does, caches the value read, and otherwise throws leaving the register as it was |
| Registers.SetControlRegister | src/main/java/io/mapsmessaging/devices/i2c/devices/sensors/msa311/registers/InterruptMap1Register.java:34 | a completed write caches `(cached & mask) \| value`, the old cached bits inside the mask kept and the bits of `value` set; a failed one throws and changes nothing |
| Registers.MaskedUpdateSets | src/main/java/io/mapsmessaging/devices/i2c/devices/sensors/msa311/registers/InterruptMap1Register.java:34 | every bit of the written value ends up set |
| Registers.MaskedUpdateClears | src/main/java/io/mapsmessaging/devices/i2c/devices/sensors/msa311/registers/InterruptMap1Register.java:34 | every bit outside the mask and the value ends up clear |
| Registers.MaskedUpdateKeeps | src/main/java/io/mapsmessaging/devices/i2c/devices/sensors/msa311/registers/InterruptMap1Register.java:34 | every bit inside the mask and outside the value keeps its old state |
| Registers.MaskedUpdateIdempotent | src/main/java/io/mapsmessaging/devices/i2c/devices/sensors/msa311/registers/InterruptMap1Register.java:32-35 | with the value inside the cleared bits, repeating the update changes nothing and the masked bits are kept |
| Registers.MaskedUpdateKeepsByte | src/main/java/io/mapsmessaging/devices/i2c/devices/sensors/msa311/registers/InterruptMap1Register.java:34 | a byte register stays within a byte under an update with a byte value |
| InterruptMap1.Create | src/main/java/io/mapsmessaging/devices/i2c/devices/sensors/msa311/registers/InterruptMap1Register.java:28-30 | building the register succeeds iff its first read does, and throws an I/O error otherwise; it sits at 0x1A, is one byte wide, is named "Interrupt Map 1" and caches the value read |
| InterruptMap1.IsNewDataInterruptMappedToInt1 | src/main/java/io/mapsmessaging/devices/i2c/devices/sensors/msa311/registers/InterruptMap1Register.java:37-39 | the getter answers true iff bit 0 of the cached value is set |
| InterruptMap1.SetterTargetsBit0 | src/main/java/io/mapsmessaging/devices/i2c/devices/sensors/msa311/registers/InterruptMap1Register.java:32-35 | the setter passes value 1 or 0 and the mask ~1, so the value lies inside the one cleared bit |
| InterruptMap1.MapNewDataInterruptToInt1 | src/main/java/io/mapsmessaging/devices/i2c/devices/sensors/msa311/registers/InterruptMap1Register.java:32-35 | the setter succeeds iff the write does, and changes only the cached value |
| InterruptMap1.SetThenGet | src/main/java/io/mapsmessaging/devices/i2c/devices/sensors/msa311/registers/InterruptMap1Register.java:32-39 | after a completed set the getter, reading the cache only, returns what was set |
| InterruptMap1.SetKeepsOtherBits | src/main/java/io/mapsmessaging/devices/i2c/devices/sensors/msa311/registers/InterruptMap1Register.java:32-35 | a completed set leaves bits 1..31 as they were |
| CalibSrcoTrco.Create | src/main/java/io/mapsmessaging/devices/i2c/devices/sensors/as3935/registers/Calib_SRCO_TRCO_Register.java:29-31 | the register sits at 0x3A |
| CalibSrcoTrco.IsTRCOCalibrationSuccessful | src/main/java/io/mapsmessaging/devices/i2c/devices/sensors/as3935/registers/Calib_SRCO_TRCO_Register.java:33-36 | the check always reloads: it succeeds iff the read does and then caches the value read |
| CalibSrcoTrco.AnswerIsDoneBit | src/main/java/io/mapsmessaging/devices/i2c/devices/sensors/as3935/registers/Calib_SRCO_TRCO_Register.java:35 | the answer is bit 7 of the freshly read value, whatever was cached |
| CalibSrcoTrco.OnlyDoneBitMatters | src/main/java/io/mapsmessaging/devices/i2c/devices/sensors/as3935/registers/Calib_SRCO_TRCO_Register.java:26-35 | bit 6 and every other bit but bit 7 do not affect the answer |
| ThresholdPressure.Create | src/main/java/io/mapsmessaging/devices/i2c/devices/sensors/lps25/registers/ThresholdPressureRegister.java:26-28 | the register is at wire address 0xB0, two bytes wide, named "THS_P" |
| ThresholdPressure.GetAddress | src/main/java/io/mapsmessaging/devices/i2c/devices/sensors/lps25/registers/ThresholdPressureRegister.java:30-33 | the reported address has bit 7 clear and, with bit 7 of the stored address put back, is the stored address |
| ThresholdPressure.ReportsLogicalAddress | src/main/java/io/mapsmessaging/devices/i2c/devices/sensors/lps25/registers/ThresholdPressureRegister.java:26-33 | the reported address is 0x30 and the wire address is it with the auto-increment flag set |
| ThresholdPressure.ClearsOnlyBit7 | src/main/java/io/mapsmessaging/devices/i2c/devices/sensors/lps25/registers/ThresholdPressureRegister.java:31-33 | the reported address has bit 7 clear and every other bit of the stored address |
| ThresholdPressure.LogicalAddressIdempotent | src/main/java/io/mapsmessaging/devices/i2c/devices/sensors/lps25/registers/ThresholdPressureRegister.java:32 | masking twice is masking once |
| TimeHelper.PatternsDistinct | src/main/java/io/mapsmessaging/devices/i2c/devices/output/TimeHelper.java:10 | the four flag pairs give four different patterns |
| TimeHelper.Pattern | src/main/java/io/mapsmessaging/devices/i2c/devices/output/TimeHelper.java:10 | the pattern has 8 characters with seconds and 5 without, with the separator (space iff useSpace) at index 2 and, with seconds, at index 5 |
| TimeHelper.TwoDigits | src/main/java/io/mapsmessaging/devices/i2c/devices/output/TimeHelper.java:16 | a field prints as exactly two decimal digits |
| TimeHelper.GetTime | src/main/java/io/mapsmessaging/devices/i2c/devices/output/TimeHelper.java:8-17 | the text is two-digit hours, separator, two-digit minutes, and with seconds a separator and two-digit seconds |
| TimeHelper.GetTimeShape | src/main/java/io/mapsmessaging/devices/i2c/devices/output/TimeHelper.java:10-16 | the text is 8 or 5 characters, with the separator at index 2 (and 5) and digits everywhere else |
| TimeHelper.ParseGetTime | src/main/java/io/mapsmessaging/devices/i2c/devices/output/TimeHelper.java:8-17 | reading the text back gives the hour, the minute, and the second when shown |
| JsonDoc.ParseInt | src/main/java/io/mapsmessaging/devices/i2c/devices/output/led/ht16k33/HT16K33Controller.java:96 | a parsed number is always an `int`, and a number parses only if it has a decimal digit |
| JsonDoc.ParseIntToString | src/main/java/io/mapsmessaging/devices/i2c/devices/output/led/ht16k33/HT16K33Controller.java:96 | every `int` printed in decimal parses back to itself |
| JsonDoc.CharDigitOfRun | src/main/java/io/mapsmessaging/devices/i2c/devices/output/led/ht16k33/HT16K33Controller.java:96 | a character in one of the decimal digit runs of the Basic Multilingual Plane counts as the digit of its offset from that run's zero |
| JsonDoc.ParseIntOtherScripts | src/main/java/io/mapsmessaging/devices/i2c/devices/output/led/ht16k33/HT16K33Controller.java:96 | digits of other scripts parse: full-width three is 3 and minus Devanagari four two is -42 |
| JsonDoc.GetInt | src/main/java/io/mapsmessaging/devices/i2c/devices/output/led/ht16k33/HT16K33Controller.java:96 | a number is narrowed to `int`, a string is read with `ParseInt` and succeeds exactly when that parses, a boolean or null throws, and a failure names the key |
| JsonDoc.GetIntOfText | src/main/java/io/mapsmessaging/devices/i2c/devices/output/led/ht16k33/HT16K33Controller.java:96 | a string holding the decimal text of an `int` reads as that `int` |
| JsonDoc.GetString | src/main/java/io/mapsmessaging/devices/i2c/devices/output/led/ht16k33/HT16K33Controller.java:123 | the accessor succeeds iff the value is a string, returning it; otherwise it throws naming the key |
| JsonDoc.OptString | src/main/java/io/mapsmessaging/devices/i2c/devices/output/led/ht16k33/HT16K33Controller.java:103 | a string is returned as it is and null gives the default |
| JsonDoc.ValueToString | src/main/java/io/mapsmessaging/devices/i2c/devices/output/led/ht16k33/HT16K33Controller.java:103 | the text `optString` gives a non-string value: a boolean reads true or false by its value, `null` reads null, and an `int` gives decimal text that parses back to it |
| JsonDoc.OptBoolean | src/main/java/io/mapsmessaging/devices/i2c/devices/output/led/ht16k33/HT16K33Controller.java:110 | a boolean is returned as it is; null or a number gives the default |
| JsonDoc.OptBooleanString | src/main/java/io/mapsmessaging/devices/i2c/devices/output/led/ht16k33/HT16K33Controller.java:110 | a string means true or false when it equals that word ignoring case, by the per-character rule of `equalsIgnoreCase` (so a long s counts as an s), and the default otherwise |
| JsonDoc.Utf16Length | src/main/java/io/mapsmessaging/devices/i2c/devices/output/led/ht16k33/HT16K33Controller.java:124 | a text's UTF-16 length lies between its character count and twice that |
| JsonDoc.Utf16LengthBmp | src/main/java/io/mapsmessaging/devices/i2c/devices/output/led/ht16k33/HT16K33Controller.java:124 | for text in the Basic Multilingual Plane the length is the character count |
| JsonDoc.Fold | src/main/java/io/mapsmessaging/devices/i2c/devices/output/led/ht16k33/HT16K33Controller.java:137-141 | a character folds onto an ASCII lower-case letter iff it is an ASCII letter or one of long s, dotless i, Kelvin sign and dotted capital I |
| JsonDoc.FoldOntoAsciiLetter | src/main/java/io/mapsmessaging/devices/i2c/devices/output/led/ht16k33/HT16K33Controller.java:137-141 | for each ASCII letter, exactly its two cases and the special characters that map onto it fold to it |
| JsonDoc.EqualsIgnoreCaseBeyondAscii | src/main/java/io/mapsmessaging/devices/i2c/devices/output/led/ht16k33/HT16K33Controller.java:137-141 | "te\u017Ft" matches "test", "CLOC\u212A" matches "clock" and "fal\u017Fe" matches "false" ignoring case, and "tes" does not match "test" |
| JsonDoc.EqualsIgnoreCaseFolded | src/main/java/io/mapsmessaging/devices/i2c/devices/output/led/ht16k33/HT16K33Controller.java:137-141 | comparing without case is comparing case-folded forms (upper case, then lower case, per character), both ways |
| JsonDoc.EqualsIgnoreCase | src/main/java/io/mapsmessaging/devices/i2c/devices/output/led/ht16k33/HT16K33Controller.java:110-141 | `equalsIgnoreCase`, as the task names and the `optBoolean` words are compared: same length and each pair of characters equal, equal in upper case or equal in lower case of the upper case; `EqualsIgnoreCaseFolded` proves this is equality of the folded strings |
| JsonDoc.EqualsIgnoreCaseOfFoldedName | src/main/java/io/mapsmessaging/devices/i2c/devices/output/led/ht16k33/HT16K33Controller.java:137-144 | a string matches a name that is its own fold iff its fold is the name |
| Ht16k33Controller.CancelCurrentTask | src/main/java/io/mapsmessaging/devices/i2c/devices/output/led/ht16k33/HT16K33Controller.java:231-236 | the slot ends empty, only the running task is stopped, and with no task nothing happens |
| Ht16k33Controller.SetTask | src/main/java/io/mapsmessaging/devices/i2c/devices/output/led/ht16k33/HT16K33Controller.java:226-229 | the old task is stopped before the new one is installed, which is then the only one running |
| Ht16k33Controller.Close | src/main/java/io/mapsmessaging/devices/i2c/devices/output/led/ht16k33/HT16K33Controller.java:52-55 | closing stops the running task, if any, and leaves the slot empty |
| Ht16k33Controller.CloseIdempotent | src/main/java/io/mapsmessaging/devices/i2c/devices/output/led/ht16k33/HT16K33Controller.java:52-55 | a second close makes no call and changes nothing |
| Ht16k33Controller.GetUpdatePayload | src/main/java/io/mapsmessaging/devices/i2c/devices/output/led/ht16k33/HT16K33Controller.java:66-75 | without a display the report is empty; with one it holds exactly display, blink, enabled and brightness |
| Ht16k33Controller.SetPayload | src/main/java/io/mapsmessaging/devices/i2c/devices/output/led/ht16k33/HT16K33Controller.java:89-147 | an update keeps the display present iff it was; echoes only known keys present in the document; its calls stop only the running task and install only into an empty slot, ending with the task it reports; it throws only for brightness, display, raw, task or an unknown blink name |
| Ht16k33Controller.IgnoresOtherKeys | src/main/java/io/mapsmessaging/devices/i2c/devices/output/led/ht16k33/HT16K33Controller.java:89-147 | adding a key the controller does not read, such as the schema's blink-fast, to a document changes neither the calls, the state, the response nor the exception |
| Ht16k33Controller.Level | src/main/java/io/mapsmessaging/devices/i2c/devices/output/led/ht16k33/HT16K33Controller.java:98 | the level written is always 0..15 |
| Ht16k33Controller.Settings | src/main/java/io/mapsmessaging/devices/i2c/devices/output/led/ht16k33/HT16K33Controller.java:95-120 | the three settings make only brightness, blink and power calls, echo only their own keys from the document, and leave the task and the text alone |
| Ht16k33Controller.ApplyBrightness | src/main/java/io/mapsmessaging/devices/i2c/devices/output/led/ht16k33/HT16K33Controller.java:95-101 | the brightness stage changes only the brightness, adds only brightness calls and the brightness key, and calls nothing when it throws |
| Ht16k33Controller.ApplyBlink | src/main/java/io/mapsmessaging/devices/i2c/devices/output/led/ht16k33/HT16K33Controller.java:102-108 | the blink stage changes only the rate, adds only blink calls and the blink key, and calls nothing when it throws |
| Ht16k33Controller.ApplyEnabled | src/main/java/io/mapsmessaging/devices/i2c/devices/output/led/ht16k33/HT16K33Controller.java:109-120 | the enabled stage never throws, changes only the on-state, and adds only power calls and the enabled key |
| Ht16k33Controller.ApplyContent | src/main/java/io/mapsmessaging/devices/i2c/devices/output/led/ht16k33/HT16K33Controller.java:121-145 | the content stage keeps rate, on-state and brightness, and adds only text, raw and task calls and the display, raw and task keys |
| Ht16k33Controller.Blanked | src/main/java/io/mapsmessaging/devices/i2c/devices/output/led/ht16k33/HT16K33Controller.java:135 | blanking writes four spaces as the one call, shows them as the current text, and leaves the task, the response and the exception alone |
| Ht16k33Controller.StartTask | src/main/java/io/mapsmessaging/devices/i2c/devices/output/led/ht16k33/HT16K33Controller.java:137-144 | starting a named task installs it as the only task, the previous one stopped first, echoes the given name under task, and leaves the display alone |
| Ht16k33Controller.StartNamedTask | src/main/java/io/mapsmessaging/devices/i2c/devices/output/led/ht16k33/HT16K33Controller.java:136-144 | the name tests add only task calls and the task key, and leave the display alone |
| Ht16k33Controller.NoDisplayNoEffect | src/main/java/io/mapsmessaging/devices/i2c/devices/output/led/ht16k33/HT16K33Controller.java:94 | without a display the response is empty, nothing is called and nothing changes |
| Ht16k33Controller.BrightnessOnly | src/main/java/io/mapsmessaging/devices/i2c/devices/output/led/ht16k33/HT16K33Controller.java:95-101 | a brightness equal to the current one does nothing; a different one writes the masked level once and echoes the value as given |
| Ht16k33Controller.BrightnessOutOfRangeRewritten | src/main/java/io/mapsmessaging/devices/i2c/devices/output/led/ht16k33/HT16K33Controller.java:97-98 | a brightness outside 0..15 is written again by every update that carries it |
| Ht16k33Controller.BrightnessStage | src/main/java/io/mapsmessaging/devices/i2c/devices/output/led/ht16k33/HT16K33Controller.java:95-101 | the first stage writes and echoes exactly when the value differs, and throws exactly when the value is no integer |
| Ht16k33Controller.LaterStages | src/main/java/io/mapsmessaging/devices/i2c/devices/output/led/ht16k33/HT16K33Controller.java:102-145 | after the brightness stage only later-stage calls are appended and only later-stage keys are echoed |
| Ht16k33Controller.BrightnessWrittenOnlyWhenChanged | src/main/java/io/mapsmessaging/devices/i2c/devices/output/led/ht16k33/HT16K33Controller.java:95-101 | a brightness call is made iff the document asks for a different value, only as the first call, with the masked level; the key is echoed iff the value changed, unmasked |
| Ht16k33Controller.SettingsFault | src/main/java/io/mapsmessaging/devices/i2c/devices/output/led/ht16k33/HT16K33Controller.java:95-104 | the settings throw iff brightness is no integer or the blink name is no rate; a brightness failure comes before any call |
| Ht16k33Controller.UnknownBlinkAborts | src/main/java/io/mapsmessaging/devices/i2c/devices/output/led/ht16k33/HT16K33Controller.java:102-105 | an unknown blink name throws after the brightness write, with no other call and the task still running |
| Ht16k33Controller.BlinkAlwaysEchoed | src/main/java/io/mapsmessaging/devices/i2c/devices/output/led/ht16k33/HT16K33Controller.java:102-108 | a named rate is set and echoed even when it is the current one |
| Ht16k33Controller.EnabledOnlyWhenChanged | src/main/java/io/mapsmessaging/devices/i2c/devices/output/led/ht16k33/HT16K33Controller.java:109-120 | the display ends in the state asked for; it is switched, and the state echoed, iff that differs from the current one |
| Ht16k33Controller.EnabledStage | src/main/java/io/mapsmessaging/devices/i2c/devices/output/led/ht16k33/HT16K33Controller.java:109-120 | one switch call and one echo when the state differs, nothing otherwise |
| Ht16k33Controller.NoContentKeepsTask | src/main/java/io/mapsmessaging/devices/i2c/devices/output/led/ht16k33/HT16K33Controller.java:121-145 | without display, raw or task keys the content stage does nothing and the task keeps running |
| Ht16k33Controller.DisplayBranch | src/main/java/io/mapsmessaging/devices/i2c/devices/output/led/ht16k33/HT16K33Controller.java:121-127 | display wins over raw and task; it stops the task, and text of at most five UTF-16 units is written and echoed while longer text is neither |
| Ht16k33Controller.RawBranch | src/main/java/io/mapsmessaging/devices/i2c/devices/output/led/ht16k33/HT16K33Controller.java:128-132 | raw, only without display, stops the task and writes and echoes the segments |
| Ht16k33Controller.TaskBranch | src/main/java/io/mapsmessaging/devices/i2c/devices/output/led/ht16k33/HT16K33Controller.java:133-145 | task, only without display and raw, stops the task and blanks the display; a name equal to clock or test ignoring case (as `equalsIgnoreCase` compares) starts that task and echoes its lower-case name; any other name leaves no task and no key |
| Ht16k33Controller.NamedTask | src/main/java/io/mapsmessaging/devices/i2c/devices/output/led/ht16k33/HT16K33Controller.java:137-144 | from an empty slot a name installs Clock iff it equals "clock" ignoring case and TestTask iff it equals "test", as `equalsIgnoreCase` compares |
| Ht16k33Controller.NamedTaskBeyondAscii | src/main/java/io/mapsmessaging/devices/i2c/devices/output/led/ht16k33/HT16K33Controller.java:137-144 | "te\u017Ft" starts the test task and "CLOC\u212A" the clock, as Java's case-insensitive comparison accepts them |
| Ht16k33Controller.ContentReplay | src/main/java/io/mapsmessaging/devices/i2c/devices/output/led/ht16k33/HT16K33Controller.java:121-145 | the content stage stops only the running task, installs only into an empty slot, and ends with the task it reports |
| Ht16k33Controller.FeedbackRoundTrip | src/main/java/io/mapsmessaging/devices/i2c/devices/output/led/ht16k33/HT16K33Controller.java:66-75 | sending back what getUpdatePayload reported leaves the display as it was (the rate set to itself, the text rewritten) and stops the task |

## Left out

- Bus transactions, `delay` and the driver are not called. Replies, write outcomes and the driver's state are parameters or records, and the model records what would be sent.
- `HT16K33Driver` is not part of this model. Each call is assumed to record what it was given, and `writeRaw` is assumed to leave the reported text alone. Driver calls are assumed never to throw, so an I/O failure part-way through `setPayload` is not modelled.
- `BlinkRate` is not part of this model. Its names are an abstract set passed to `SetPayload`, and `valueOf(name).name()` is taken to be `name`.
- JSON text parsing and printing (`new JSONObject(...)`, `toString(2)`) are left out. Documents are maps of tagged values, and numbers are integers, because fractional brightness values are outside the payloads considered.
- Only the `JSONObject` accessors the controller calls are modelled. `optBoolean` on a string compares it with "true" and "false" by `equalsIgnoreCase`, as `JSONObject.getBoolean` does.
- `Clock`, `TestTask` and `Task.stop` are not part of this model: a task is a name, and stopping it is an event in the trace. The `synchronized` locking of the task slot is sequential in the model.
- `getSchema`, `buildWritablePayload`, `buildUpdateSchema` and the schema helpers build documents through a foreign schema library, so they are left out.
- `detect`, `getStaticPayload`, `rawWrite` and `write` only forward to the driver, so they are left out.
- `BMP280Sensor.scanForChange` and the temperature and pressure getters are left out because they are floating-point compensation. `getRegisters` is text output. The mismatch message is only a flag in the model.
- `ThresholdPressureRegister.setThreshold`/`getThreshold` are left out because they are float scaling with rounding.
- The BME688 measurement classes are not part of this model. Their results are opaque values, passed in as `Some` or as `None` when they throw. Their constructors are taken not to throw.
- `MeasurementStatusRegister` is not part of this model. Its read yields the decoded reading-gas and measuring flags, and its constructor is taken to read the register once, as the single-byte base class does.
- `CalibrationData` is not part of this model. Its `getByte(i)` is taken to return byte i unsigned.
- The `Register`, `SingleByteRegister` and `MultiByteRegister` base classes are not part of this model. A register is an address, a width, a name and a cached value, and `setControlRegister` is taken to write `(cached & mask) | value` and to cache it only when the write completes.
- `LocalTime.now()` is a parameter. The formatter is modelled for the letters these patterns use (`HH`, `mm`, `ss`); every other character is copied.
- Bmp280.Crc4: its agreement with the reference checksum is proved for PROMs of 16-bit words, which every PROM `initialise` assembles is; for other arrays only the range and the restored array are stated.
- Ht16k33Controller.BrightnessOutOfRangeRewritten: assumes that the driver's current brightness is a level 0..15, which holds whenever it was set through this controller.
- Ht16k33Controller.FeedbackRoundTrip: requires the reported rate to be a known name and the reported brightness to be an `int`, as the driver's own state always is.
- JsonDoc.Fold: the case mappings of characters other than the ASCII letters, long s (U+017F), dotless i (U+0131), Kelvin sign (U+212A) and dotted capital I (U+0130) are taken as the identity. Comparisons against names made of ASCII letters (clock, test, true, false) are exact; comparisons between two arbitrary strings are not.
- JsonDoc.EqualsIgnoreCase: inherits the case mappings of `JsonDoc.Fold`.
- JsonDoc.ParseInt: the decimal digits are the 37 runs of Unicode category Nd in the Basic Multilingual Plane, which is what `Character.digit(char, 10)` accepts; the table follows a recent Unicode version and may differ from the one of a given JDK.
- `BMP280Sensor`'s `delay(10)` after each conversion command is not modelled; it only waits.

=== FILE: alphanumeric_led.dfy ===
/** `AlphaNumericLed`: the fifteen segments of one character of the HT16K33
    alphanumeric display, each with the bit it occupies in the 16-bit
    segment word the display is written with. */
module AlphaNumericLed {

  datatype Segment =
    | Top | TopRight | BottomRight | Bottom | BottomLeft | TopLeft
    | CenterLeft | CenterRight | TopLeftDiagonal | TopCenter
    | TopRightDiagonal | BottomLeftDiagonal | BottomCenter
    | BottomRightDiagonal | Decimal

  /** The segments in declaration order. */
  const SEGMENTS: seq<Segment> := [
    Top, TopRight, BottomRight, Bottom, BottomLeft, TopLeft,
    CenterLeft, CenterRight, TopLeftDiagonal, TopCenter,
    TopRightDiagonal, BottomLeftDiagonal, BottomCenter,
    BottomRightDiagonal, Decimal]

  /** The enum constant's ordinal: its position in the declaration. */
  function Ordinal(s: Segment): (i: nat)
    ensures i < |SEGMENTS| && SEGMENTS[i] == s
  {
    match s
    case Top => 0
    case TopRight => 1
    case BottomRight => 2
    case Bottom => 3
    case BottomLeft => 4
    case TopLeft => 5
    case CenterLeft => 6
    case CenterRight => 7
    case TopLeftDiagonal => 8
    case TopCenter => 9
    case TopRightDiagonal => 10
    case BottomLeftDiagonal => 11
    case BottomCenter => 12
    case BottomRightDiagonal => 13
    case Decimal => 14
  }

  /** `getMask()`: the mask each constant is declared with (the source
      writes them as binary literals). The Java field is an `int`; every
      mask fits in 16 bits. */
  function Mask(s: Segment): (m: bv16)
    ensures m == 1 << Ordinal(s)
  {
    match s
    case Top                 => 0x0001
    case TopRight            => 0x0002
    case BottomRight         => 0x0004
    case Bottom              => 0x0008
    case BottomLeft          => 0x0010
    case TopLeft             => 0x0020
    case CenterLeft          => 0x0040
    case CenterRight         => 0x0080
    case TopLeftDiagonal     => 0x0100
    case TopCenter           => 0x0200
    case TopRightDiagonal    => 0x0400
    case BottomLeftDiagonal  => 0x0800
    case BottomCenter        => 0x1000
    case BottomRightDiagonal => 0x2000
    case Decimal             => 0x4000
  }

  /** There are exactly fifteen segments, each listed once. */
  lemma FifteenSegments()
    ensures |SEGMENTS| == 15
    ensures forall i, j :: 0 <= i < j < |SEGMENTS| ==> SEGMENTS[i] != SEGMENTS[j]
    ensures forall s: Segment :: s in SEGMENTS
  {
    forall s: Segment ensures s in SEGMENTS {
      assert SEGMENTS[Ordinal(s)] == s;
    }
  }

  /** The segment at ordinal `i` owns bit `i`: every mask is a single bit. */
  lemma MaskIsOrdinalBit(s: Segment)
    ensures Mask(s) == 1 << Ordinal(s)
  {
  }

  /** Distinct segments own disjoint bits, so a mask identifies its
      segment. */
  lemma MasksDisjoint(a: Segment, b: Segment)
    ensures a != b <==> Mask(a) & Mask(b) == 0
  {
  }

  /** The word with the given segments lit: the OR of their masks. */
  function Encode(segs: seq<Segment>): bv16 {
    if |segs| == 0 then 0 else Mask(segs[0]) | Encode(segs[1..])
  }

  lemma EncodeCons(s: Segment, rest: seq<Segment>)
    ensures Encode([s] + rest) == Mask(s) | Encode(rest)
  {
    assert ([s] + rest)[1..] == rest;
  }

  /** Whether `w` lights segment `s`. */
  predicate Lit(w: bv16, s: Segment) {
    w & Mask(s) != 0
  }

  /** The segments of `segs` whose bit is set in `w`, in order. */
  function Filter(w: bv16, segs: seq<Segment>): seq<Segment> {
    if |segs| == 0 then []
    else if Lit(w, segs[0]) then [segs[0]] + Filter(w, segs[1..])
    else Filter(w, segs[1..])
  }

  /** Filtering keeps exactly the members of `segs` that `w` lights. */
  lemma {:induction false} FilterMembers(w: bv16, segs: seq<Segment>, s: Segment)
    ensures s in Filter(w, segs) <==> s in segs && Lit(w, s)
  {
    if |segs| > 0 {
      FilterMembers(w, segs[1..], s);
      assert segs == [segs[0]] + segs[1..];
    }
  }

  /** The lit segments of a word, in declaration order. */
  function Decode(w: bv16): seq<Segment> {
    Filter(w, SEGMENTS)
  }

  /** All segments lit is 0x7FFF: bit 15 belongs to no segment. */
  lemma AllSegmentsWord()
    ensures Encode(SEGMENTS) == 0x7FFF
  {
    FifteenSegments();
    EncodeHas(SEGMENTS, Top);
    EncodeHas(SEGMENTS, TopRight);
    EncodeHas(SEGMENTS, BottomRight);
    EncodeHas(SEGMENTS, Bottom);
    EncodeHas(SEGMENTS, BottomLeft);
    EncodeHas(SEGMENTS, TopLeft);
    EncodeHas(SEGMENTS, CenterLeft);
    EncodeHas(SEGMENTS, CenterRight);
    EncodeHas(SEGMENTS, TopLeftDiagonal);
    EncodeHas(SEGMENTS, TopCenter);
    EncodeHas(SEGMENTS, TopRightDiagonal);
    EncodeHas(SEGMENTS, BottomLeftDiagonal);
    EncodeHas(SEGMENTS, BottomCenter);
    EncodeHas(SEGMENTS, BottomRightDiagonal);
    EncodeHas(SEGMENTS, Decimal);
    EncodeTopBitClear(SEGMENTS);
    SameSegmentsSameWord(Encode(SEGMENTS), 0x7FFF);
  }

  /** Bit 15 belongs to no segment, so no encoding sets it. */
  lemma {:induction false} EncodeTopBitClear(segs: seq<Segment>)
    ensures Encode(segs) & 0x8000 == 0
  {
    if |segs| > 0 {
      EncodeTopBitClear(segs[1..]);
      TopBitOr(Mask(segs[0]), Encode(segs[1..]));
    }
  }

  lemma TopBitOr(m: bv16, e: bv16)
    requires m <= 0x4000 && e & 0x8000 == 0
    ensures (m | e) & 0x8000 == 0
  {
  }

  /** Two words without bit 15 that light the same segments are equal. */
  lemma SameSegmentsSameWord(a: bv16, b: bv16)
    requires a & 0x8000 == 0 && b & 0x8000 == 0
    requires Lit(a, Top) <==> Lit(b, Top)
    requires Lit(a, TopRight) <==> Lit(b, TopRight)
    requires Lit(a, BottomRight) <==> Lit(b, BottomRight)
    requires Lit(a, Bottom) <==> Lit(b, Bottom)
    requires Lit(a, BottomLeft) <==> Lit(b, BottomLeft)
    requires Lit(a, TopLeft) <==> Lit(b, TopLeft)
    requires Lit(a, CenterLeft) <==> Lit(b, CenterLeft)
    requires Lit(a, CenterRight) <==> Lit(b, CenterRight)
    requires Lit(a, TopLeftDiagonal) <==> Lit(b, TopLeftDiagonal)
    requires Lit(a, TopCenter) <==> Lit(b, TopCenter)
    requires Lit(a, TopRightDiagonal) <==> Lit(b, TopRightDiagonal)
    requires Lit(a, BottomLeftDiagonal) <==> Lit(b, BottomLeftDiagonal)
    requires Lit(a, BottomCenter) <==> Lit(b, BottomCenter)
    requires Lit(a, BottomRightDiagonal) <==> Lit(b, BottomRightDiagonal)
    requires Lit(a, Decimal) <==> Lit(b, Decimal)
    ensures a == b
  {
    LowByteAgrees(a, b);
    HighByteAgrees(a, b);
    JoinHalves(a, b);
  }

  lemma LowByteAgrees(a: bv16, b: bv16)
    requires Lit(a, Top) <==> Lit(b, Top)
    requires Lit(a, TopRight) <==> Lit(b, TopRight)
    requires Lit(a, BottomRight) <==> Lit(b, BottomRight)
    requires Lit(a, Bottom) <==> Lit(b, Bottom)
    requires Lit(a, BottomLeft) <==> Lit(b, BottomLeft)
    requires Lit(a, TopLeft) <==> Lit(b, TopLeft)
    requires Lit(a, CenterLeft) <==> Lit(b, CenterLeft)
    requires Lit(a, CenterRight) <==> Lit(b, CenterRight)
    ensures a & 0x00FF == b & 0x00FF
  {
    SegmentBitAgrees(a, b, Top);
    SegmentBitAgrees(a, b, TopRight);
    SegmentBitAgrees(a, b, BottomRight);
    SegmentBitAgrees(a, b, Bottom);
    SegmentBitAgrees(a, b, BottomLeft);
    SegmentBitAgrees(a, b, TopLeft);
    SegmentBitAgrees(a, b, CenterLeft);
    SegmentBitAgrees(a, b, CenterRight);
    BitwiseEqualLow(a, b);
  }

  lemma HighByteAgrees(a: bv16, b: bv16)
    requires Lit(a, TopLeftDiagonal) <==> Lit(b, TopLeftDiagonal)
    requires Lit(a, TopCenter) <==> Lit(b, TopCenter)
    requires Lit(a, TopRightDiagonal) <==> Lit(b, TopRightDiagonal)
    requires Lit(a, BottomLeftDiagonal) <==> Lit(b, BottomLeftDiagonal)
    requires Lit(a, BottomCenter) <==> Lit(b, BottomCenter)
    requires Lit(a, BottomRightDiagonal) <==> Lit(b, BottomRightDiagonal)
    requires Lit(a, Decimal) <==> Lit(b, Decimal)
    ensures a & 0x7F00 == b & 0x7F00
  {
    SegmentBitAgrees(a, b, TopLeftDiagonal);
    SegmentBitAgrees(a, b, TopCenter);
    SegmentBitAgrees(a, b, TopRightDiagonal);
    SegmentBitAgrees(a, b, BottomLeftDiagonal);
    SegmentBitAgrees(a, b, BottomCenter);
    SegmentBitAgrees(a, b, BottomRightDiagonal);
    SegmentBitAgrees(a, b, Decimal);
    BitwiseEqualHigh(a, b);
  }

  lemma JoinHalves(a: bv16, b: bv16)
    requires a & 0x8000 == 0 && b & 0x8000 == 0
    requires a & 0x00FF == b & 0x00FF && a & 0x7F00 == b & 0x7F00
    ensures a == b
  {
  }

  lemma BitwiseEqualLow(a: bv16, b: bv16)
    requires a & 0x0001 == b & 0x0001
    requires a & 0x0002 == b & 0x0002
    requires a & 0x0004 == b & 0x0004
    requires a & 0x0008 == b & 0x0008
    requires a & 0x0010 == b & 0x0010
    requires a & 0x0020 == b & 0x0020
    requires a & 0x0040 == b & 0x0040
    requires a & 0x0080 == b & 0x0080
    ensures a & 0x00FF == b & 0x00FF
  {
  }

  lemma BitwiseEqualHigh(a: bv16, b: bv16)
    requires a & 0x0100 == b & 0x0100
    requires a & 0x0200 == b & 0x0200
    requires a & 0x0400 == b & 0x0400
    requires a & 0x0800 == b & 0x0800
    requires a & 0x1000 == b & 0x1000
    requires a & 0x2000 == b & 0x2000
    requires a & 0x4000 == b & 0x4000
    ensures a & 0x7F00 == b & 0x7F00
  {
  }

  /** A segment lit in both words or in neither: the words agree on its
      bit. */
  lemma SegmentBitAgrees(a: bv16, b: bv16, s: Segment)
    requires Lit(a, s) <==> Lit(b, s)
    ensures a & Mask(s) == b & Mask(s)
  {
  }

  /** Every 15-bit word is the OR of the masks of its decoded segments. */
  lemma EncodeDecode(w: bv16)
    requires w <= 0x7FFF
    ensures Encode(Decode(w)) == w
  {
    DecodedLit(w, Top);
    DecodedLit(w, TopRight);
    DecodedLit(w, BottomRight);
    DecodedLit(w, Bottom);
    DecodedLit(w, BottomLeft);
    DecodedLit(w, TopLeft);
    DecodedLit(w, CenterLeft);
    DecodedLit(w, CenterRight);
    DecodedLit(w, TopLeftDiagonal);
    DecodedLit(w, TopCenter);
    DecodedLit(w, TopRightDiagonal);
    DecodedLit(w, BottomLeftDiagonal);
    DecodedLit(w, BottomCenter);
    DecodedLit(w, BottomRightDiagonal);
    DecodedLit(w, Decimal);
    EncodeTopBitClear(Decode(w));
    Below15(w);
    SameSegmentsSameWord(Encode(Decode(w)), w);
  }

  /** Re-encoding the decoded segments lights segment `s` exactly when `w`
      does. */
  lemma DecodedLit(w: bv16, s: Segment)
    ensures Lit(Encode(Decode(w)), s) <==> Lit(w, s)
  {
    EncodeHas(Decode(w), s);
    FilterMembers(w, SEGMENTS, s);
    FifteenSegments();
  }

  lemma Below15(w: bv16)
    requires w <= 0x7FFF
    ensures w & 0x8000 == 0
  {
  }

  /** A segment is lit in the encoding of `segs` exactly when it is one of
      them. */
  lemma {:induction false} EncodeHas(segs: seq<Segment>, s: Segment)
    ensures Lit(Encode(segs), s) <==> s in segs
  {
    if |segs| > 0 {
      EncodeHas(segs[1..], s);
      if segs[0] == s {
        LitOwnMask(Encode(segs[1..]), s);
      } else {
        LitOtherMask(segs[0], Encode(segs[1..]), s);
        assert s in segs <==> s in segs[1..] by {
          assert segs == [segs[0]] + segs[1..];
        }
      }
    }
  }

  /** OR-ing in a segment's own mask lights it. */
  lemma LitOwnMask(rest: bv16, s: Segment)
    ensures Lit(Mask(s) | rest, s)
  {
    MaskNonZero(s);
    OrOwn(Mask(s), rest);
  }

  /** OR-ing in another segment's mask leaves it as lit as it was. */
  lemma LitOtherMask(first: Segment, rest: bv16, s: Segment)
    requires first != s
    ensures Lit(Mask(first) | rest, s) <==> Lit(rest, s)
  {
    MasksDisjoint(first, s);
    OrDisjoint(Mask(first), rest, Mask(s));
  }

  lemma OrOwn(m: bv16, b: bv16)
    ensures (m | b) & m == m
  {
  }

  lemma OrDisjoint(a: bv16, b: bv16, m: bv16)
    requires a & m == 0
    ensures (a | b) & m == b & m
  {
  }

  lemma MaskNonZero(s: Segment)
    ensures Mask(s) != 0
  {
  }

  /** Decoding the encoding of any list of segments gives back the same
      segments. */
  lemma DecodeEncode(segs: seq<Segment>)
    ensures forall s :: s in Decode(Encode(segs)) <==> s in segs
  {
    forall s ensures s in Decode(Encode(segs)) <==> s in segs {
      FifteenSegments();
      FilterMembers(Encode(segs), SEGMENTS, s);
      EncodeHas(segs, s);
    }
  }
}

=== FILE: base.dfy ===
/** Failure-carrying wrappers and the Java integer conventions the device
    layer relies on: `int` is a 32-bit two's-complement word, `byte` is an
    8-bit two's-complement word that is sign-extended when it takes part in
    `int` arithmetic. */
module Base {

  datatype Option<+T> = None | Some(value: T)

  /** The outcome of an operation that may throw. */
  datatype Result<+T, +E> = Ok(value: T) | Err(error: E)

  /** Why an operation threw. */
  datatype Fault =
    | IoFault                    // a bus transaction did not complete
    | JsonFault(key: string)     // a document value had the wrong type
    | UnknownName(name: string)  // an enum lookup by name failed
    | IndexOutOfBounds(index: int)

  const TWO_32: int := 0x1_0000_0000
  const INT32_MIN: int := -0x8000_0000
  const INT32_MAX: int := 0x7FFF_FFFF

  predicate IsInt32(x: int) {
    INT32_MIN <= x <= INT32_MAX
  }

  /** The Java `int` a wider integer narrows to: its low 32 bits, read as
      two's complement. */
  function Wrap32(x: int): (r: int)
    ensures IsInt32(r)
    ensures (r - x) % TWO_32 == 0
    ensures IsInt32(x) ==> r == x
  {
    (x - INT32_MIN) % TWO_32 + INT32_MIN
  }

  /** Java's promotion of a `byte` to `int`: bit 7 is copied into bits 8..31. */
  function SignExtend(b: bv8): (r: bv32)
    ensures r & 0xFF == b as bv32
    ensures b & 0x80 == 0 ==> r == b as bv32
    ensures b & 0x80 != 0 ==> r & 0xFFFF_FF00 == 0xFFFF_FF00
  {
    if b & 0x80 == 0 then b as bv32 else (b as bv32) | 0xFFFF_FF00
  }

  /** `b & 0xFF` on a promoted byte: its unsigned value, whatever bit 7 was. */
  function Unsigned(b: bv8): (r: bv32)
    ensures r == b as bv32
  {
    SignExtend(b) & 0xFF
  }
}

=== FILE: bmp280.dfy ===
/** The pressure sensor driver `BMP280Sensor`. Its command set (reset 0x1E,
    PROM reads 0xA0..0xAE, conversions 0x40/0x50 with oversampling offsets)
    and its PROM checksum are those of the MS56xx pressure-sensor family:
    eight 16-bit PROM words, the last of which carries a 4-bit CRC in its low
    nibble. Bus transactions are not performed here; the bytes the bus
    returns are inputs, and `None` stands for a transaction that threw. */
module Bmp280 {
  import opened Base

  const RESET: bv8 := 0x1E
  const PROM_READ_SEQUENCE: bv8 := 0xA0
  const ADC_READ: bv8 := 0x00
  const CONVERT_D1_OSR_4096: bv8 := 0x48
  const CONVERT_D2_OSR_4096: bv8 := 0x58

  const PROM_WORDS: nat := 8

  /** The PROM read commands, one per word, 0xA0 to 0xAE in steps of two. */
  const PROM_COMMANDS: seq<bv8> := [0xA0, 0xA2, 0xA4, 0xA6, 0xA8, 0xAA, 0xAC, 0xAE]

  /** One bus transaction of the driver, named by what it does; `Code`
      gives the command byte it sends. */
  datatype Command =
    | Reset                  // write RESET
    | ReadProm(word: nat)    // read two bytes with the PROM command of `word`
    | Convert(code: bv8)     // write a conversion command
    | ReadAdc                // read three bytes with ADC_READ

  function Code(c: Command): (b: bv8)
    requires c.ReadProm? ==> c.word < PROM_WORDS
    ensures c.ReadProm? ==> b == PROM_COMMANDS[c.word]
  {
    match c
    case Reset => RESET
    case ReadProm(i) => PromCommand(i)
    case Convert(code) => code
    case ReadAdc => ADC_READ
  }

  // ---------------------------------------------------------------------
  // Byte assembly
  //
  // Shifts by a constant are written as multiplication or division by the
  // power of two they stand for: `x << 8` is `x * 0x100`, and on a value
  // whose sign bit is clear `x >> 8` is `x / 0x100`.

  /** `(byte) (PROM_READ_SEQUENCE + i * 2)`: the `int` sum narrowed back to
      a byte; the command that reads PROM word `i`. */
  function PromCommand(i: nat): (c: bv8)
    requires i < PROM_WORDS
    ensures c == PROM_COMMANDS[i]
  {
    ((SignExtend(PROM_READ_SEQUENCE) + (i as bv32) * 2) & 0xFF) as bv8
  }

  /** `(hi << 8) | lo`. */
  function Join(hi: bv32, lo: bv32): bv32 {
    (hi * 0x100) | lo
  }

  /** `(b0 << 16) | (b1 << 8) | b2`. */
  function Join3(b0: bv32, b1: bv32, b2: bv32): bv32 {
    (b0 * 0x1_0000) | (b1 * 0x100) | b2
  }

  /** `((b0 & 0xFF) << 8) | (b1 & 0xFF)` over bytes promoted to `int`: the
      first byte read is the high byte. */
  function AssembleWord(b0: bv8, b1: bv8): (w: bv32)
    ensures w < 0x1_0000
    ensures HighByte(w) == b0 && LowByte(w) == b1
  {
    JoinParts(Unsigned(b0), Unsigned(b1));
    Join(Unsigned(b0), Unsigned(b1))
  }

  /** `((b0 & 0xFF) << 16) | ((b1 & 0xFF) << 8) | (b2 & 0xFF)`: a 24-bit
      ADC result, most significant byte first. */
  function Assemble24(b0: bv8, b1: bv8, b2: bv8): (d: bv32)
    ensures d < 0x100_0000
    ensures TopByte(d) == b0 && HighByte(d) == b1 && LowByte(d) == b2
  {
    Join3Parts(Unsigned(b0), Unsigned(b1), Unsigned(b2));
    Join3(Unsigned(b0), Unsigned(b1), Unsigned(b2))
  }

  /** Bits 16..23 of an ADC value: the byte sent first. */
  function TopByte(d: bv32): bv8 {
    ((d / 0x1_0000) & 0xFF) as bv8
  }

  /** Bits 8..15 of a word: the byte sent first. */
  function HighByte(w: bv32): bv8 {
    ((w / 0x100) & 0xFF) as bv8
  }

  /** Bits 0..7 of a word: the byte sent last. */
  function LowByte(w: bv32): bv8 {
    (w & 0xFF) as bv8
  }

  lemma JoinParts(hi: bv32, lo: bv32)
    requires hi < 0x100 && lo < 0x100
    ensures Join(hi, lo) < 0x1_0000
    ensures (Join(hi, lo) / 0x100) & 0xFF == hi && Join(hi, lo) & 0xFF == lo
  {
  }

  lemma Join3Parts(b0: bv32, b1: bv32, b2: bv32)
    requires b0 < 0x100 && b1 < 0x100 && b2 < 0x100
    ensures Join3(b0, b1, b2) < 0x100_0000
    ensures (Join3(b0, b1, b2) / 0x1_0000) & 0xFF == b0
    ensures (Join3(b0, b1, b2) / 0x100) & 0xFF == b1
    ensures Join3(b0, b1, b2) & 0xFF == b2
  {
  }

  lemma Narrow(x: bv32)
    requires x < 0x100
    ensures (x as bv8) as bv32 == x
  {
  }

  lemma SplitWord(w: bv32)
    requires w < 0x1_0000
    ensures Join((w / 0x100) & 0xFF, w & 0xFF) == w
  {
  }

  lemma Split24(d: bv32)
    requires d < 0x100_0000
    ensures Join3((d / 0x1_0000) & 0xFF, (d / 0x100) & 0xFF, d & 0xFF) == d
  {
  }

  /** Every 16-bit word survives being sent as two bytes and reassembled. */
  lemma WordRoundTrip(w: bv32)
    requires w < 0x1_0000
    ensures AssembleWord(HighByte(w), LowByte(w)) == w
  {
    Narrow((w / 0x100) & 0xFF);
    Narrow(w & 0xFF);
    SplitWord(w);
  }

  /** Every 24-bit ADC value survives being sent as three bytes and
      reassembled. */
  lemma Adc24RoundTrip(d: bv32)
    requires d < 0x100_0000
    ensures Assemble24(TopByte(d), HighByte(d), LowByte(d)) == d
  {
    Narrow((d / 0x1_0000) & 0xFF);
    Narrow((d / 0x100) & 0xFF);
    Narrow(d & 0xFF);
    Split24(d);
  }

  // ---------------------------------------------------------------------
  // PROM checksum

  /** The low 16 bits of a word. */
  function Low16(x: bv32): bv32 {
    x & 0xFFFF
  }

  /** The polynomial folded in when the bit shifted out of a 16-bit
      register is set. */
  function Feedback(r: bv32): bv32 {
    if r & 0x8000 != 0 then 0x3000 else 0
  }

  /** The reference CRC-4 of the MS56xx PROM, stated independently of the
      driver's code: a 16-bit remainder register, fed the sixteen PROM bytes
      most significant byte first with the CRC byte (low byte of word 7)
      zeroed, shifting each byte through bit 15 with polynomial 0x3000; the
      checksum is the top nibble of the remainder. The register is kept in
      the low 16 bits of a `bv32` and cut back to 16 bits after every shift. */
  function RefShift(r: bv32): bv32 {
    Low16((r * 2) ^ Feedback(r))
  }

  function RefShifts(r: bv32, k: nat): bv32 {
    if k == 0 then r else RefShift(RefShifts(r, k - 1))
  }

  function RefRemainder(bs: seq<bv8>): bv32 {
    if |bs| == 0 then 0
    else RefShifts(RefRemainder(bs[..|bs| - 1]) ^ (bs[|bs| - 1] as bv32), 8)
  }

  /** The PROM as bytes on the wire: each word high byte first. */
  function PromBytes(words: seq<bv32>): (bs: seq<bv8>)
    ensures |bs| == 2 * |words|
    ensures forall k :: 0 <= k < |bs| ==>
      bs[k] == if k % 2 == 0 then HighByte(words[k / 2]) else LowByte(words[k / 2])
  {
    if |words| == 0 then []
    else PromBytes(words[..|words| - 1]) + [HighByte(words[|words| - 1]), LowByte(words[|words| - 1])]
  }

  /** Reading the wire bytes back pairwise yields the PROM words. */
  lemma PromBytesRoundTrip(words: seq<bv32>, i: nat)
    requires Words16(words) && i < |words|
    ensures AssembleWord(PromBytes(words)[2 * i], PromBytes(words)[2 * i + 1]) == words[i]
  {
    WordRoundTrip(words[i]);
  }

  /** The PROM as the checksum sees it: the CRC byte of word 7 zeroed. */
  function MaskedProm(words: seq<bv32>): seq<bv32>
    requires |words| == PROM_WORDS
  {
    words[7 := words[7] & 0xFF00]
  }

  function ReferenceCrc4(words: seq<bv32>): (c: bv8)
    requires |words| == PROM_WORDS
    ensures c < 16
  {
    ((RefRemainder(PromBytes(MaskedProm(words))) / 0x1000) & 0xF) as bv8
  }

  /** The CRC byte itself never enters the checksum. */
  lemma ReferenceCrc4IgnoresCrcByte(words: seq<bv32>, low: bv32)
    requires |words| == PROM_WORDS && low < 0x100
    ensures ReferenceCrc4(words[7 := (words[7] & 0xFF00) | low]) == ReferenceCrc4(words)
  {
    MaskedPromIgnoresCrcByte(words, low);
  }

  lemma MaskedPromIgnoresCrcByte(words: seq<bv32>, low: bv32)
    requires |words| == PROM_WORDS && low < 0x100
    ensures MaskedProm(words[7 := (words[7] & 0xFF00) | low]) == MaskedProm(words)
  {
    MaskCrcByte(words[7], low);
  }

  lemma MaskCrcByte(w: bv32, low: bv32)
    requires low < 0x100
    ensures ((w & 0xFF00) | low) & 0xFF00 == w & 0xFF00
  {
  }

  /** Every entry fits in 16 bits, as every PROM the driver assembles does. */
  predicate Words16(prom: seq<bv32>) {
    forall i :: 0 <= i < |prom| ==> prom[i] < 0x1_0000
  }

  /** Java's `x >> 8` on an `int`: the sign bit is copied into the top
      eight bits. */
  function ShiftRight8Signed(x: bv32): bv32 {
    if x & 0x8000_0000 == 0 then x / 0x100 else (x / 0x100) | 0xFF00_0000
  }

  /** Java's `x >> 12` on an `int`. */
  function ShiftRight12Signed(x: bv32): bv32 {
    if x & 0x8000_0000 == 0 then x / 0x1000 else (x / 0x1000) | 0xFFF0_0000
  }

  lemma DoubleLow16(n: bv32)
    ensures Low16(n * 2) == Low16(Low16(n) * 2)
  {
  }

  lemma DoubleXorLow16(n: bv32, p: bv32)
    requires p < 0x1_0000
    ensures Low16((n * 2) ^ p) == Low16((Low16(n) * 2) ^ p)
  {
  }

  lemma XorZero(n: bv32)
    ensures n ^ 0 == n
  {
  }

  /** A turn of the inner loop that folds in the polynomial keeps the low 16
      bits of the `int` remainder equal to the reference register: the bits
      the `int` accumulates above bit 15 never flow back down. */
  lemma ShiftStepSet(n: bv32)
    requires n & 0x8000 == 0x8000
    ensures Low16((n * 2) ^ 0x3000) == RefShift(Low16(n))
  {
    assert Feedback(Low16(n)) == 0x3000;
    DoubleXorLow16(n, 0x3000);
  }

  /** The same for a turn that only shifts. */
  lemma ShiftStepClear(n: bv32)
    requires n & 0x8000 != 0x8000
    ensures Low16(n * 2) == RefShift(Low16(n))
  {
    assert Feedback(Low16(n)) == 0;
    DoubleLow16(n);
    XorZero(Low16(n) * 2);
  }

  /** The inner loop of `crc4`: eight shifts of the `int` remainder, each
      folding in 0x3000 when bit 15 is set. Its low 16 bits end where eight
      shifts of the reference register would. */
  method ShiftByte(n: bv32) returns (m: bv32)
    ensures Low16(m) == RefShifts(Low16(n), 8)
  {
    m := n;
    var nBit: bv8 := 8;
    while nBit > 0
      invariant nBit <= 8
      invariant Low16(m) == RefShifts(Low16(n), 8 - nBit as nat)
    {
      if m & 0x8000 == 0x8000 {
        ShiftStepSet(m);
        m := (m * 2) ^ 0x3000;
      } else {
        ShiftStepClear(m);
        m := m * 2;
      }
      nBit := nBit - 1;
    }
  }

  /** The byte the driver feeds in at step `cnt` is the wire byte `cnt`:
      `prom[cnt >> 1] >> 8` for even steps, `prom[cnt >> 1] & 0xFF` for odd. */
  lemma DriverInputIsWireByte(p: seq<bv32>, cnt: nat)
    requires Words16(p) && cnt < 2 * |p|
    ensures (if cnt % 2 == 1 then p[cnt / 2] & 0x00FF else ShiftRight8Signed(p[cnt / 2]))
            == PromBytes(p)[cnt] as bv32
  {
    var w := p[cnt / 2];
    if cnt % 2 == 1 {
      assert PromBytes(p)[cnt] == LowByte(w);
    } else {
      assert PromBytes(p)[cnt] == HighByte(w);
      assert w & 0x8000_0000 == 0;
    }
  }

  lemma RefRemainderStep(bs: seq<bv8>, cnt: nat)
    requires cnt < |bs|
    ensures RefRemainder(bs[..cnt + 1]) == RefShifts(RefRemainder(bs[..cnt]) ^ (bs[cnt] as bv32), 8)
  {
    assert bs[..cnt + 1][..cnt] == bs[..cnt];
  }

  lemma XorByteLow16(n: bv32, b: bv8)
    ensures Low16(n ^ (b as bv32)) == Low16(n) ^ (b as bv32)
  {
  }

  /** The final nibble read off the `int` remainder is the top nibble of its
      low 16 bits. */
  lemma TopNibble(n: bv32)
    ensures ShiftRight12Signed(n) & 0xF == (Low16(n) / 0x1000) & 0xF
  {
  }

  /** `crc4(prom)`: masks the CRC byte out of `prom[7]`, runs the remainder
      over the sixteen PROM bytes, then restores `prom[7]`. The returned
      sequence is the array as the caller sees it afterwards. On a PROM of
      16-bit words (every PROM the driver reads) the result is the
      reference checksum. */
  method Crc4(prom: seq<bv32>) returns (crc: bv8, promAfter: seq<bv32>)
    requires |prom| == PROM_WORDS
    ensures crc < 16
    ensures promAfter == prom
    ensures Words16(prom) ==> crc == ReferenceCrc4(prom)
  {
    var p := prom;
    var nRem: bv32 := 0;
    var crcRead := p[7];
    p := p[7 := p[7] & 0xFF00];
    ghost var wire := PromBytes(p);
    var cnt := 0;
    while cnt < 16
      invariant 0 <= cnt <= 16
      invariant p == MaskedProm(prom)
      invariant Words16(prom) ==> Low16(nRem) == RefRemainder(wire[..cnt])
    {
      var input: bv32;
      if cnt % 2 == 1 {
        input := p[cnt / 2] & 0x00FF;
      } else {
        input := ShiftRight8Signed(p[cnt / 2]);
      }
      ghost var before := nRem;
      nRem := nRem ^ input;
      nRem := ShiftByte(nRem);
      if Words16(prom) {
        CrcByteStep(prom, p, wire, cnt, before, input);
      }
      cnt := cnt + 1;
    }
    assert wire[..16] == wire;
    crc := FinalNibble(nRem);
    p := p[7 := crcRead];
    promAfter := p;
  }

  /** `(byte) ((0x000F & (n_rem >> 12)) ^ 0x00)`: the top nibble of the
      low 16 bits of the remainder. */
  function FinalNibble(nRem: bv32): (c: bv8)
    ensures c < 16
    ensures c == ((Low16(nRem) / 0x1000) & 0xF) as bv8
  {
    TopNibble(nRem);
    ((ShiftRight12Signed(nRem) & 0x000F) ^ 0x00) as bv8
  }

  /** One turn of the outer loop of `crc4` advances the remainder by the
      next wire byte. */
  lemma CrcByteStep(prom: seq<bv32>, p: seq<bv32>, wire: seq<bv8>, cnt: nat, before: bv32, input: bv32)
    requires |prom| == PROM_WORDS && Words16(prom) && cnt < 16
    requires p == MaskedProm(prom) && wire == PromBytes(p)
    requires Low16(before) == RefRemainder(wire[..cnt])
    requires input == if cnt % 2 == 1 then p[cnt / 2] & 0x00FF else ShiftRight8Signed(p[cnt / 2])
    ensures RefShifts(Low16(before ^ input), 8) == RefRemainder(wire[..cnt + 1])
  {
    assert Words16(p);
    DriverInputIsWireByte(p, cnt);
    XorByteLow16(before, wire[cnt]);
    RefRemainderStep(wire, cnt);
  }

  // ---------------------------------------------------------------------
  // initialise() and conversion()

  /** The calibration `initialise()` leaves in the driver's fields: the
      coefficients and derived terms are Java `long`s, the CRC fields an
      `int` and a `byte`. Every `long` the driver derives from a PROM of
      16-bit words is non-negative and below 2^32, so each is held here as
      an unsigned 32-bit word; `CoefficientsExact` proves that none of
      them wraps. */
  datatype Calibration = Calibration(
    prom: seq<bv32>,
    c1: bv32, c2: bv32, c3: bv32, c4: bv32, c5: bv32, c6: bv32,
    crc: bv32,          // the low nibble of prom[7], as read
    computedCrc: bv8,   // crc4 over the PROM as read
    sensT1: bv32, offT1: bv32, tcs: bv32, tco: bv32)
  {
    /** `crc4 != CRC`, the byte promoted to `int`. A mismatch is only
        reported on the error stream. */
    predicate CrcMismatch() {
      SignExtend(computedCrc) != crc
    }
  }

  /** The transactions `initialise()` issued and what it produced. */
  datatype InitRun = InitRun(commands: seq<Command>, outcome: Result<Calibration, Fault>)

  /** The transactions of the PROM loop and the byte pairs it read. */
  datatype PromRead = PromRead(commands: seq<Command>, pairs: Result<seq<(bv8, bv8)>, Fault>)

  /** The PROM loop from word `i` on; `replies[k]` is what the bus returns to
      the read of word `k`, `None` when that read throws. */
  function ReadPromFrom(replies: seq<Option<(bv8, bv8)>>, i: nat): (r: PromRead)
    requires |replies| == PROM_WORDS && i <= PROM_WORDS
    ensures |r.commands| <= PROM_WORDS - i
    ensures forall k :: 0 <= k < |r.commands| ==> r.commands[k] == ReadProm(i + k)
    ensures r.pairs.Ok? ==> |r.pairs.value| == PROM_WORDS - i
    ensures r.pairs.Ok? ==> forall k :: 0 <= k < |r.pairs.value| ==> replies[i + k] == Some(r.pairs.value[k])
    decreases PROM_WORDS - i
  {
    if i == PROM_WORDS then PromRead([], Ok([]))
    else
      var cmd := ReadProm(i);
      match replies[i]
      case None => PromRead([cmd], Err(IoFault))
      case Some(bs) =>
        var rest := ReadPromFrom(replies, i + 1);
        var pairs := match rest.pairs
          case Ok(ps) => Ok([bs] + ps)
          case Err(e) => Err(e);
        PromRead([cmd] + rest.commands, pairs)
  }

  /** The PROM loop succeeds exactly when every read does, after one read per
      word; otherwise it stops at the first read that throws, which is the
      last transaction issued. */
  lemma {:induction false} ReadPromOutcome(replies: seq<Option<(bv8, bv8)>>, i: nat)
    requires |replies| == PROM_WORDS && i <= PROM_WORDS
    ensures var r := ReadPromFrom(replies, i);
      && (r.pairs.Ok? <==> forall k :: i <= k < PROM_WORDS ==> replies[k].Some?)
      && (r.pairs.Ok? ==> |r.commands| == PROM_WORDS - i)
      && (r.pairs.Err? ==>
            && r.pairs.error == IoFault
            && 0 < |r.commands|
            && replies[i + |r.commands| - 1].None?
            && forall k :: i <= k < i + |r.commands| - 1 ==> replies[k].Some?)
    decreases PROM_WORDS - i
  {
    if i < PROM_WORDS && replies[i].Some? {
      ReadPromOutcome(replies, i + 1);
    }
  }

  /** `prom[i] = ((readBuffer[0] & 0xFF) << 8) | (readBuffer[1] & 0xFF)` for
      every pair read. */
  function AssembleProm(pairs: seq<(bv8, bv8)>): (prom: seq<bv32>)
    ensures |prom| == |pairs|
    ensures Words16(prom)
  {
    if |pairs| == 0 then []
    else AssembleProm(pairs[..|pairs| - 1]) + [AssembleWord(pairs[|pairs| - 1].0, pairs[|pairs| - 1].1)]
  }

  /** Word k of an assembled PROM is the word of pair k. */
  lemma {:induction false} AssemblePromAt(pairs: seq<(bv8, bv8)>, k: nat)
    requires k < |pairs|
    ensures AssembleProm(pairs)[k] == AssembleWord(pairs[k].0, pairs[k].1)
  {
    if k < |pairs| - 1 {
      AssemblePromAt(pairs[..|pairs| - 1], k);
    }
  }

  /** The bytes of the pairs in the order the bus delivered them. */
  function Flatten(pairs: seq<(bv8, bv8)>): (bs: seq<bv8>)
    ensures |bs| == 2 * |pairs|
    ensures forall k :: 0 <= k < |pairs| ==> bs[2 * k] == pairs[k].0 && bs[2 * k + 1] == pairs[k].1
  {
    if |pairs| == 0 then []
    else Flatten(pairs[..|pairs| - 1]) + [pairs[|pairs| - 1].0, pairs[|pairs| - 1].1]
  }

  /** Sending the assembled PROM back over the wire reproduces the bytes it
      was assembled from: no byte is lost, reordered or altered. */
  lemma {:induction false} AssemblePromRoundTrip(pairs: seq<(bv8, bv8)>)
    ensures PromBytes(AssembleProm(pairs)) == Flatten(pairs)
  {
    if |pairs| > 0 {
      var init := pairs[..|pairs| - 1];
      var last := pairs[|pairs| - 1];
      AssemblePromRoundTrip(init);
      assert AssembleProm(pairs)[..|pairs| - 1] == AssembleProm(init);
    }
  }

  /** `initialise()`: reset, read the eight PROM words, check the CRC (a
      mismatch is reported and initialisation carries on), derive the
      coefficients. Any bus failure aborts with an I/O fault. */
  function Initialise(resetOk: bool, replies: seq<Option<(bv8, bv8)>>): (r: InitRun)
    requires |replies| == PROM_WORDS
    ensures |r.commands| > 0 && r.commands[0] == Reset
    ensures !resetOk ==> r.commands == [Reset] && r.outcome == Err(IoFault)
    ensures forall k :: 1 <= k < |r.commands| ==> r.commands[k] == ReadProm(k - 1)
    ensures |r.commands| <= 1 + PROM_WORDS
  {
    if !resetOk then InitRun([Reset], Err(IoFault))
    else
      var read := ReadPromFrom(replies, 0);
      var commands := [Reset] + read.commands;
      match read.pairs
      case Err(e) => InitRun(commands, Err(e))
      case Ok(pairs) => InitRun(commands, Ok(Coefficients(AssembleProm(pairs))))
  }

  /** `initialise()` succeeds exactly when the reset and all eight PROM
      reads do, and then has issued one transaction per word after the
      reset; otherwise it throws an I/O fault, and the last transaction it
      issued is the one that failed. */
  lemma InitialiseOutcome(resetOk: bool, replies: seq<Option<(bv8, bv8)>>)
    requires |replies| == PROM_WORDS
    ensures var r := Initialise(resetOk, replies);
      && (r.outcome.Ok? <==> resetOk && forall k :: 0 <= k < PROM_WORDS ==> replies[k].Some?)
      && (r.outcome.Ok? ==> |r.commands| == 1 + PROM_WORDS)
      && (r.outcome.Err? ==> r.outcome.error == IoFault)
      && (r.outcome.Err? && resetOk ==>
            && 1 < |r.commands|
            && replies[|r.commands| - 2].None?
            && forall k :: 0 <= k < |r.commands| - 2 ==> replies[k].Some?)
  {
    ReadPromOutcome(replies, 0);
  }

  /** After a successful `initialise()` the PROM holds the sixteen bytes the
      bus returned, each word high byte first; the stored CRC is the low
      nibble of word 7 and the computed one is the reference checksum, which
      `Crc4` returns on every PROM of 16-bit words. */
  lemma InitialiseProm(resetOk: bool, replies: seq<Option<(bv8, bv8)>>)
    requires |replies| == PROM_WORDS
    requires Initialise(resetOk, replies).outcome.Ok?
    ensures var cal := Initialise(resetOk, replies).outcome.value;
      && |cal.prom| == PROM_WORDS
      && Words16(cal.prom)
      && (forall k :: 0 <= k < PROM_WORDS ==>
            replies[k] == Some((PromBytes(cal.prom)[2 * k], PromBytes(cal.prom)[2 * k + 1])))
      && cal.crc == cal.prom[7] & 0xF
      && cal.computedCrc == ReferenceCrc4(cal.prom)
  {
    var pairs := InitialisePairs(resetOk, replies);
    var prom := AssembleProm(pairs);
    AssemblePromRoundTrip(pairs);
    PairsAreReplies(replies, pairs, PromBytes(prom));
  }

  /** The pairs a successful `initialise()` assembled its PROM from. */
  lemma InitialisePairs(resetOk: bool, replies: seq<Option<(bv8, bv8)>>) returns (pairs: seq<(bv8, bv8)>)
    requires |replies| == PROM_WORDS
    requires Initialise(resetOk, replies).outcome.Ok?
    ensures |pairs| == PROM_WORDS
    ensures forall k :: 0 <= k < PROM_WORDS ==> replies[k] == Some(pairs[k])
    ensures Initialise(resetOk, replies).outcome.value == Coefficients(AssembleProm(pairs))
  {
    ReadPromOutcome(replies, 0);
    pairs := ReadPromFrom(replies, 0).pairs.value;
  }

  lemma PairsAreReplies(replies: seq<Option<(bv8, bv8)>>, pairs: seq<(bv8, bv8)>, bs: seq<bv8>)
    requires |replies| == |pairs| && bs == Flatten(pairs)
    requires forall k :: 0 <= k < |pairs| ==> replies[k] == Some(pairs[k])
    ensures forall k :: 0 <= k < |pairs| ==> replies[k] == Some((bs[2 * k], bs[2 * k + 1]))
  {
  }

  /** The index of the first PROM read from word `i` on that throws, or
      `PROM_WORDS` when none does. */
  function FirstFailedRead(replies: seq<Option<(bv8, bv8)>>, i: nat): (n: nat)
    requires |replies| == PROM_WORDS && i <= PROM_WORDS
    ensures i <= n <= PROM_WORDS
    ensures forall k :: i <= k < n ==> replies[k].Some?
    ensures n < PROM_WORDS ==> replies[n].None?
    decreases PROM_WORDS - i
  {
    if i == PROM_WORDS || replies[i].None? then i else FirstFailedRead(replies, i + 1)
  }

  /** The driver's calibration fields after `initialise()` is called on a
      driver that held `prev` (the method is public, so it may run again
      after construction). Each PROM word is stored as soon as its read
      completes; a read that throws leaves the words before it new and
      every later word, every coefficient and both CRC fields as they
      were. */
  function InitialisedState(prev: Calibration, resetOk: bool, replies: seq<Option<(bv8, bv8)>>): (cal: Calibration)
    requires |replies| == PROM_WORDS && |prev.prom| == PROM_WORDS
    ensures |cal.prom| == PROM_WORDS
    ensures !resetOk ==> cal == prev
    ensures FirstFailedRead(replies, 0) < PROM_WORDS ==> cal == prev.(prom := cal.prom)
    ensures resetOk && FirstFailedRead(replies, 0) == PROM_WORDS ==> cal == Coefficients(PromAfterReads(prev.prom, replies))
    ensures resetOk ==> cal.prom == PromAfterReads(prev.prom, replies)
  {
    if !resetOk then prev
    else
      var prom := PromAfterReads(prev.prom, replies);
      if FirstFailedRead(replies, 0) == PROM_WORDS then Coefficients(prom) else prev.(prom := prom)
  }

  /** The driver's `prom` array after the PROM loop: the words read before
      the first read that throws, then the old words. */
  function PromAfterReads(previous: seq<bv32>, replies: seq<Option<(bv8, bv8)>>): (prom: seq<bv32>)
    requires |replies| == PROM_WORDS && |previous| == PROM_WORDS
    ensures |prom| == PROM_WORDS
  {
    var n := FirstFailedRead(replies, 0);
    seq(PROM_WORDS, k requires 0 <= k < PROM_WORDS =>
      if k < n then AssembleWord(replies[k].value.0, replies[k].value.1) else previous[k])
  }

  /** PROM word k changes exactly when the reset and the reads of words
      0..k all succeed, and then holds the bytes read for it; otherwise it
      keeps its old value. */
  lemma InitialisedWord(prev: Calibration, resetOk: bool, replies: seq<Option<(bv8, bv8)>>, k: nat)
    requires |replies| == PROM_WORDS && |prev.prom| == PROM_WORDS && k < PROM_WORDS
    ensures var cal := InitialisedState(prev, resetOk, replies);
      && (resetOk && (forall j :: 0 <= j <= k ==> replies[j].Some?) ==>
            cal.prom[k] == AssembleWord(replies[k].value.0, replies[k].value.1))
      && (!(resetOk && forall j :: 0 <= j <= k ==> replies[j].Some?) ==> cal.prom[k] == prev.prom[k])
  {
    var n := FirstFailedRead(replies, 0);
    if n <= k {
      assert replies[n].None?;
    }
    if resetOk {
      assert InitialisedState(prev, resetOk, replies).prom == PromAfterReads(prev.prom, replies);
    }
  }

  /** The state agrees with the outcome `initialise()` reports: on success
      it is the calibration derived from the PROM read; when a PROM read
      throws, exactly the words whose reads were issued before the failing
      one are new, and nothing else changed. */
  lemma InitialisedStateAgrees(prev: Calibration, resetOk: bool, replies: seq<Option<(bv8, bv8)>>)
    requires |replies| == PROM_WORDS && |prev.prom| == PROM_WORDS
    ensures var r := Initialise(resetOk, replies);
      var cal := InitialisedState(prev, resetOk, replies);
      && (r.outcome.Ok? ==> cal == r.outcome.value)
      && (r.outcome.Err? && resetOk ==>
            && cal == prev.(prom := cal.prom)
            && cal.prom[|r.commands| - 2..] == prev.prom[|r.commands| - 2..]
            && cal.prom[..|r.commands| - 2] == AssembleProm(Unwrap(replies[..|r.commands| - 2])))
  {
    if Initialise(resetOk, replies).outcome.Ok? {
      InitialisedOnSuccess(prev, resetOk, replies);
    } else if resetOk {
      InitialisedOnFailure(prev, replies);
    }
  }

  lemma InitialisedOnSuccess(prev: Calibration, resetOk: bool, replies: seq<Option<(bv8, bv8)>>)
    requires |replies| == PROM_WORDS && |prev.prom| == PROM_WORDS
    requires Initialise(resetOk, replies).outcome.Ok?
    ensures InitialisedState(prev, resetOk, replies) == Initialise(resetOk, replies).outcome.value
  {
    var pairs := InitialisePairs(resetOk, replies);
    var cal := InitialisedState(prev, resetOk, replies);
    InitialiseOutcome(resetOk, replies);
    assert FirstFailedRead(replies, 0) == PROM_WORDS;
    forall k | 0 <= k < PROM_WORDS
      ensures cal.prom[k] == AssembleProm(pairs)[k]
    {
      AssemblePromAt(pairs, k);
    }
    assert cal.prom == AssembleProm(pairs);
  }

  lemma InitialisedOnFailure(prev: Calibration, replies: seq<Option<(bv8, bv8)>>)
    requires |replies| == PROM_WORDS && |prev.prom| == PROM_WORDS
    requires Initialise(true, replies).outcome.Err?
    ensures var m := |Initialise(true, replies).commands| - 2;
      var cal := InitialisedState(prev, true, replies);
      && 0 <= m < PROM_WORDS
      && cal == prev.(prom := cal.prom)
      && cal.prom[m..] == prev.prom[m..]
      && cal.prom[..m] == AssembleProm(Unwrap(replies[..m]))
  {
    InitialiseOutcome(true, replies);
    var m := |Initialise(true, replies).commands| - 2;
    var n := FirstFailedRead(replies, 0);
    assert n == m;
    var cal := InitialisedState(prev, true, replies);
    var pairs := Unwrap(replies[..m]);
    forall k | 0 <= k < m
      ensures cal.prom[k] == AssembleProm(pairs)[k]
    {
      AssemblePromAt(pairs, k);
    }
    assert cal.prom[..m] == AssembleProm(pairs);
  }

  /** The pairs of replies that are all present. */
  function Unwrap(replies: seq<Option<(bv8, bv8)>>): (pairs: seq<(bv8, bv8)>)
    requires forall k :: 0 <= k < |replies| ==> replies[k].Some?
    ensures |pairs| == |replies|
    ensures forall k :: 0 <= k < |replies| ==> replies[k] == Some(pairs[k])
  {
    seq(|replies|, k requires 0 <= k < |replies| => replies[k].value)
  }

  /** The calibration `initialise()` derives from a PROM: C1..C6 are
      words 1..6, the stored CRC is the low nibble of word 7, and the
      computed one is the checksum of the whole PROM. */
  function Coefficients(prom: seq<bv32>): (cal: Calibration)
    requires |prom| == PROM_WORDS
    ensures cal.prom == prom
    ensures cal.c1 == prom[1] && cal.c2 == prom[2] && cal.c3 == prom[3]
            && cal.c4 == prom[4] && cal.c5 == prom[5] && cal.c6 == prom[6]
    ensures cal.crc == prom[7] & 0xF && cal.crc < 16 && cal.computedCrc == ReferenceCrc4(prom)
  {
    var c1, c2, c3, c4 := prom[1], prom[2], prom[3], prom[4];
    Calibration(prom, c1, c2, c3, c4, prom[5], prom[6],
                prom[7] & 0x0F, ReferenceCrc4(prom),
                c1 * 0x8000, c2 * 0x1_0000, c3 / 0x100, c4 / 0x80)
  }

  /** On a PROM of 16-bit words, Java `long` arithmetic derives every term
      without overflow: the coefficients are the PROM words, SENS_T1 and
      OFF_T1 are exact multiples of 2^15 and 2^16 that divide back to C1 and
      C2, and TCS and TCO are the floors of C3 / 2^8 and C4 / 2^7. All of
      them are non-negative and below 2^32. */
  lemma CoefficientsExact(prom: seq<bv32>)
    requires |prom| == PROM_WORDS && Words16(prom)
    ensures var cal := Coefficients(prom);
      && cal.c1 == prom[1] && cal.c2 == prom[2] && cal.c3 == prom[3]
      && cal.c4 == prom[4] && cal.c5 == prom[5] && cal.c6 == prom[6]
      && cal.sensT1 / 0x8000 == cal.c1 && cal.sensT1 % 0x8000 == 0
      && cal.offT1 / 0x1_0000 == cal.c2 && cal.offT1 % 0x1_0000 == 0
      && cal.tcs < 0x100 && cal.tcs * 0x100 <= cal.c3 < cal.tcs * 0x100 + 0x100
      && cal.tco < 0x200 && cal.tco * 0x80 <= cal.c4 < cal.tco * 0x80 + 0x80
  {
    assert prom[1] < 0x1_0000 && prom[2] < 0x1_0000;
    assert prom[3] < 0x1_0000 && prom[4] < 0x1_0000;
  }

  /** The driver's `byte`-to-`int` comparison flags a mismatch exactly when
      the CRC nibble stored in word 7 differs from the reference checksum:
      the computed CRC is below 16, so its sign extension is its value. */
  lemma CrcMismatchIffNibbleDiffers(prom: seq<bv32>)
    requires |prom| == PROM_WORDS
    ensures Coefficients(prom).CrcMismatch() <==> (prom[7] & 0xF) as bv8 != ReferenceCrc4(prom)
  {
    var c := ReferenceCrc4(prom);
    NibbleCompare(c, prom[7] & 0xF);
  }

  lemma NibbleCompare(c: bv8, n: bv32)
    requires c < 16 && n < 16
    ensures (SignExtend(c) != n) <==> (n as bv8 != c)
  {
  }

  /** The last ADC results, `int` fields holding 24-bit values. */
  datatype AdcValues = AdcValues(d1: bv32, d2: bv32)

  /** The transactions of `conversion()` when none throws: convert D2 at
      the highest oversampling, read the ADC, convert D1, read the ADC. */
  const CONVERSION_COMMANDS: seq<Command> :=
    [Convert(CONVERT_D2_OSR_4096), ReadAdc, Convert(CONVERT_D1_OSR_4096), ReadAdc]

  /** The ADC values after `conversion()` and the transactions it issued. */
  datatype ConversionRun = ConversionRun(values: AdcValues, commands: seq<Command>)

  /** `conversion()`: D2 (temperature) is converted and read first, then D1
      (pressure). `d2Sent` and `d1Sent` say whether each conversion command
      went out, the replies are the ADC reads, `None` when one threw. An
      exception is caught and printed, so a failed transaction ends the
      sequence and leaves that value and every later one as they were. */
  function Conversion(s: AdcValues, d2Sent: bool, d2Reply: Option<(bv8, bv8, bv8)>,
                      d1Sent: bool, d1Reply: Option<(bv8, bv8, bv8)>): (r: ConversionRun)
    ensures 1 <= |r.commands| <= 4 && r.commands == CONVERSION_COMMANDS[..|r.commands|]
    ensures |r.commands| == (if !d2Sent then 1 else if d2Reply.None? then 2 else if !d1Sent then 3 else 4)
    ensures r.values.d2 == if d2Sent && d2Reply.Some?
                           then Assemble24(d2Reply.value.0, d2Reply.value.1, d2Reply.value.2) else s.d2
    ensures r.values.d1 == if d2Sent && d2Reply.Some? && d1Sent && d1Reply.Some?
                           then Assemble24(d1Reply.value.0, d1Reply.value.1, d1Reply.value.2) else s.d1
    ensures r.values.d2 != s.d2 ==> r.values.d2 < 0x100_0000
    ensures r.values.d1 != s.d1 ==> r.values.d1 < 0x100_0000
  {
    var c := CONVERSION_COMMANDS;
    if !d2Sent then ConversionRun(s, c[..1])
    else match d2Reply
      case None => ConversionRun(s, c[..2])
      case Some(b2) =>
        var s2 := s.(d2 := Assemble24(b2.0, b2.1, b2.2));
        if !d1Sent then ConversionRun(s2, c[..3])
        else match d1Reply
          case None => ConversionRun(s2, c)
          case Some(b1) => ConversionRun(s2.(d1 := Assemble24(b1.0, b1.1, b1.2)), c)
  }
}

=== FILE: calib_srco_trco.dfy ===
/** `Calib_SRCO_TRCO_Register` of the AS3935 lightning sensor, at 0x3A:
    bit 6 is CALIB_TRCO and bit 7 reports that the TRCO calibration
    completed. */
module CalibSrcoTrco {
  import opened Base
  import opened Registers

  const ADDRESS: bv32 := 0x3A
  const CALIB_TRCO_BIT: nat := 6
  const CALIB_TRCO_DONE_BIT: nat := 7

  /** `1 << CALIB_SRCO_TRCO_CALIB_TRCO_DONE_BIT`. */
  const DONE_MASK: bv32 := 1 << CALIB_TRCO_DONE_BIT

  /** The register as constructed, holding an initial cached value. */
  function Create(value: bv32): (r: Register)
    ensures r.address == 0x3A && r.value == value
  {
    Register(ADDRESS, 1, "", value)
  }

  /** `isTRCOCalibrationSuccessful()`: reloads the register, then tests the
      done bit of the value just read. A failed read propagates; otherwise
      the result is the refreshed register and the answer. */
  function IsTRCOCalibrationSuccessful(r: Register, reply: Option<bv32>): (res: Result<(Register, bool), Fault>)
    ensures res.Ok? <==> reply.Some?
    ensures res.Err? ==> res.error == IoFault
    ensures res.Ok? ==> SameRegister(res.value.0, r) && res.value.0.value == reply.value
  {
    match Reload(r, reply)
    case Err(e) => Err(e)
    case Ok(reloaded) => Ok((reloaded, reloaded.value & DONE_MASK != 0))
  }

  /** The answer is bit 7 of the freshly read value, whatever the register
      held before the call. */
  lemma AnswerIsDoneBit(r: Register, v: bv32)
    ensures var res := IsTRCOCalibrationSuccessful(r, Some(v));
      res.Ok? && (res.value.1 <==> v & 0x80 == 0x80)
  {
    DoneBit(v);
  }

  lemma DoneBit(v: bv32)
    ensures (v & DONE_MASK != 0) <==> (v & 0x80 == 0x80)
  {
  }

  /** Bit 6 (CALIB_TRCO) and every other bit apart from bit 7 leave the
      answer alone: the read value and its bit 7 alone give the same answer. */
  lemma OnlyDoneBitMatters(r: Register, v: bv32)
    ensures IsTRCOCalibrationSuccessful(r, Some(v)).value.1
        == IsTRCOCalibrationSuccessful(r, Some(v & 0x80)).value.1
  {
    DoneBitOnly(v);
  }

  lemma DoneBitOnly(v: bv32)
    ensures (v & DONE_MASK != 0) == ((v & 0x80) & DONE_MASK != 0)
  {
  }
}

=== FILE: ht16k33_controller.dfy ===
/** `HT16K33Controller`: the JSON front end of an HT16K33 LED display. It
    applies partial updates (brightness, blink rate, on/off, and one of
    text, raw segments or a background task), reports the display's state,
    and keeps at most one background task (the clock or the self test)
    running on the display.

    `HT16K33Driver` is not part of this model. Its state is the record
    `Display`, and each driver call is an `Event` in the trace the
    controller produces; a call is taken to record what it was given
    (`setBrightness` the level, `setBlinkRate` the rate, `turnOn`/`turnOff`
    the on-state, `write` the text shown) and `writeRaw` to leave the text
    alone. Driver calls are taken not to fail. */
module Ht16k33Controller {
  import opened Base
  import opened JsonDoc

  /** The two background tasks `setPayload` can start. */
  datatype TaskKind = Clock | TestTask

  /** What the driver reports: the text shown, the blink rate's name, the
      on-state and the brightness. */
  datatype Display = Display(current: string, rate: string, on: bool, brightness: int)

  /** A controller: the driver (`None` for the controller built without
      one) and the current task slot. */
  datatype Controller = Controller(display: Option<Display>, task: Option<TaskKind>)

  /** One call the controller makes on the driver or on a task. */
  datatype Event =
    | SetBrightness(level: int)
    | SetBlinkRate(rate: string)
    | TurnOn
    | TurnOff
    | Write(text: string)
    | WriteRaw(text: string)
    | Stop(task: TaskKind)       // `Task.stop()`
    | Install(task: TaskKind)    // the task becomes the current one

  /** The kind of a call, by the stage of `setPayload` that makes it. */
  datatype CallKind = BrightnessCall | BlinkCall | PowerCall | TextCall | RawCall | TaskCall

  function KindOf(e: Event): CallKind {
    match e
    case SetBrightness(_) => BrightnessCall
    case SetBlinkRate(_) => BlinkCall
    case TurnOn => PowerCall
    case TurnOff => PowerCall
    case Write(_) => TextCall
    case WriteRaw(_) => RawCall
    case Stop(_) => TaskCall
    case Install(_) => TaskCall
  }

  /** The controller after an operation, with the calls it made. */
  datatype Step = Step(ctl: Controller, events: seq<Event>)

  // ---------------------------------------------------------------------
  // The task slot

  /** A trace keeps the one-task discipline when a task is stopped only
      while it is the current one and installed only while none is. The
      result is the slot at the end, or `None` for a trace that breaks the
      discipline. */
  function Replay(slot: Option<TaskKind>, events: seq<Event>): Option<Option<TaskKind>>
    decreases |events|
  {
    if |events| == 0 then Some(slot)
    else match events[0]
      case Stop(t) => if slot == Some(t) then Replay(None, events[1..]) else None
      case Install(t) => if slot.None? then Replay(Some(t), events[1..]) else None
      case _ => Replay(slot, events[1..])
  }

  lemma {:induction false} ReplayAppend(slot: Option<TaskKind>, a: seq<Event>, b: seq<Event>)
    ensures Replay(slot, a + b)
         == if Replay(slot, a).Some? then Replay(Replay(slot, a).value, b) else None
    decreases |a|
  {
    if |a| > 0 {
      assert (a + b)[1..] == a[1..] + b;
      match a[0]
      case Stop(t) => if slot == Some(t) { ReplayAppend(None, a[1..], b); }
      case Install(t) => if slot.None? { ReplayAppend(Some(t), a[1..], b); }
      case _ => ReplayAppend(slot, a[1..], b);
    } else {
      assert a + b == b;
    }
  }

  /** `cancelCurrentTask()`: stop the current task, if any, and empty the
      slot. */
  function CancelCurrentTask(c: Controller): (r: Step)
    ensures r.ctl.task.None? && r.ctl.display == c.display
    ensures Replay(c.task, r.events) == Some(None)
    ensures c.task.None? ==> r.events == []
  {
    if c.task.Some? then Step(c.(task := None), [Stop(c.task.value)])
    else Step(c, [])
  }

  /** `setTask(t)`: cancel the current task, then install `t`. */
  function SetTask(c: Controller, t: TaskKind): (r: Step)
    ensures r.ctl.task == Some(t) && r.ctl.display == c.display
    ensures Replay(c.task, r.events) == Some(Some(t))
    ensures |r.events| > 0 && r.events[|r.events| - 1] == Install(t)
    ensures c.task.Some? ==> r.events == [Stop(c.task.value), Install(t)]
  {
    var s := CancelCurrentTask(c);
    ReplayAppend(c.task, s.events, [Install(t)]);
    Step(s.ctl.(task := Some(t)), s.events + [Install(t)])
  }

  /** `close()`: cancel the current task. */
  function Close(c: Controller): (r: Step)
    ensures r.ctl.task.None? && r.ctl.display == c.display
    ensures Replay(c.task, r.events) == Some(None)
  {
    CancelCurrentTask(c)
  }

  /** Closing twice is closing once: the second close makes no call. */
  lemma CloseIdempotent(c: Controller)
    ensures Close(Close(c).ctl) == Step(Close(c).ctl, [])
  {
  }

  // ---------------------------------------------------------------------
  // getUpdatePayload

  /** `getUpdatePayload()`: the display's text, blink rate, on-state and
      brightness; an empty document without a display. */
  function GetUpdatePayload(c: Controller): (p: Doc)
    ensures c.display.None? ==> p == map[]
    ensures c.display.Some? ==> p.Keys == {"display", "blink", "enabled", "brightness"}
  {
    if c.display.None? then map[]
    else
      var d := c.display.value;
      map["display" := JStr(d.current), "blink" := JStr(d.rate),
          "enabled" := JBool(d.on), "brightness" := JNumber(d.brightness)]
  }

  // ---------------------------------------------------------------------
  // setPayload

  /** The state of `setPayload` part way through: the controller, the
      response built so far, the calls made, and the exception if one was
      thrown (after which nothing more happens). */
  datatype Update = Update(ctl: Controller, response: Doc, events: seq<Event>, fault: Option<Fault>)

  /** The keys a response can hold. */
  const RESPONSE_KEYS: set<string> := {"brightness", "blink", "enabled", "display", "raw", "task"}

  /** The text `task` writes to blank the display. */
  const BLANK: string := "    "

  /** The longest text, in UTF-16 units, that `display` writes. */
  const MAX_TEXT: nat := 5

  /** `setPayload(doc)`: the three settings, then the content, each stage
      skipped when its key is absent; an exception ends the update with the
      calls made so far. `rates` are the names `BlinkRate.valueOf` accepts. */
  function SetPayload(c: Controller, doc: Doc, rates: set<string>): (u: Update)
    ensures u.ctl.display.Some? <==> c.display.Some?
    ensures u.response.Keys <= RESPONSE_KEYS * doc.Keys
    ensures Replay(c.task, u.events) == Some(u.ctl.task)
    ensures u.fault.Some? ==> u.fault.value.UnknownName? || u.fault.value in CONTENT_FAULTS
                              || u.fault.value == JsonFault("brightness")
  {
    if c.display.None? then Update(c, map[], [], None)
    else
      var u3 := Settings(c, doc, rates);
      SettingsReplay(c, doc, rates);
      if u3.fault.Some? then u3
      else
        var u := ApplyContent(u3, doc);
        ContentReplay(u3, doc);
        ReplayThenContent(c.task, u3, u);
        u
  }

  /** The exceptions the content stage can throw: a value that is no
      string. */
  const CONTENT_FAULTS: set<Fault> := {JsonFault("display"), JsonFault("raw"), JsonFault("task")}

  /** Brightness, blink rate and on-state, in that order; none of them
      touches the task. */
  function Settings(c: Controller, doc: Doc, rates: set<string>): (u: Update)
    requires c.display.Some?
    ensures u.ctl.display.Some? && u.ctl.task == c.task && u.ctl.display.value.current == c.display.value.current
    ensures Extends(Update(c, map[], [], None), u, {"brightness", "blink", "enabled"},
                    {BrightnessCall, BlinkCall, PowerCall})
    ensures u.response.Keys <= doc.Keys
    ensures u.fault.Some? ==> u.fault == Some(JsonFault("brightness")) || u.fault.value.UnknownName?
  {
    var u0 := Update(c, map[], [], None);
    var u1 := ApplyBrightness(u0, doc);
    if u1.fault.Some? then u1 else
    var u2 := ApplyBlink(u1, doc, rates);
    ExtendsTrans(u0, u1, u2, {"brightness"}, {BrightnessCall}, {"blink"}, {BlinkCall});
    if u2.fault.Some? then u2 else
    var u3 := ApplyEnabled(u2, doc);
    ExtendsTrans(u0, u2, u3, {"brightness", "blink"}, {BrightnessCall, BlinkCall}, {"enabled"}, {PowerCall});
    u3
  }

  /** Rate, on-state and brightness agree: what the content stage leaves
      alone. */
  predicate SameSettings(a: Display, b: Display) {
    a.rate == b.rate && a.on == b.on && a.brightness == b.brightness
  }

  predicate Running(u: Update) {
    u.ctl.display.Some? && u.fault.None?
  }

  /** `r` continues `u`: it keeps the calls made so far and adds only calls
      of the given kinds, and it keeps the response so far, adding or
      replacing only the given keys. */
  ghost predicate Extends(u: Update, r: Update, keys: set<string>, kinds: set<CallKind>) {
    |u.events| <= |r.events| && r.events[..|u.events|] == u.events
    && (forall k :: |u.events| <= k < |r.events| ==> KindOf(r.events[k]) in kinds)
    && u.response.Keys <= r.response.Keys <= u.response.Keys + keys
    && (forall key :: key in u.response && key !in keys ==> r.response[key] == u.response[key])
  }

  lemma ExtendsTrans(u: Update, v: Update, w: Update, k1: set<string>, s1: set<CallKind>,
                     k2: set<string>, s2: set<CallKind>)
    requires Extends(u, v, k1, s1) && Extends(v, w, k2, s2)
    ensures Extends(u, w, k1 + k2, s1 + s2)
  {
    assert w.events[..|u.events|] == w.events[..|v.events|][..|u.events|];
    forall k | |u.events| <= k < |w.events| ensures KindOf(w.events[k]) in s1 + s2 {
      if k < |v.events| {
        assert w.events[k] == w.events[..|v.events|][k];
      }
    }
  }

  /** One call made and one key echoed. */
  function Emit(u: Update, ctl: Controller, key: string, value: Json, e: Event): (r: Update)
    ensures r.ctl == ctl && r.fault == u.fault && r.response == u.response[key := value]
    ensures r.events == u.events + [e]
    ensures Extends(u, r, {key}, {KindOf(e)})
  {
    var r := Update(ctl, u.response[key := value], u.events + [e], u.fault);
    assert r.events[..|u.events|] == u.events;
    r
  }

  /** The masked level `(byte) (brightness & 0xf)`: for an `int`, the
      low four bits are the value modulo 16, taken non-negative. */
  function Level(brightness: int): (l: int)
    ensures 0 <= l < 16
  {
    brightness % 16
  }

  /** Brightness: written, masked to 0..15, and echoed unmasked, only
      when it differs from the driver's. A value that is not an integer
      throws. */
  function ApplyBrightness(u: Update, doc: Doc): (r: Update)
    requires Running(u)
    ensures r.ctl.display.Some? && r.ctl.task == u.ctl.task
    ensures r.ctl.display.value == u.ctl.display.value.(brightness := r.ctl.display.value.brightness)
    ensures Extends(u, r, {"brightness"}, {BrightnessCall})
    ensures r.response.Keys <= u.response.Keys + doc.Keys
    ensures r.fault.Some? ==> r.events == u.events && r.fault == Some(JsonFault("brightness"))
  {
    var d := u.ctl.display.value;
    if "brightness" !in doc then u
    else match GetInt(doc, "brightness")
      case Err(f) => u.(fault := Some(f))
      case Ok(b) =>
        if b == d.brightness then u
        else Emit(u, u.ctl.(display := Some(d.(brightness := Level(b)))),
                  "brightness", JNumber(b), SetBrightness(Level(b)))
  }

  /** Blink: the named rate is always set and echoed, even when it is the
      current one; a name that is no rate throws. A `null` value stands for
      `OFF`. */
  function ApplyBlink(u: Update, doc: Doc, rates: set<string>): (r: Update)
    requires Running(u)
    ensures r.ctl.display.Some? && r.ctl.task == u.ctl.task
    ensures r.ctl.display.value == u.ctl.display.value.(rate := r.ctl.display.value.rate)
    ensures Extends(u, r, {"blink"}, {BlinkCall})
    ensures r.response.Keys <= u.response.Keys + doc.Keys
    ensures r.fault.Some? ==> r.events == u.events && "blink" in doc && r.fault == Some(UnknownName(OptString(doc, "blink", "OFF")))
  {
    var d := u.ctl.display.value;
    if "blink" !in doc then u
    else
      var name := OptString(doc, "blink", "OFF");
      if name !in rates then u.(fault := Some(UnknownName(name)))
      else Emit(u, u.ctl.(display := Some(d.(rate := name))), "blink", JStr(name), SetBlinkRate(name))
  }

  /** Enabled: the display is turned on or off, and the new state echoed,
      only when it differs from the current one. A value that is no boolean
      reads as the current state. */
  function ApplyEnabled(u: Update, doc: Doc): (r: Update)
    requires Running(u)
    ensures Running(r) && r.ctl.task == u.ctl.task
    ensures r.ctl.display.value == u.ctl.display.value.(on := r.ctl.display.value.on)
    ensures Extends(u, r, {"enabled"}, {PowerCall})
    ensures r.response.Keys <= u.response.Keys + doc.Keys
  {
    var d := u.ctl.display.value;
    if "enabled" !in doc then u
    else
      var isOn := OptBoolean(doc, "enabled", d.on);
      if isOn == d.on then u
      else Emit(u, u.ctl.(display := Some(d.(on := isOn))), "enabled", JBool(isOn),
                if isOn then TurnOn else TurnOff)
  }

  /** `u` after cancelling the current task. */
  function Cancelled(u: Update): (r: Update)
    ensures r.ctl.task.None? && r.ctl.display == u.ctl.display
    ensures r.response == u.response && r.fault == u.fault
    ensures Extends(u, r, {}, {TaskCall})
    ensures Replay(u.ctl.task, r.events[|u.events|..]) == Some(None)
  {
    var s := CancelCurrentTask(u.ctl);
    var r := u.(ctl := s.ctl, events := u.events + s.events);
    assert r.events[..|u.events|] == u.events && r.events[|u.events|..] == s.events;
    r
  }

  /** Display text, raw segments or a task, whichever comes first in that
      order; each cancels the current task first. */
  function ApplyContent(u: Update, doc: Doc): (r: Update)
    requires Running(u)
    ensures r.ctl.display.Some? && SameSettings(u.ctl.display.value, r.ctl.display.value)
    ensures Extends(u, r, {"display", "raw", "task"}, {TextCall, RawCall, TaskCall})
    ensures r.response.Keys <= u.response.Keys + doc.Keys
    ensures r.fault.Some? ==> r.fault.value in CONTENT_FAULTS
  {
    if "display" in doc then
      var v := Cancelled(u);
      match GetString(doc, "display")
      case Err(f) => v.(fault := Some(f))
      case Ok(text) =>
        if Utf16Length(text) <= MAX_TEXT then
          var w := Emit(v, v.ctl.(display := Some(v.ctl.display.value.(current := text))),
                        "display", JStr(text), Write(text));
          ExtendsTrans(u, v, w, {}, {TaskCall}, {"display"}, {TextCall});
          w
        else v
    else if "raw" in doc then
      var v := Cancelled(u);
      match GetString(doc, "raw")
      case Err(f) => v.(fault := Some(f))
      case Ok(text) =>
        var w := Emit(v, v.ctl, "raw", JStr(text), WriteRaw(text));
        ExtendsTrans(u, v, w, {}, {TaskCall}, {"raw"}, {RawCall});
        w
    else if "task" in doc then
      var v := Cancelled(u);
      var b := Blanked(v);
      ExtendsTrans(u, v, b, {}, {TaskCall}, {}, {TextCall});
      match GetString(doc, "task")
      case Err(f) => b.(fault := Some(f))
      case Ok(name) =>
        var w := StartNamedTask(b, name);
        ExtendsTrans(u, b, w, {}, {TaskCall, TextCall}, {"task"}, {TaskCall});
        w
    else u
  }

  /** `display.write("    ")`. */
  function Blanked(u: Update): (r: Update)
    requires u.ctl.display.Some?
    ensures r.ctl.display == Some(u.ctl.display.value.(current := BLANK))
    ensures r.ctl.task == u.ctl.task && r.response == u.response && r.fault == u.fault
    ensures r.events == u.events + [Write(BLANK)]
    ensures Extends(u, r, {}, {TextCall})
  {
    var r := u.(ctl := u.ctl.(display := Some(u.ctl.display.value.(current := BLANK))),
                events := u.events + [Write(BLANK)]);
    assert r.events[..|u.events|] == u.events;
    r
  }

  /** The two independent name tests of the task branch: `clock` and
      `test`, each compared without case, each starting its task and
      echoing its lower-case name. */
  function StartNamedTask(u: Update, name: string): (r: Update)
    requires u.ctl.display.Some?
    ensures r.ctl.display == u.ctl.display && r.fault == u.fault
    ensures Extends(u, r, {"task"}, {TaskCall})
  {
    var v := if EqualsIgnoreCase(name, "clock") then StartTask(u, Clock, "clock") else u;
    var w := if EqualsIgnoreCase(name, "test") then StartTask(v, TestTask, "test") else v;
    ExtendsTrans(u, v, w, {"task"}, {TaskCall}, {"task"}, {TaskCall});
    w
  }

  function StartTask(u: Update, t: TaskKind, echo: string): (r: Update)
    ensures r.ctl.task == Some(t) && r.ctl.display == u.ctl.display && r.fault == u.fault
    ensures r.response == u.response["task" := JStr(echo)]
    ensures Extends(u, r, {"task"}, {TaskCall})
    ensures Replay(u.ctl.task, r.events[|u.events|..]) == Some(Some(t))
  {
    var s := SetTask(u.ctl, t);
    var r := u.(ctl := s.ctl, response := u.response["task" := JStr(echo)], events := u.events + s.events);
    assert r.events[..|u.events|] == u.events && r.events[|u.events|..] == s.events;
    r
  }

  // ---------------------------------------------------------------------
  // Properties of setPayload

  /** Whether the brightness and blink stages get through without an
      exception. */
  predicate EarlyStagesSucceed(doc: Doc, rates: set<string>) {
    ("brightness" !in doc || GetInt(doc, "brightness").Ok?)
    && ("blink" !in doc || OptString(doc, "blink", "OFF") in rates)
  }

  /** The brightness a document asks for when it differs from the
      driver's, and `None` when it asks for none or for the current one. */
  function BrightnessChange(d: Display, doc: Doc): Option<int> {
    if "brightness" in doc && GetInt(doc, "brightness").Ok?
       && GetInt(doc, "brightness").value != d.brightness
    then Some(GetInt(doc, "brightness").value) else None
  }

  /** Without a display the response is empty and nothing is called. */
  lemma NoDisplayNoEffect(c: Controller, doc: Doc, rates: set<string>)
    requires c.display.None?
    ensures SetPayload(c, doc, rates) == Update(c, map[], [], None)
  {
  }

  /** A key the controller does not know, such as the schema's
      `blink-fast`, is ignored: adding it to the document changes neither
      the calls, the state, the response nor the exception. */
  lemma IgnoresOtherKeys(c: Controller, doc: Doc, rates: set<string>, k: string, v: Json)
    requires k !in RESPONSE_KEYS
    ensures SetPayload(c, doc[k := v], rates) == SetPayload(c, doc, rates)
  {
    if c.display.Some? {
      SettingsIgnoreOtherKeys(c, doc, rates, k, v);
      var u3 := Settings(c, doc, rates);
      if u3.fault.None? {
        ContentIgnoresOtherKeys(u3, doc, k, v);
      }
    }
  }

  lemma SettingsIgnoreOtherKeys(c: Controller, doc: Doc, rates: set<string>, k: string, v: Json)
    requires c.display.Some? && k !in RESPONSE_KEYS
    ensures Settings(c, doc[k := v], rates) == Settings(c, doc, rates)
  {
    var u0 := Update(c, map[], [], None);
    BrightnessIgnoresOtherKeys(u0, doc, k, v);
    var u1 := ApplyBrightness(u0, doc);
    if u1.fault.None? {
      BlinkIgnoresOtherKeys(u1, doc, rates, k, v);
      var u2 := ApplyBlink(u1, doc, rates);
      if u2.fault.None? {
        EnabledIgnoresOtherKeys(u2, doc, k, v);
      }
    }
  }

  lemma BrightnessIgnoresOtherKeys(u: Update, doc: Doc, k: string, v: Json)
    requires Running(u) && k !in RESPONSE_KEYS
    ensures ApplyBrightness(u, doc[k := v]) == ApplyBrightness(u, doc)
  {
    SameEntry(doc, k, v, "brightness");
  }

  lemma BlinkIgnoresOtherKeys(u: Update, doc: Doc, rates: set<string>, k: string, v: Json)
    requires Running(u) && k !in RESPONSE_KEYS
    ensures ApplyBlink(u, doc[k := v], rates) == ApplyBlink(u, doc, rates)
  {
    SameEntry(doc, k, v, "blink");
  }

  lemma EnabledIgnoresOtherKeys(u: Update, doc: Doc, k: string, v: Json)
    requires Running(u) && k !in RESPONSE_KEYS
    ensures ApplyEnabled(u, doc[k := v]) == ApplyEnabled(u, doc)
  {
    SameEntry(doc, k, v, "enabled");
  }

  lemma ContentIgnoresOtherKeys(u: Update, doc: Doc, k: string, v: Json)
    requires Running(u) && k !in RESPONSE_KEYS
    ensures ApplyContent(u, doc[k := v]) == ApplyContent(u, doc)
  {
    SameEntry(doc, k, v, "display");
    SameEntry(doc, k, v, "raw");
    SameEntry(doc, k, v, "task");
  }

  /** Setting another key leaves the entry of `key` as it was. */
  lemma SameEntry(doc: Doc, k: string, v: Json, key: string)
    requires k != key
    ensures key in doc[k := v] <==> key in doc
    ensures key in doc ==> doc[k := v][key] == doc[key]
  {
  }

  /** A document holding only `brightness`: when the value is the
      driver's, the response is empty and nothing is written; otherwise the
      masked level is written once and the value echoed as given. */
  lemma BrightnessOnly(c: Controller, b: int)
    requires c.display.Some? && IsInt32(b)
    ensures var u := SetPayload(c, map["brightness" := JNumber(b)], {});
            u.fault.None? && u.ctl.task == c.task
            && (b == c.display.value.brightness ==> u.response == map[] && u.events == [])
            && (b != c.display.value.brightness ==>
                  u.response == map["brightness" := JNumber(b)]
                  && u.events == [SetBrightness(Level(b))]
                  && u.ctl.display.value.brightness == Level(b))
  {
  }

  /** The driver keeps only the masked level, so a brightness outside
      0..15 never compares equal to it: sending the same document twice
      writes both times. */
  lemma BrightnessOutOfRangeRewritten(c: Controller, b: int)
    requires c.display.Some? && 0 <= c.display.value.brightness < 16
    requires IsInt32(b) && !(0 <= b < 16)
    ensures var doc := map["brightness" := JNumber(b)];
            var once := SetPayload(c, doc, {});
            once.events == [SetBrightness(Level(b))]
            && SetPayload(once.ctl, doc, {}).events == [SetBrightness(Level(b))]
  {
    var doc := map["brightness" := JNumber(b)];
    BrightnessOnly(c, b);
    var once := SetPayload(c, doc, {});
    assert once.ctl.display.Some? && once.ctl.display.value.brightness == Level(b);
    BrightnessOnly(once.ctl, b);
  }

  /** The brightness stage on its own: a write and an echo when the value
      differs, nothing when it is the current one, and an exception, with
      nothing written, when it is no integer. */
  lemma BrightnessStage(c: Controller, doc: Doc)
    requires c.display.Some?
    ensures var u := ApplyBrightness(Update(c, map[], [], None), doc);
            var change := BrightnessChange(c.display.value, doc);
            u.events == (if change.Some? then [SetBrightness(Level(change.value))] else [])
            && u.response == (if change.Some? then map["brightness" := JNumber(change.value)] else map[])
            && (u.fault.Some? <==> "brightness" in doc && GetInt(doc, "brightness").Err?)
  {
  }

  /** The keys and calls of the stages after brightness. */
  const LATER_KEYS: set<string> := {"blink", "enabled", "display", "raw", "task"}
  const LATER_KINDS: set<CallKind> := {BlinkCall, PowerCall, TextCall, RawCall, TaskCall}

  /** Whatever happens after the brightness stage only appends calls of the
      later stages and only echoes their keys. */
  lemma LaterStages(c: Controller, doc: Doc, rates: set<string>)
    requires c.display.Some?
    ensures Extends(ApplyBrightness(Update(c, map[], [], None), doc), SetPayload(c, doc, rates),
                    LATER_KEYS, LATER_KINDS)
  {
    var u1 := ApplyBrightness(Update(c, map[], [], None), doc);
    if u1.fault.None? {
      var u2 := ApplyBlink(u1, doc, rates);
      if u2.fault.None? {
        var u3 := ApplyEnabled(u2, doc);
        var u4 := ApplyContent(u3, doc);
        assert Settings(c, doc, rates) == u3;
        ExtendsTrans(u1, u2, u3, {"blink"}, {BlinkCall}, {"enabled"}, {PowerCall});
        ExtendsTrans(u1, u3, u4, {"blink", "enabled"}, {BlinkCall, PowerCall},
                     {"display", "raw", "task"}, {TextCall, RawCall, TaskCall});
      }
    }
  }

  /** Brightness is written at most once, as the first call, exactly when
      the document asks for a different value; the written level is the
      masked value and the echo the value as given. */
  lemma BrightnessWrittenOnlyWhenChanged(c: Controller, doc: Doc, rates: set<string>)
    requires c.display.Some?
    ensures var u := SetPayload(c, doc, rates);
            var change := BrightnessChange(c.display.value, doc);
            ((|u.events| > 0 && u.events[0].SetBrightness?) <==> change.Some?)
            && (change.Some? ==> u.events[0] == SetBrightness(Level(change.value)))
            && (forall k :: 0 < k < |u.events| ==> !u.events[k].SetBrightness?)
            && ("brightness" in u.response <==> change.Some?)
            && (change.Some? ==> u.response["brightness"] == JNumber(change.value))
  {
    BrightnessStage(c, doc);
    LaterStages(c, doc, rates);
    BrightnessFirst(ApplyBrightness(Update(c, map[], [], None), doc), SetPayload(c, doc, rates),
                    BrightnessChange(c.display.value, doc));
  }

  /** The brightness stage's call and echo survive the later stages, which
      add neither. */
  lemma BrightnessFirst(u1: Update, u: Update, change: Option<int>)
    requires u1.events == (if change.Some? then [SetBrightness(Level(change.value))] else [])
    requires u1.response == (if change.Some? then map["brightness" := JNumber(change.value)] else map[])
    requires Extends(u1, u, LATER_KEYS, LATER_KINDS)
    ensures ((|u.events| > 0 && u.events[0].SetBrightness?) <==> change.Some?)
            && (change.Some? ==> u.events[0] == SetBrightness(Level(change.value)))
            && (forall k :: 0 < k < |u.events| ==> !u.events[k].SetBrightness?)
            && ("brightness" in u.response <==> change.Some?)
            && (change.Some? ==> u.response["brightness"] == JNumber(change.value))
  {
    forall k | |u1.events| <= k < |u.events| ensures !u.events[k].SetBrightness? {
      assert KindOf(u.events[k]) in LATER_KINDS;
    }
    if |u1.events| == 1 {
      assert u.events[0] == u.events[..1][0];
    } else if |u.events| > 0 {
      assert KindOf(u.events[0]) in LATER_KINDS;
    }
  }

  /** The settings throw exactly when brightness is no integer or the
      blink name is no rate; a blink failure comes after the brightness
      write, if any, and before any other call. */
  lemma SettingsFault(c: Controller, doc: Doc, rates: set<string>)
    requires c.display.Some?
    ensures var u := Settings(c, doc, rates);
            (u.fault.Some? <==> !EarlyStagesSucceed(doc, rates))
            && ("brightness" in doc && GetInt(doc, "brightness").Err? ==>
                  u.fault == Some(JsonFault("brightness")) && u.events == [])
            && (u.fault.Some? ==> u.ctl.task == c.task)
  {
  }

  /** An unknown blink name aborts the update after the brightness stage:
      only the brightness write, if any, has been made, and the task is
      left running. */
  lemma UnknownBlinkAborts(c: Controller, doc: Doc, rates: set<string>)
    requires c.display.Some? && ("brightness" !in doc || GetInt(doc, "brightness").Ok?)
    requires "blink" in doc && OptString(doc, "blink", "OFF") !in rates
    ensures var u := SetPayload(c, doc, rates);
            u.fault == Some(UnknownName(OptString(doc, "blink", "OFF")))
            && u.events == ApplyBrightness(Update(c, map[], [], None), doc).events
            && u.ctl.task == c.task
  {
  }

  /** The blink rate is set and echoed whenever the document names one,
      whether or not it is the current rate. */
  lemma BlinkAlwaysEchoed(c: Controller, doc: Doc, rates: set<string>)
    requires c.display.Some? && EarlyStagesSucceed(doc, rates) && "blink" in doc
    ensures var u := SetPayload(c, doc, rates);
            var name := OptString(doc, "blink", "OFF");
            "blink" in u.response && u.response["blink"] == JStr(name)
            && u.ctl.display.value.rate == name
            && SetBlinkRate(name) in u.events
  {
    var name := OptString(doc, "blink", "OFF");
    var u0 := Update(c, map[], [], None);
    var u1 := ApplyBrightness(u0, doc);
    var u2 := ApplyBlink(u1, doc, rates);
    var u3 := ApplyEnabled(u2, doc);
    var u := ApplyContent(u3, doc);
    assert Settings(c, doc, rates) == u3 && SetPayload(c, doc, rates) == u;
    assert u2.events[|u1.events|] == SetBlinkRate(name);
    assert u3.events[..|u2.events|] == u2.events;
    assert u3.events[|u1.events|] == SetBlinkRate(name);
    assert u.events[..|u3.events|] == u3.events;
    assert u.events[|u1.events|] == SetBlinkRate(name);
  }

  /** The display is switched, and the new state echoed, only when the
      document asks for the other state; either way it ends in the state
      asked for. */
  lemma EnabledOnlyWhenChanged(c: Controller, doc: Doc, rates: set<string>)
    requires c.display.Some? && EarlyStagesSucceed(doc, rates) && "enabled" in doc
    ensures var u := SetPayload(c, doc, rates);
            var want := OptBoolean(doc, "enabled", c.display.value.on);
            u.ctl.display.value.on == want
            && ("enabled" in u.response <==> want != c.display.value.on)
            && ("enabled" in u.response ==> u.response["enabled"] == JBool(want))
            && ((TurnOn in u.events || TurnOff in u.events) <==> want != c.display.value.on)
  {
    var u0 := Update(c, map[], [], None);
    var u1 := ApplyBrightness(u0, doc);
    var u2 := ApplyBlink(u1, doc, rates);
    ExtendsTrans(u0, u1, u2, {"brightness"}, {BrightnessCall}, {"blink"}, {BlinkCall});
    assert SetPayload(c, doc, rates) == ApplyContent(ApplyEnabled(u2, doc), doc);
    EnabledThenContent(u2, doc);
  }

  /** The enabled stage followed by the content stage, after stages that
      made no switch call and did not echo `enabled`. */
  lemma EnabledThenContent(u2: Update, doc: Doc)
    requires Running(u2) && "enabled" in doc && "enabled" !in u2.response
    requires forall k :: 0 <= k < |u2.events| ==> KindOf(u2.events[k]) in {BrightnessCall, BlinkCall}
    ensures var u := ApplyContent(ApplyEnabled(u2, doc), doc);
            var want := OptBoolean(doc, "enabled", u2.ctl.display.value.on);
            u.ctl.display.value.on == want
            && ("enabled" in u.response <==> want != u2.ctl.display.value.on)
            && ("enabled" in u.response ==> u.response["enabled"] == JBool(want))
            && ((TurnOn in u.events || TurnOff in u.events) <==> want != u2.ctl.display.value.on)
  {
    var want := OptBoolean(doc, "enabled", u2.ctl.display.value.on);
    var u3 := ApplyEnabled(u2, doc);
    EnabledStage(u2, doc);
    var u := ApplyContent(u3, doc);
    PowerCallsOnlyInEnabled(u2, u3, u, want != u2.ctl.display.value.on);
  }

  /** The enabled stage on its own: one switch call and an echo when the
      state asked for differs from the current one, nothing otherwise. */
  lemma EnabledStage(u: Update, doc: Doc)
    requires Running(u) && "enabled" in doc
    ensures var r := ApplyEnabled(u, doc);
            var want := OptBoolean(doc, "enabled", u.ctl.display.value.on);
            r.ctl.display.value.on == want
            && (want != u.ctl.display.value.on ==>
                  r.events == u.events + [if want then TurnOn else TurnOff]
                  && r.response == u.response["enabled" := JBool(want)])
            && (want == u.ctl.display.value.on ==> r == u)
  {
  }

  /** The switch calls of a trace are those the enabled stage made. */
  lemma PowerCallsOnlyInEnabled(u2: Update, u3: Update, u: Update, changed: bool)
    requires forall k :: 0 <= k < |u2.events| ==> KindOf(u2.events[k]) in {BrightnessCall, BlinkCall}
    requires changed ==> |u3.events| == |u2.events| + 1 && u3.events[..|u2.events|] == u2.events
                         && KindOf(u3.events[|u2.events|]) == PowerCall
    requires !changed ==> u3 == u2
    requires Extends(u3, u, {"display", "raw", "task"}, {TextCall, RawCall, TaskCall})
    ensures (TurnOn in u.events || TurnOff in u.events) <==> changed
  {
    if changed {
      assert u.events[|u2.events|] == u.events[..|u3.events|][|u2.events|];
      assert u.events[|u2.events|] in u.events;
    } else {
      forall k | 0 <= k < |u.events| ensures KindOf(u.events[k]) != PowerCall {
        if k < |u2.events| {
          assert u.events[k] == u.events[..|u2.events|][k];
        }
      }
    }
  }

  // ---------------------------------------------------------------------
  // The content stage

  /** Without `display`, `raw` or `task` the content stage does nothing,
      and the task keeps running. */
  lemma NoContentKeepsTask(u: Update, doc: Doc)
    requires Running(u) && "display" !in doc && "raw" !in doc && "task" !in doc
    ensures ApplyContent(u, doc) == u
  {
  }

  /** `display` wins over `raw` and `task`: the task is stopped, and a
      text of at most five UTF-16 units is written and echoed; a longer one
      is neither written nor echoed. A value that is no string throws after
      the task was stopped. */
  lemma DisplayBranch(u: Update, doc: Doc)
    requires Running(u) && "display" in doc
    ensures var r := ApplyContent(u, doc);
            var cancelled := u.events + CancelCurrentTask(u.ctl).events;
            r.ctl.task.None? && SameSettings(r.ctl.display.value, u.ctl.display.value)
            && (doc["display"].JStr? && Utf16Length(doc["display"].s) <= MAX_TEXT ==>
                  r.fault.None? && r.ctl.display.value.current == doc["display"].s
                  && r.events == cancelled + [Write(doc["display"].s)]
                  && r.response == u.response["display" := doc["display"]])
            && (doc["display"].JStr? && Utf16Length(doc["display"].s) > MAX_TEXT ==>
                  r.fault.None? && r.ctl.display == u.ctl.display
                  && r.events == cancelled && r.response == u.response)
            && (!doc["display"].JStr? ==>
                  r.fault == Some(JsonFault("display")) && r.events == cancelled)
  {
  }

  /** Raw segments, only when there is no `display`: the task is stopped,
      the segments are written as given and echoed. */
  lemma RawBranch(u: Update, doc: Doc)
    requires Running(u) && "display" !in doc && "raw" in doc
    ensures var r := ApplyContent(u, doc);
            var cancelled := u.events + CancelCurrentTask(u.ctl).events;
            r.ctl.task.None? && r.ctl.display == u.ctl.display
            && (doc["raw"].JStr? ==>
                  r.fault.None? && r.events == cancelled + [WriteRaw(doc["raw"].s)]
                  && r.response == u.response["raw" := doc["raw"]])
            && (!doc["raw"].JStr? ==>
                  r.fault == Some(JsonFault("raw")) && r.events == cancelled)
  {
  }

  /** A task, only when there is neither `display` nor `raw`: the current
      task is stopped and the display blanked; a name that folds to `clock`
      or `test` (see `JsonDoc.Fold`) then starts that task and echoes its lower-case name, and any
      other name leaves no task running and echoes nothing. A value that is
      no string throws after the blanking. */
  lemma TaskBranch(u: Update, doc: Doc)
    requires Running(u) && "display" !in doc && "raw" !in doc && "task" in doc
    ensures var r := ApplyContent(u, doc);
            var blanked := u.events + CancelCurrentTask(u.ctl).events + [Write(BLANK)];
            r.ctl.display == Some(u.ctl.display.value.(current := BLANK))
            && (doc["task"].JStr? && FoldString(doc["task"].s) == "clock" ==>
                  r.fault.None? && r.ctl.task == Some(Clock)
                  && r.events == blanked + [Install(Clock)]
                  && r.response == u.response["task" := JStr("clock")])
            && (doc["task"].JStr? && FoldString(doc["task"].s) == "test" ==>
                  r.fault.None? && r.ctl.task == Some(TestTask)
                  && r.events == blanked + [Install(TestTask)]
                  && r.response == u.response["task" := JStr("test")])
            && (doc["task"].JStr? && FoldString(doc["task"].s) != "clock"
                && FoldString(doc["task"].s) != "test" ==>
                  r.fault.None? && r.ctl.task.None? && r.events == blanked && r.response == u.response)
            && (!doc["task"].JStr? ==>
                  r.fault == Some(JsonFault("task")) && r.ctl.task.None? && r.events == blanked)
  {
    var v := Cancelled(u);
    var b := Blanked(v);
    assert v.events == u.events + CancelCurrentTask(u.ctl).events;
    if doc["task"].JStr? {
      var name := doc["task"].s;
      assert ApplyContent(u, doc) == StartNamedTask(b, name);
      NamedTask(b, name);
    } else {
      assert ApplyContent(u, doc) == b.(fault := Some(JsonFault("task")));
    }
  }

  /** From an empty slot, a name that folds to `clock` or `test` installs
      that task and echoes its lower-case name; any other name does
      nothing. */
  lemma NamedTask(u: Update, name: string)
    requires u.ctl.display.Some? && u.ctl.task.None?
    ensures var r := StartNamedTask(u, name);
            (FoldString(name) == "clock" ==>
               r.ctl == u.ctl.(task := Some(Clock)) && r.events == u.events + [Install(Clock)]
               && r.response == u.response["task" := JStr("clock")])
            && (FoldString(name) == "test" ==>
               r.ctl == u.ctl.(task := Some(TestTask)) && r.events == u.events + [Install(TestTask)]
               && r.response == u.response["task" := JStr("test")])
            && (FoldString(name) != "clock" && FoldString(name) != "test" ==> r == u)
  {
    TaskNames(name);
  }

  /** Which of the two name tests a name passes. */
  lemma TaskNames(name: string)
    ensures EqualsIgnoreCase(name, "clock") <==> FoldString(name) == "clock"
    ensures EqualsIgnoreCase(name, "test") <==> FoldString(name) == "test"
  {
    FoldedTaskNames();
    EqualsIgnoreCaseOfFoldedName(name, "clock");
    EqualsIgnoreCaseOfFoldedName(name, "test");
  }

  lemma FoldedTaskNames()
    ensures FoldString("clock") == "clock" && FoldString("test") == "test"
  {
    assert FoldString("k") == "k";
    assert FoldString("ck") == "ck";
    assert FoldString("ock") == "ock";
    assert FoldString("lock") == "lock";
    assert FoldString("t") == "t";
    assert FoldString("st") == "st";
    assert FoldString("est") == "est";
  }

  /** A name spelt with a long s or a Kelvin sign starts its task like the
      plain name. */
  lemma NamedTaskBeyondAscii(u: Update)
    requires u.ctl.display.Some? && u.ctl.task.None?
    ensures StartNamedTask(u, "te\U{017F}t").ctl.task == Some(TestTask)
    ensures StartNamedTask(u, "CLOC\U{212A}").ctl.task == Some(Clock)
  {
    EqualsIgnoreCaseBeyondAscii();
    TaskNames("te\U{017F}t");
    TaskNames("CLOC\U{212A}");
    NamedTask(u, "te\U{017F}t");
    NamedTask(u, "CLOC\U{212A}");
  }

  // ---------------------------------------------------------------------
  // The one-task discipline across setPayload

  /** Calls that are no task calls leave the slot as it is. */
  lemma {:induction false} ReplayNoTask(slot: Option<TaskKind>, events: seq<Event>)
    requires forall k :: 0 <= k < |events| ==> KindOf(events[k]) != TaskCall
    ensures Replay(slot, events) == Some(slot)
    decreases |events|
  {
    if |events| > 0 {
      ReplayNoTask(slot, events[1..]);
    }
  }

  /** The content stage stops a task only while it runs and installs one
      only into an empty slot, ending with the slot it reports. */
  lemma ContentReplay(u: Update, doc: Doc)
    requires Running(u)
    ensures var r := ApplyContent(u, doc);
            Replay(u.ctl.task, r.events[|u.events|..]) == Some(r.ctl.task)
  {
    if "display" in doc {
      DisplayReplay(u, doc);
    } else if "raw" in doc {
      RawReplay(u, doc);
    } else if "task" in doc {
      TaskReplay(u, doc);
    } else {
      NoContentKeepsTask(u, doc);
      assert u.events[|u.events|..] == [];
    }
  }

  lemma DisplayReplay(u: Update, doc: Doc)
    requires Running(u) && "display" in doc
    ensures var r := ApplyContent(u, doc);
            Replay(u.ctl.task, r.events[|u.events|..]) == Some(r.ctl.task)
  {
    var r := ApplyContent(u, doc);
    DisplayBranch(u, doc);
    if doc["display"].JStr? && Utf16Length(doc["display"].s) <= MAX_TEXT {
      ReplayAfterCancel(u, r, [Write(doc["display"].s)]);
    } else {
      ReplayAfterCancel(u, r, []);
    }
  }

  lemma RawReplay(u: Update, doc: Doc)
    requires Running(u) && "display" !in doc && "raw" in doc
    ensures var r := ApplyContent(u, doc);
            Replay(u.ctl.task, r.events[|u.events|..]) == Some(r.ctl.task)
  {
    var r := ApplyContent(u, doc);
    RawBranch(u, doc);
    if doc["raw"].JStr? {
      ReplayAfterCancel(u, r, [WriteRaw(doc["raw"].s)]);
    } else {
      ReplayAfterCancel(u, r, []);
    }
  }

  lemma TaskReplay(u: Update, doc: Doc)
    requires Running(u) && "display" !in doc && "raw" !in doc && "task" in doc
    ensures var r := ApplyContent(u, doc);
            Replay(u.ctl.task, r.events[|u.events|..]) == Some(r.ctl.task)
  {
    TaskBranchEvents(u, doc);
    ReplayBlankThenInstall(u, ApplyContent(u, doc));
  }

  lemma ReplayBlankThenInstall(u: Update, r: Update)
    requires r.events == u.events + CancelCurrentTask(u.ctl).events + [Write(BLANK)]
                         + (if r.ctl.task.Some? then [Install(r.ctl.task.value)] else [])
    ensures Replay(u.ctl.task, r.events[|u.events|..]) == Some(r.ctl.task)
  {
    if r.ctl.task.Some? {
      assert r.events == u.events + CancelCurrentTask(u.ctl).events + [Write(BLANK), Install(r.ctl.task.value)];
      var t := r.ctl.task.value;
      ReplayAfterCancel(u, r, [Write(BLANK), Install(t)]);
      assert [Write(BLANK), Install(t)][1..] == [Install(t)] && [Install(t)][1..] == [];
      assert Replay(None, [Install(t)]) == Some(Some(t));
    } else {
      ReplayAfterCancel(u, r, [Write(BLANK)]);
      assert [Write(BLANK)][1..] == [];
    }
  }

  /** The calls of the task branch: stop, blank, and an install exactly
      when a task ends up running. */
  lemma TaskBranchEvents(u: Update, doc: Doc)
    requires Running(u) && "display" !in doc && "raw" !in doc && "task" in doc
    ensures var r := ApplyContent(u, doc);
            r.events == u.events + CancelCurrentTask(u.ctl).events + [Write(BLANK)]
                        + (if r.ctl.task.Some? then [Install(r.ctl.task.value)] else [])
  {
    TaskBranch(u, doc);
  }

  /** The calls after cancelling replay from an empty slot. */
  lemma ReplayAfterCancel(u: Update, r: Update, tail: seq<Event>)
    requires r.events == u.events + CancelCurrentTask(u.ctl).events + tail
    ensures Replay(u.ctl.task, r.events[|u.events|..]) == Replay(None, tail)
  {
    var cancel := CancelCurrentTask(u.ctl).events;
    assert r.events[|u.events|..] == cancel + tail;
    ReplayAppend(u.ctl.task, cancel, tail);
  }

  /** The settings make no task call. */
  lemma SettingsReplay(c: Controller, doc: Doc, rates: set<string>)
    requires c.display.Some?
    ensures Replay(c.task, Settings(c, doc, rates).events) == Some(c.task)
  {
    var u3 := Settings(c, doc, rates);
    forall k | 0 <= k < |u3.events| ensures KindOf(u3.events[k]) != TaskCall {
      assert KindOf(u3.events[k]) in {BrightnessCall, BlinkCall, PowerCall};
    }
    ReplayNoTask(c.task, u3.events);
  }

  lemma ReplayThenContent(slot: Option<TaskKind>, u3: Update, u: Update)
    requires Replay(slot, u3.events) == Some(u3.ctl.task)
    requires |u3.events| <= |u.events| && u.events[..|u3.events|] == u3.events
    requires Replay(u3.ctl.task, u.events[|u3.events|..]) == Some(u.ctl.task)
    ensures Replay(slot, u.events) == Some(u.ctl.task)
  {
    assert u.events == u3.events + u.events[|u3.events|..];
    ReplayAppend(slot, u3.events, u.events[|u3.events|..]);
  }

  // ---------------------------------------------------------------------
  // Feeding the report back

  /** Sending back what `getUpdatePayload` reported changes nothing on the
      display: the brightness and on-state equal the current ones and are
      not written, the rate is set to itself, and the text is written again
      when it is short enough. The running task is stopped. */
  lemma FeedbackRoundTrip(c: Controller, rates: set<string>)
    requires c.display.Some? && c.display.value.rate in rates && IsInt32(c.display.value.brightness)
    ensures var d := c.display.value;
            var u := SetPayload(c, GetUpdatePayload(c), rates);
            u.fault.None? && u.ctl.display == c.display && u.ctl.task.None?
            && u.events == [SetBlinkRate(d.rate)]
                           + (if c.task.Some? then [Stop(c.task.value)] else [])
                           + (if Utf16Length(d.current) <= MAX_TEXT then [Write(d.current)] else [])
  {
    var d := c.display.value;
    var doc := GetUpdatePayload(c);
    var u3 := FeedbackSettings(c, rates);
    FeedbackContent(u3, doc, d);
  }

  /** The settings stages of a fed-back report make one call: the rate. */
  lemma FeedbackSettings(c: Controller, rates: set<string>) returns (u3: Update)
    requires c.display.Some? && c.display.value.rate in rates && IsInt32(c.display.value.brightness)
    ensures u3 == Settings(c, GetUpdatePayload(c), rates)
    ensures u3.fault.None? && u3.ctl == c && u3.events == [SetBlinkRate(c.display.value.rate)]
  {
    var d := c.display.value;
    var doc := GetUpdatePayload(c);
    var u0 := Update(c, map[], [], None);
    assert GetInt(doc, "brightness") == Ok(d.brightness);
    assert ApplyBrightness(u0, doc) == u0;
    assert OptString(doc, "blink", "OFF") == d.rate;
    var u2 := ApplyBlink(u0, doc, rates);
    assert u2.ctl == c && u2.events == [SetBlinkRate(d.rate)] && u2.fault.None?;
    assert OptBoolean(doc, "enabled", d.on) == d.on;
    assert ApplyEnabled(u2, doc) == u2;
    u3 := u2;
  }

  /** The content stage of a fed-back report: the task is stopped and the
      current text rewritten when it fits. */
  lemma FeedbackContent(u3: Update, doc: Doc, d: Display)
    requires Running(u3) && u3.ctl.display == Some(d)
    requires "display" in doc && doc["display"] == JStr(d.current)
    ensures var u := ApplyContent(u3, doc);
            u.fault.None? && u.ctl.display == Some(d) && u.ctl.task.None?
            && u.events == u3.events
                           + (if u3.ctl.task.Some? then [Stop(u3.ctl.task.value)] else [])
                           + (if Utf16Length(d.current) <= MAX_TEXT then [Write(d.current)] else [])
  {
    var v := Cancelled(u3);
    assert v.events == u3.events + (if u3.ctl.task.Some? then [Stop(u3.ctl.task.value)] else []);
    assert GetString(doc, "display") == Ok(d.current);
  }
}

=== FILE: humidity_calibration.dfy ===
/** `HumidityCalibrationData` of the BME688 gas sensor: the seven humidity
    calibration parameters unpacked from the sensor's calibration block.
    Bytes 23..25 hold two 12-bit parameters that share byte 24, one nibble
    each; bytes 26..30 are single-byte parameters. */
module HumidityCalibration {

  /** The calibration block as read from the sensor. `CalibrationData`
      itself is not part of this model: its `getByte(i)` is taken to return
      byte `i` of the block as an unsigned value, 0..255. */
  type CalibrationBlock = seq<bv8>

  /** Byte `i` of the block, widened to a Java `int`. */
  function GetByte(cal: CalibrationBlock, i: nat): bv32
    requires i < |cal|
  {
    cal[i] as bv32
  }

  datatype HumidityCalibrationData = HumidityCalibrationData(
    parH1: bv32, parH2: bv32, parH3: bv32, parH4: bv32,
    parH5: bv32, parH6: bv32, parH7: bv32)

  /** The constructor. The block must reach byte 30, the last one read. */
  function Unpack(cal: CalibrationBlock): (h: HumidityCalibrationData)
    requires |cal| > 30
    ensures h.parH3 == GetByte(cal, 26) && h.parH4 == GetByte(cal, 27)
    ensures h.parH5 == GetByte(cal, 28) && h.parH6 == GetByte(cal, 29)
    ensures h.parH7 == GetByte(cal, 30)
  {
    HumidityCalibrationData(
      ParH1(GetByte(cal, 25), GetByte(cal, 24)),
      ParH2(GetByte(cal, 23), GetByte(cal, 24)),
      GetByte(cal, 26), GetByte(cal, 27), GetByte(cal, 28),
      GetByte(cal, 29), GetByte(cal, 30))
  }

  /** `(getByte(25) << 4) | (getByte(24) & 0x0F)`: byte 25 above the low
      nibble of byte 24, a 12-bit value. */
  function ParH1(b25: bv32, b24: bv32): (h: bv32)
    ensures h & 0x0F == b24 & 0x0F
    ensures b25 < 0x100 ==> h < 0x1000 && h >> 4 == b25
  {
    (b25 << 4) | (b24 & 0x0F)
  }

  /** `(getByte(23) << 4) | (getByte(24) >> 4)`: byte 23 above the high
      nibble of byte 24, a 12-bit value. */
  function ParH2(b23: bv32, b24: bv32): (h: bv32)
    ensures b23 < 0x100 && b24 < 0x100 ==> h < 0x1000 && h >> 4 == b23 && h & 0x0F == b24 >> 4
  {
    (b23 << 4) | (b24 >> 4)
  }

  // ---------------------------------------------------------------------
  // What the two shared-byte parameters hold

  /** H1 is byte 25 followed by the low nibble of byte 24: a 12-bit value. */
  lemma ParH1Value(b25: bv32, b24: bv32)
    requires b25 < 0x100 && b24 < 0x100
    ensures ParH1(b25, b24) == b25 * 16 + b24 % 16
  {
  }

  /** H2 is byte 23 followed by the high nibble of byte 24: a 12-bit value. */
  lemma ParH2Value(b23: bv32, b24: bv32)
    requires b23 < 0x100 && b24 < 0x100
    ensures ParH2(b23, b24) == b23 * 16 + b24 / 16
  {
  }

  lemma ParH1Below(b25: bv32, b24: bv32)
    requires b25 < 0x100
    ensures ParH1(b25, b24) < 0x1000
  {
  }

  lemma ParH2Below(b23: bv32, b24: bv32)
    requires b23 < 0x100 && b24 < 0x100
    ensures ParH2(b23, b24) < 0x1000
  {
  }

  /** The low nibble of H1 is the low nibble of byte 24. */
  lemma ParH1LowNibble(b25: bv32, b24: bv32)
    ensures ParH1(b25, b24) & 0x0F == b24 & 0x0F
  {
  }

  /** The low nibble of H2 is the high nibble of byte 24. */
  lemma ParH2LowNibble(b23: bv32, b24: bv32)
    requires b24 < 0x100
    ensures ParH2(b23, b24) & 0x0F == b24 >> 4
  {
  }

  lemma ParH1HighPart(b25: bv32, b24: bv32)
    requires b25 < 0x100
    ensures ParH1(b25, b24) >> 4 == b25
  {
  }

  lemma ParH2HighPart(b23: bv32, b24: bv32)
    requires b23 < 0x100 && b24 < 0x100
    ensures ParH2(b23, b24) >> 4 == b23
  {
  }

  /** Byte 24 is split between H1 and H2 without loss: its two nibbles put
      back together give the byte. */
  lemma SharedByteSplit(b24: bv32)
    requires b24 < 0x100
    ensures ((b24 >> 4) << 4) | (b24 & 0x0F) == b24
  {
  }

  // ---------------------------------------------------------------------
  // Inverse: the calibration bytes the parameters were unpacked from

  /** Bytes 23..30 of the block, rebuilt from the seven parameters. */
  function Repack(h: HumidityCalibrationData): seq<bv8> {
    [ Byte(h.parH2 >> 4),
      Byte(((h.parH2 & 0x0F) << 4) | (h.parH1 & 0x0F)),
      Byte(h.parH1 >> 4),
      Byte(h.parH3), Byte(h.parH4), Byte(h.parH5), Byte(h.parH6), Byte(h.parH7) ]
  }

  /** The low eight bits of an `int`. */
  function Byte(x: bv32): bv8 {
    (x & 0xFF) as bv8
  }

  lemma ByteOfWidened(b: bv8)
    ensures Byte(b as bv32) == b
  {
  }

  /** Unpacking reads bytes 23..30 and loses nothing of them: repacking the
      parameters gives those bytes back. */
  lemma RepackUnpack(cal: CalibrationBlock)
    requires |cal| > 30
    ensures Repack(Unpack(cal)) == cal[23..31]
  {
    RepackShared(cal);
    RepackSingles(cal);
  }

  /** The first three repacked bytes are bytes 23..25. */
  lemma RepackShared(cal: CalibrationBlock)
    requires |cal| > 30
    ensures Repack(Unpack(cal))[0] == cal[23] && Repack(Unpack(cal))[1] == cal[24]
         && Repack(Unpack(cal))[2] == cal[25]
  {
    var b23, b24, b25 := GetByte(cal, 23), GetByte(cal, 24), GetByte(cal, 25);
    ParH2HighPart(b23, b24);
    ParH1HighPart(b25, b24);
    ParH1LowNibble(b25, b24);
    ParH2LowNibble(b23, b24);
    SharedByteSplit(b24);
    ByteOfWidened(cal[23]);
    ByteOfWidened(cal[24]);
    ByteOfWidened(cal[25]);
  }

  /** The last five repacked bytes are bytes 26..30. */
  lemma RepackSingles(cal: CalibrationBlock)
    requires |cal| > 30
    ensures Repack(Unpack(cal))[3..] == cal[26..31]
  {
    ByteOfWidened(cal[26]);
    ByteOfWidened(cal[27]);
    ByteOfWidened(cal[28]);
    ByteOfWidened(cal[29]);
    ByteOfWidened(cal[30]);
  }

  /** The parameters depend on bytes 23..30 only. */
  lemma OnlyBytes23To30(cal: CalibrationBlock, other: CalibrationBlock)
    requires |cal| > 30 && |other| > 30
    requires cal[23..31] == other[23..31]
    ensures Unpack(cal) == Unpack(other)
  {
    SliceAgrees(cal, other, 23);
    SliceAgrees(cal, other, 24);
    SliceAgrees(cal, other, 25);
    SliceAgrees(cal, other, 26);
    SliceAgrees(cal, other, 27);
    SliceAgrees(cal, other, 28);
    SliceAgrees(cal, other, 29);
    SliceAgrees(cal, other, 30);
  }

  lemma SliceAgrees(cal: CalibrationBlock, other: CalibrationBlock, i: nat)
    requires |cal| > 30 && |other| > 30 && 23 <= i < 31
    requires cal[23..31] == other[23..31]
    ensures GetByte(cal, i) == GetByte(other, i)
  {
    assert cal[i] == cal[23..31][i - 23];
    assert other[i] == other[23..31][i - 23];
  }

  /** Every parameter of an unpacked block is in range: H1 and H2 are
      12-bit, H3..H7 are bytes. */
  lemma UnpackRanges(cal: CalibrationBlock)
    requires |cal| > 30
    ensures Unpack(cal).parH1 < 0x1000 && Unpack(cal).parH2 < 0x1000
    ensures Unpack(cal).parH3 < 0x100 && Unpack(cal).parH7 < 0x100
  {
    ParH1Below(GetByte(cal, 25), GetByte(cal, 24));
    ParH2Below(GetByte(cal, 23), GetByte(cal, 24));
  }
}

=== FILE: interrupt_map1.dfy ===
/** `InterruptMap1Register` of the MSA311 accelerometer: a single-byte
    register at 0x1A whose bit 0 routes the new-data interrupt to pin INT1. */
module InterruptMap1 {
  import opened Base
  import opened Registers

  const ADDRESS: bv32 := 0x1A
  const NAME: string := "Interrupt Map 1"

  /** `INT1_NEW_DATA`, the byte 0b00000001; its sign bit is clear, so it
      promotes to the `int` 1. */
  const INT1_NEW_DATA: bv32 := 0x01

  /** The constructor. The single-byte base class reads the register once
      when it is built, which is why the constructor can throw: `reply` is
      what that read returned, `None` when it threw. */
  function Create(reply: Option<bv32>): (r: Result<Register, Fault>)
    ensures r.Ok? <==> reply.Some?
    ensures r.Err? ==> r.error == IoFault
    ensures r.Ok? ==> r.value.address == 0x1A && r.value.width == 1 && r.value.name == "Interrupt Map 1"
                      && r.value.value == reply.value
  {
    match reply
    case None => Err(IoFault)
    case Some(v) => Ok(Register(ADDRESS, 1, NAME, v))
  }

  /** The value argument: `enable ? INT1_NEW_DATA : 0`, promoted to `int`. */
  function EnableValue(enable: bool): bv32 {
    if enable then INT1_NEW_DATA else 0
  }

  /** The mask argument: `~INT1_NEW_DATA`, the complement of the promoted
      byte. */
  function EnableMask(): bv32 {
    !INT1_NEW_DATA
  }

  /** The setter targets bit 0 and only bit 0: the mask keeps every other
      bit, and the value lies entirely in the cleared bit. */
  lemma SetterTargetsBit0(enable: bool)
    ensures EnableMask() == 0xFFFF_FFFE
    ensures EnableValue(enable) & EnableMask() == 0
    ensures EnableValue(enable) == if enable then 1 else 0
  {
  }

  /** `mapNewDataInterruptToInt1(enable)`. */
  function MapNewDataInterruptToInt1(r: Register, enable: bool, writeOk: bool): (res: Result<Register, Fault>)
    ensures res.Ok? <==> writeOk
    ensures res.Err? ==> res.error == IoFault
    ensures res.Ok? ==> SameRegister(res.value, r)
  {
    SetControlRegister(r, EnableMask(), EnableValue(enable), writeOk)
  }

  /** `isNewDataInterruptMappedToInt1()`: reads the cached value only; no
      bus transaction is involved. */
  function IsNewDataInterruptMappedToInt1(r: Register): (b: bool)
    ensures b <==> r.value & 1 == 1
  {
    r.value & INT1_NEW_DATA != 0
  }

  /** After a completed write the getter reports what was set. */
  lemma SetThenGet(r: Register, enable: bool)
    ensures var res := MapNewDataInterruptToInt1(r, enable, true);
      res.Ok? && IsNewDataInterruptMappedToInt1(res.value) == enable
  {
    SetterTargetsBit0(enable);
    if enable {
      SetBit0(r.value);
    } else {
      ClearBit0(r.value);
    }
  }

  /** A completed write leaves every bit the mask keeps (bits 1..31, by
      `SetterTargetsBit0`) as it was. */
  lemma SetKeepsOtherBits(r: Register, enable: bool)
    ensures var res := MapNewDataInterruptToInt1(r, enable, true);
      res.Ok? && res.value.value & EnableMask() == r.value & EnableMask()
  {
    SetterTargetsBit0(enable);
    MaskedUpdateIdempotent(r.value, EnableMask(), EnableValue(enable));
  }

  lemma SetBit0(current: bv32)
    ensures MaskedUpdate(current, 0xFFFF_FFFE, 1) & 1 == 1
  {
  }

  lemma ClearBit0(current: bv32)
    ensures MaskedUpdate(current, 0xFFFF_FFFE, 0) & 1 == 0
  {
  }
}

=== FILE: json_doc.dfy ===
/** The part of `org.json.JSONObject` the HT16K33 controller relies on: a
    document is a map from keys to tagged values, and the typed accessors
    either convert the value, fall back to a default, or throw.

    Parsing and printing of the JSON text are not modelled; numbers are
    integers (fractional numbers do not occur in these payloads). */
module JsonDoc {
  import opened Base

  datatype Json =
    | JNumber(n: int)
    | JBool(b: bool)
    | JStr(s: string)
    | JNull            // `JSONObject.NULL`

  type Doc = map<string, Json>

  // ---------------------------------------------------------------------
  // Decimal text

  /** The zero of every run of ten decimal digits (Unicode general category
      Nd) in the Basic Multilingual Plane, in code point order: ASCII,
      Arabic-Indic, Extended Arabic-Indic, NKo, Devanagari, Bengali,
      Gurmukhi, Gujarati, Oriya, Tamil, Telugu, Kannada, Malayalam, Sinhala
      Lith, Thai, Lao, Tibetan, Myanmar, Myanmar Shan, Khmer, Mongolian,
      Limbu, New Tai Lue, Tai Tham Hora, Tai Tham, Balinese, Sundanese,
      Lepcha, Ol Chiki, Vai, Saurashtra, Kayah Li, Javanese, Myanmar Tai
      Laing, Cham, Meetei Mayek and Fullwidth. */
  const DIGIT_ZEROS: seq<int> := [
    0x0030, 0x0660, 0x06F0, 0x07C0, 0x0966, 0x09E6, 0x0A66, 0x0AE6, 0x0B66,
    0x0BE6, 0x0C66, 0x0CE6, 0x0D66, 0x0DE6, 0x0E50, 0x0ED0, 0x0F20, 0x1040,
    0x1090, 0x17E0, 0x1810, 0x1946, 0x19D0, 0x1A80, 0x1A90, 0x1B50, 0x1BB0,
    0x1C40, 0x1C50, 0xA620, 0xA8D0, 0xA900, 0xA9D0, 0xA9F0, 0xAA50, 0xABF0,
    0xFF10]

  /** The value of `c` as a digit of one of the runs from the `i`-th on. */
  function DigitFrom(c: char, i: nat): (d: Option<nat>)
    ensures d.Some? ==> d.value < 10
    decreases |DIGIT_ZEROS| - i
  {
    if i >= |DIGIT_ZEROS| then None
    else if DIGIT_ZEROS[i] <= c as int < DIGIT_ZEROS[i] + 10 then Some(c as int - DIGIT_ZEROS[i])
    else DigitFrom(c, i + 1)
  }

  /** `Character.digit(c, 10)` on a `char`: the value of a decimal digit of
      any script, `None` (Java's -1) for anything else. */
  function CharDigit(c: char): (d: Option<nat>)
    ensures d.Some? ==> d.value < 10
  {
    DigitFrom(c, 0)
  }

  predicate IsDecimalDigit(c: char) {
    CharDigit(c).Some?
  }

  predicate IsAsciiDigit(c: char) {
    '0' <= c <= '9'
  }

  /** The ASCII digits are decimal digits with their usual values. */
  lemma AsciiDigitValue(c: char)
    requires IsAsciiDigit(c)
    ensures CharDigit(c) == Some(c as int - '0' as int)
  {
  }

  function DigitOf(d: nat): (c: char)
    requires d < 10
    ensures IsAsciiDigit(c) && CharDigit(c) == Some(d)
  {
    var c := ['0', '1', '2', '3', '4', '5', '6', '7', '8', '9'][d];
    AsciiDigitValue(c);
    c
  }

  /** The value of a string of decimal digits, most significant first. */
  function DigitsValue(s: string): nat
    requires forall k :: 0 <= k < |s| ==> IsDecimalDigit(s[k])
  {
    if |s| == 0 then 0
    else
      assert IsDecimalDigit(s[|s| - 1]);
      DigitsValue(s[..|s| - 1]) * 10 + CharDigit(s[|s| - 1]).value
  }

  /** The decimal digits of `n`, without leading zeros (`"0"` for zero). */
  function NatToString(n: nat): (s: string)
    ensures |s| > 0
    ensures forall k :: 0 <= k < |s| ==> IsAsciiDigit(s[k]) && IsDecimalDigit(s[k])
    ensures DigitsValue(s) == n
  {
    if n < 10 then [DigitOf(n)]
    else
      var init := NatToString(n / 10);
      var s := init + [DigitOf(n % 10)];
      assert s[..|s| - 1] == init;
      s
  }

  /** `Integer.toString` / `Long.toString`: an optional minus sign and the
      decimal digits. */
  function IntToString(n: int): (s: string)
    ensures |s| > 0
  {
    if n < 0 then "-" + NatToString(-n) else NatToString(n)
  }

  /** `Integer.parseInt(s)`: an optional sign followed by at least one
      decimal digit (of any script), with a value that fits in an `int`;
      anything else throws. */
  function ParseInt(s: string): (r: Option<int>)
    ensures r.Some? ==> IsInt32(r.value)
    ensures r.Some? ==> exists k :: 0 <= k < |s| && IsDecimalDigit(s[k])
  {
    var neg := |s| > 0 && s[0] == '-';
    var signed := |s| > 0 && (s[0] == '-' || s[0] == '+');
    var digits := if signed then s[1..] else s;
    if |digits| == 0 || !(forall k :: 0 <= k < |digits| ==> IsDecimalDigit(digits[k])) then None
    else
      assert IsDecimalDigit(s[|s| - 1]) by { assert s[|s| - 1] == digits[|digits| - 1]; }
      var v: int := if neg then -(DigitsValue(digits) as int) else DigitsValue(digits);
      if IsInt32(v) then Some(v) else None
  }

  /** Printing an `int` and parsing it back gives the same `int`. */
  lemma ParseIntToString(n: int)
    requires IsInt32(n)
    ensures ParseInt(IntToString(n)) == Some(n)
  {
    var s := IntToString(n);
    if n < 0 {
      assert s[1..] == NatToString(-n);
    } else {
      assert s[0] != '-' && s[0] != '+' by {
        assert IsAsciiDigit(NatToString(n)[0]);
      }
    }
  }

  /** The runs of digits are in increasing order and do not overlap. */
  lemma {:induction false} RunsOrdered(i: nat, j: nat)
    requires i < j < |DIGIT_ZEROS|
    ensures DIGIT_ZEROS[i] + 10 <= DIGIT_ZEROS[j]
    decreases j - i
  {
    assert forall k :: 0 <= k < |DIGIT_ZEROS| - 1 ==> DIGIT_ZEROS[k] + 10 <= DIGIT_ZEROS[k + 1];
    if i + 1 < j {
      RunsOrdered(i + 1, j);
    }
  }

  /** Every character of the `j`-th run is a digit, valued by its distance
      from that run's zero. */
  lemma {:induction false} DigitOfRun(c: char, i: nat, j: nat)
    requires i <= j < |DIGIT_ZEROS| && DIGIT_ZEROS[j] <= c as int < DIGIT_ZEROS[j] + 10
    ensures DigitFrom(c, i) == Some(c as int - DIGIT_ZEROS[j])
    decreases j - i
  {
    if i < j {
      RunsOrdered(i, j);
      DigitOfRun(c, i + 1, j);
    }
  }

  /** `Character.digit(c, 10)` on a digit of any run. */
  lemma CharDigitOfRun(c: char, j: nat)
    requires j < |DIGIT_ZEROS| && DIGIT_ZEROS[j] <= c as int < DIGIT_ZEROS[j] + 10
    ensures CharDigit(c) == Some(c as int - DIGIT_ZEROS[j])
  {
    DigitOfRun(c, 0, j);
  }

  /** Digits of other scripts count as in Java: the fullwidth three reads
      as 3, and Devanagari four-two as 42. */
  lemma ParseIntOtherScripts()
    ensures ParseInt("\U{FF13}") == Some(3)
    ensures ParseInt("-\U{096A}\U{0968}") == Some(-42)
  {
    var three := "\U{FF13}";
    CharDigitOfRun(three[0], 36);
    assert three[..0] == "";
    assert DigitsValue(three) == 3;
    assert ParseInt(three) == Some(3);
    var s := "-\U{096A}\U{0968}";
    var digits := s[1..];
    CharDigitOfRun(digits[0], 4);
    CharDigitOfRun(digits[1], 4);
    assert digits[..1][..0] == "";
    assert DigitsValue(digits[..1]) == 4;
    assert DigitsValue(digits) == 42;
    assert ParseInt(s) == Some(-42);
  }

  // ---------------------------------------------------------------------
  // Strings

  /** `String.length()`: the number of UTF-16 code units, two for a
      character outside the Basic Multilingual Plane. */
  function Utf16Length(s: string): (n: nat)
    ensures |s| <= n <= 2 * |s|
  {
    if |s| == 0 then 0
    else (if s[0] as int > 0xFFFF then 2 else 1) + Utf16Length(s[1..])
  }

  lemma {:induction false} Utf16LengthBmp(s: string)
    requires forall k :: 0 <= k < |s| ==> s[k] as int <= 0xFFFF
    ensures Utf16Length(s) == |s|
  {
    if |s| > 0 {
      Utf16LengthBmp(s[1..]);
    }
  }

  /** `Character.toUpperCase` for the characters whose upper case is an
      ASCII letter: the small ASCII letters, the long s (U+017F) and the
      dotless i (U+0131). Every other character maps to itself here. */
  function UpperCase(c: char): char {
    if 'a' <= c <= 'z' then (c as int - 32) as char
    else if c == '\U{017F}' then 'S'
    else if c == '\U{0131}' then 'I'
    else c
  }

  /** `Character.toLowerCase` for the characters whose lower case is an
      ASCII letter: the capital ASCII letters, the Kelvin sign (U+212A) and
      the capital I with dot above (U+0130). Every other character maps to
      itself here. */
  function LowerCase(c: char): char {
    if 'A' <= c <= 'Z' then (c as int + 32) as char
    else if c == '\U{212A}' then 'k'
    else if c == '\U{0130}' then 'i'
    else c
  }

  /** The case fold `equalsIgnoreCase` compares: the lower case of the
      upper case. A character folds to a small ASCII letter exactly when it is
      an ASCII letter or one of the four others `UpperCase` and `LowerCase`
      list. */
  function Fold(c: char): (r: char)
    ensures 'a' <= r <= 'z' <==> 'a' <= c <= 'z' || 'A' <= c <= 'Z'
                                 || c == '\U{017F}' || c == '\U{0131}' || c == '\U{212A}' || c == '\U{0130}'
  {
    LowerCase(UpperCase(c))
  }

  /** The spellings of a small ASCII letter that fold onto it: itself, its
      capital, and for s, i and k the long s, the dotless i, the capital I
      with dot above and the Kelvin sign. */
  lemma FoldOntoAsciiLetter(c: char, x: char)
    requires 'a' <= x <= 'z'
    ensures Fold(c) == x <==>
              c == x || c as int == x as int - 32
              || (x == 's' && c == '\U{017F}')
              || (x == 'i' && (c == '\U{0131}' || c == '\U{0130}'))
              || (x == 'k' && c == '\U{212A}')
  {
  }

  function FoldString(s: string): (r: string)
    ensures |r| == |s| && forall k :: 0 <= k < |s| ==> r[k] == Fold(s[k])
  {
    if |s| == 0 then "" else [Fold(s[0])] + FoldString(s[1..])
  }

  /** One pair of characters in `String.equalsIgnoreCase`: equal, or equal
      after `toUpperCase`, or equal after `toLowerCase` of that. */
  predicate CharsEqualIgnoreCase(a: char, b: char) {
    a == b || UpperCase(a) == UpperCase(b) || LowerCase(UpperCase(a)) == LowerCase(UpperCase(b))
  }

  /** `String.equalsIgnoreCase`: same length, and each pair of characters
      equal ignoring case. */
  predicate EqualsIgnoreCase(a: string, b: string) {
    |a| == |b| && forall k :: 0 <= k < |a| ==> CharsEqualIgnoreCase(a[k], b[k])
  }

  /** Comparing without case is comparing the folded forms, both ways. */
  lemma EqualsIgnoreCaseFolded(a: string, b: string)
    ensures EqualsIgnoreCase(a, b) <==> FoldString(a) == FoldString(b)
  {
    if FoldString(a) == FoldString(b) {
      assert |a| == |b|;
      forall k | 0 <= k < |a| ensures CharsEqualIgnoreCase(a[k], b[k]) {
        assert FoldString(a)[k] == FoldString(b)[k];
      }
    }
    if EqualsIgnoreCase(a, b) {
      forall k | 0 <= k < |a| ensures FoldString(a)[k] == FoldString(b)[k] {
        assert CharsEqualIgnoreCase(a[k], b[k]);
      }
    }
  }

  /** A name that is its own fold matches exactly the strings that fold
      to it. */
  lemma EqualsIgnoreCaseOfFoldedName(s: string, name: string)
    requires FoldString(name) == name
    ensures EqualsIgnoreCase(s, name) <==> FoldString(s) == name
  {
    EqualsIgnoreCaseFolded(s, name);
  }

  /** Spellings with a long s or a Kelvin sign match like their ASCII
      letters. */
  lemma EqualsIgnoreCaseBeyondAscii()
    ensures EqualsIgnoreCase("te\U{017F}t", "test")
    ensures EqualsIgnoreCase("CLOC\U{212A}", "clock")
    ensures EqualsIgnoreCase("fal\U{017F}e", "false")
    ensures !EqualsIgnoreCase("tes", "test")
  {
    assert CharsEqualIgnoreCase('\U{017F}', 's');
    assert CharsEqualIgnoreCase('\U{212A}', 'k');
  }

  /** The words `optBoolean` looks for are their own folds. */
  lemma FoldedNames()
    ensures FoldString("true") == "true" && FoldString("false") == "false"
  {
    assert FoldString("e") == "e";
    assert FoldString("ue") == "ue";
    assert FoldString("rue") == "rue";
    assert FoldString("se") == "se";
    assert FoldString("lse") == "lse";
    assert FoldString("alse") == "alse";
  }

  // ---------------------------------------------------------------------
  // Accessors. Each is called only after `has(key)` succeeded, so the key
  // is present.

  /** `getInt(key)`: a number is narrowed to `int`; a string is parsed as
      a decimal `int`; anything else throws. */
  function GetInt(doc: Doc, key: string): (r: Result<int, Fault>)
    requires key in doc
    ensures r.Ok? ==> IsInt32(r.value)
    ensures r.Err? ==> r.error == JsonFault(key)
    ensures doc[key].JNumber? ==> r == Ok(Wrap32(doc[key].n))
    ensures doc[key].JBool? || doc[key].JNull? ==> r.Err?
    ensures doc[key].JStr? ==> (r.Ok? <==> ParseInt(doc[key].s).Some?)
    ensures doc[key].JStr? && r.Ok? ==> Some(r.value) == ParseInt(doc[key].s)
  {
    match doc[key]
    case JNumber(n) => Ok(Wrap32(n))
    case JStr(s) => if ParseInt(s).Some? then Ok(ParseInt(s).value) else Err(JsonFault(key))
    case _ => Err(JsonFault(key))
  }

  /** A string holding the decimal text of an `int` reads as that `int`. */
  lemma GetIntOfText(doc: Doc, key: string, n: int)
    requires key in doc && IsInt32(n) && doc[key] == JStr(IntToString(n))
    ensures GetInt(doc, key) == Ok(n)
  {
    ParseIntToString(n);
  }

  /** `getString(key)`: only a string value; anything else throws. */
  function GetString(doc: Doc, key: string): (r: Result<string, Fault>)
    requires key in doc
    ensures r.Ok? <==> doc[key].JStr?
    ensures r.Ok? ==> r.value == doc[key].s
    ensures r.Err? ==> r.error == JsonFault(key)
  {
    if doc[key].JStr? then Ok(doc[key].s) else Err(JsonFault(key))
  }

  /** The `toString()` of a value: a string is itself, a boolean is
      `true` or `false`, and an `int` is its decimal text, which parses
      back to it. */
  function ValueToString(v: Json): (r: string)
    ensures v.JStr? ==> r == v.s
    ensures v.JBool? ==> (r == "true" <==> v.b) && (r == "false" <==> !v.b)
    ensures v.JNumber? && IsInt32(v.n) ==> ParseInt(r) == Some(v.n)
    ensures v.JNull? ==> r == "null"
  {
    match v
    case JNumber(n) => NumberTextParses(n); IntToString(n)
    case JBool(b) => if b then "true" else "false"
    case JStr(s) => s
    case JNull => "null"
  }

  lemma NumberTextParses(n: int)
    ensures IsInt32(n) ==> ParseInt(IntToString(n)) == Some(n)
  {
    if IsInt32(n) {
      ParseIntToString(n);
    }
  }

  /** `optString(key, dflt)`: the default for `NULL`, otherwise the
      value's text. */
  function OptString(doc: Doc, key: string, dflt: string): (r: string)
    requires key in doc
    ensures doc[key].JStr? ==> r == doc[key].s
    ensures doc[key].JNull? ==> r == dflt
  {
    if doc[key].JNull? then dflt else ValueToString(doc[key])
  }

  /** `optBoolean(key, dflt)`: a boolean as it is, a string spelling
      `true` or `false` in any case, and the default for anything else. */
  function OptBoolean(doc: Doc, key: string, dflt: bool): (r: bool)
    requires key in doc
    ensures doc[key].JBool? ==> r == doc[key].b
    ensures doc[key].JNull? || doc[key].JNumber? ==> r == dflt
  {
    match doc[key]
    case JBool(b) => b
    case JStr(s) =>
      if EqualsIgnoreCase(s, "false") then false
      else if EqualsIgnoreCase(s, "true") then true
      else dflt
    case _ => dflt
  }

  /** A string value other than `true`/`false` (in any case) yields the
      default; one spelling either yields its meaning. */
  lemma OptBooleanString(doc: Doc, key: string, dflt: bool)
    requires key in doc && doc[key].JStr?
    ensures var s := doc[key].s;
            OptBoolean(doc, key, dflt)
            == if FoldString(s) == "true" then true
               else if FoldString(s) == "false" then false
               else dflt
  {
    var s := doc[key].s;
    FoldedNames();
    EqualsIgnoreCaseOfFoldedName(s, "true");
    EqualsIgnoreCaseOfFoldedName(s, "false");
  }
}

=== FILE: registers.dfy ===
/** The register base classes the device drivers extend. They are not part
    of this model's sources; what the drivers rely on is modelled minimally:
    a register has a bus address, a width in bytes, a name and the value it
    last read or wrote (`registerValue`). Bus transactions are not
    performed: the value a read returns, or whether a write completed, is a
    parameter. */
module Registers {
  import opened Base

  datatype Register = Register(address: bv32, width: nat, name: string, value: bv32)

  /** `reload()`: the register reads its value back from the device.
      `reply` is what the bus returned, `None` when the read threw; the
      exception propagates and the cached value is left as it was. */
  function Reload(r: Register, reply: Option<bv32>): (res: Result<Register, Fault>)
    ensures res.Ok? <==> reply.Some?
    ensures res.Err? ==> res.error == IoFault
    ensures res.Ok? ==> res.value.value == reply.value
    ensures res.Ok? ==> SameRegister(res.value, r)
  {
    match reply
    case None => Err(IoFault)
    case Some(v) => Ok(r.(value := v))
  }

  /** `setControlRegister(mask, value)`: writes the cached value with the
      bits outside `mask` cleared and those of `value` set. The cached value
      changes only when the write completes; nothing but the cached value
      changes. */
  function SetControlRegister(r: Register, mask: bv32, value: bv32, writeOk: bool): (res: Result<Register, Fault>)
    ensures res.Ok? <==> writeOk
    ensures res.Err? ==> res.error == IoFault
    ensures res.Ok? ==> SameRegister(res.value, r) && res.value.value == MaskedUpdate(r.value, mask, value)
  {
    if writeOk then Ok(r.(value := MaskedUpdate(r.value, mask, value))) else Err(IoFault)
  }

  /** The value a masked update writes. */
  function MaskedUpdate(current: bv32, mask: bv32, value: bv32): bv32 {
    (current & mask) | value
  }

  /** Every bit of `value` ends up set. */
  lemma MaskedUpdateSets(current: bv32, mask: bv32, value: bv32)
    ensures MaskedUpdate(current, mask, value) & value == value
  {
  }

  /** Every bit outside both `mask` and `value` ends up clear. */
  lemma MaskedUpdateClears(current: bv32, mask: bv32, value: bv32)
    ensures MaskedUpdate(current, mask, value) & !mask & !value == 0
  {
  }

  /** Every bit inside `mask` and outside `value` keeps its old state. */
  lemma MaskedUpdateKeeps(current: bv32, mask: bv32, value: bv32)
    ensures MaskedUpdate(current, mask, value) & mask & !value == current & mask & !value
  {
  }

  /** Two views of the same register: only the cached value may differ. */
  predicate SameRegister(a: Register, b: Register) {
    a.address == b.address && a.width == b.width && a.name == b.name
  }

  /** A masked update whose value lies inside the cleared bits touches no
      other bit, and repeating it changes nothing. */
  lemma MaskedUpdateIdempotent(current: bv32, mask: bv32, value: bv32)
    requires value & mask == 0
    ensures MaskedUpdate(MaskedUpdate(current, mask, value), mask, value) == MaskedUpdate(current, mask, value)
    ensures MaskedUpdate(current, mask, value) & mask == current & mask
  {
  }

  /** An 8-bit register stays an 8-bit register under a masked update with
      an 8-bit value. */
  lemma MaskedUpdateKeepsByte(current: bv32, mask: bv32, value: bv32)
    requires current < 0x100 && value < 0x100
    ensures MaskedUpdate(current, mask, value) < 0x100
  {
  }
}

=== FILE: sensor_readings.dfy ===
/** `SensorReadings` of the BME688 gas sensor: one of the sensor's three
    measurement fields (index 0..2), its status and sub-measurement-index
    registers, and the last readings taken from it.

    The four measurement objects compute their values from raw registers
    and calibration data that are not part of this model; their results are
    opaque values of type `V`, passed in as `Some(v)` or as `None` when the
    measurement threw. Likewise the bus replies for the two registers are
    inputs. */
module SensorReadings {
  import opened Base

  /** Status register address of each field (`meas_status_<i>`). */
  const MEASUREMENT_ADDRESSES: seq<int> := [0x1D, 0x2E, 0x3F]
  /** Sub-measurement-index register address of each field. */
  const MEASURE_IDX_ADDRESSES: seq<int> := [0x1E, 0x2F, 0x40]

  /** What the status register reports once read. */
  datatype Status = Status(readingGas: bool, measuring: bool)

  /** The sensor is idle: neither measuring nor reading the gas sensor. */
  predicate Idle(st: Status) {
    !st.readingGas && !st.measuring
  }

  /** The state of one `SensorReadings` object. `status` and `subIndex` are
      the registers' cached values; `dataReady` is set from outside and only
      carried here. */
  datatype Readings<V> = Readings(
    index: int,
    statusAddress: int,
    subIndexAddress: int,
    status: Status,
    subIndex: int,
    lastRead: int,
    temperature: V,
    pressure: V,
    humidity: V,
    gas: V,
    dataReady: int)

  /** One observable step of `doMeasurements`, in the order it happens. */
  datatype Action =
    | ReadStatus(address: int)
    | ReadSubIndex(address: int)
    | MeasureTemperature
    | MeasureHumidity
    | MeasurePressure
    | MeasureGas

  /** The constructor. `index` selects the field; an index outside 0..2
      throws when the address tables are indexed. The two registers are
      then built, and each reads its value from the device as it is built:
      `subIndexReply` and `statusReply` are what those reads returned,
      `None` when one threw. `lastRead` starts as the sub-index just read,
      and `zero` is the initial value of the four readings. */
  function New<V>(index: int, subIndexReply: Option<int>, statusReply: Option<Status>, zero: V)
    : (r: Result<Readings<V>, Fault>)
    ensures r.Ok? <==> 0 <= index < 3 && subIndexReply.Some? && statusReply.Some?
    ensures !(0 <= index < 3) ==> r == Err(IndexOutOfBounds(index))
    ensures 0 <= index < 3 && (subIndexReply.None? || statusReply.None?) ==> r == Err(IoFault)
    ensures r.Ok? ==> (r.value.statusAddress == MEASUREMENT_ADDRESSES[index]
                       && r.value.subIndexAddress == MEASURE_IDX_ADDRESSES[index])
    ensures r.Ok? ==> r.value.lastRead == subIndexReply.value && r.value.subIndex == subIndexReply.value
                      && r.value.status == statusReply.value && r.value.dataReady == 0
  {
    if !(0 <= index < 3) then Err(IndexOutOfBounds(index))
    else match (subIndexReply, statusReply)
      case (Some(sub), Some(st)) =>
        Ok(Readings(index, MEASUREMENT_ADDRESSES[index], MEASURE_IDX_ADDRESSES[index],
                    st, sub, sub, zero, zero, zero, zero, 0))
      case _ => Err(IoFault)
  }

  /** The sub-index register of every field sits right after its status
      register. */
  lemma SubIndexFollowsStatus(index: int)
    requires 0 <= index < 3
    ensures MEASURE_IDX_ADDRESSES[index] == MEASUREMENT_ADDRESSES[index] + 1
  {
  }

  lemma NewSubIndexFollowsStatus<V>(index: int, subIndexReply: Option<int>, statusReply: Option<Status>, zero: V)
    requires New(index, subIndexReply, statusReply, zero).Ok?
    ensures var s := New(index, subIndexReply, statusReply, zero).value;
            s.subIndexAddress == s.statusAddress + 1
  {
    SubIndexFollowsStatus(index);
  }

  /** The outcome of `doMeasurements`: the object's state afterwards (which
      keeps whatever was assigned before an exception), the actions taken,
      and the exception if one was thrown. */
  datatype Run<V> = Run(state: Readings<V>, actions: seq<Action>, fault: Option<Fault>)

  /** The measurement results, in the order the measurements are taken. */
  datatype Measured<V> = Measured(
    temperature: Option<V>, humidity: Option<V>, pressure: Option<V>, gas: Option<V>)

  /** `doMeasurements()`: read the status register, then the sub-index
      register; only when the sensor is idle, record the sub-index as
      `lastRead` and take the four measurements, temperature first (the
      others depend on the fine temperature it computes). */
  function DoMeasurements<V>(s: Readings<V>, statusReply: Option<Status>, subIndexReply: Option<int>,
                             m: Measured<V>): (r: Run<V>)
    ensures r.state.dataReady == s.dataReady
    ensures r.state.index == s.index && r.state.statusAddress == s.statusAddress
         && r.state.subIndexAddress == s.subIndexAddress
    ensures 1 <= |r.actions| <= 6 && r.actions[0] == ReadStatus(s.statusAddress)
    ensures |r.actions| > 1 ==> r.actions[1] == ReadSubIndex(s.subIndexAddress)
    ensures |r.actions| > 2 ==> r.actions[2] == MeasureTemperature
  {
    if statusReply.None? then
      Run(s, [ReadStatus(s.statusAddress)], Some(IoFault))
    else
      var s1 := s.(status := statusReply.value);
      var head := [ReadStatus(s.statusAddress), ReadSubIndex(s.subIndexAddress)];
      if subIndexReply.None? then
        Run(s1, head, Some(IoFault))
      else
        var s2 := s1.(subIndex := subIndexReply.value);
        if !Idle(s2.status) then
          Run(s2, head, None)
        else
          Measure(s2.(lastRead := s2.subIndex), head, m)
  }

  /** The four measurements of an idle run, each assigned as it completes;
      the first that throws ends the run. */
  function Measure<V>(s: Readings<V>, head: seq<Action>, m: Measured<V>): (r: Run<V>)
    ensures r.state.dataReady == s.dataReady && r.state.lastRead == s.lastRead
    ensures r.state.index == s.index && r.state.statusAddress == s.statusAddress
         && r.state.subIndexAddress == s.subIndexAddress
         && r.state.status == s.status && r.state.subIndex == s.subIndex
    ensures |head| < |r.actions| <= |head| + 4 && r.actions[..|head|] == head
    ensures r.actions[|head|] == MeasureTemperature
  {
    var a1 := head + [MeasureTemperature];
    if m.temperature.None? then Run(s, a1, Some(IoFault)) else
    var s1 := s.(temperature := m.temperature.value);
    var a2 := a1 + [MeasureHumidity];
    if m.humidity.None? then Run(s1, a2, Some(IoFault)) else
    var s2 := s1.(humidity := m.humidity.value);
    var a3 := a2 + [MeasurePressure];
    if m.pressure.None? then Run(s2, a3, Some(IoFault)) else
    var s3 := s2.(pressure := m.pressure.value);
    var a4 := a3 + [MeasureGas];
    if m.gas.None? then Run(s3, a4, Some(IoFault)) else
    Run(s3.(gas := m.gas.value), a4, None)
  }

  // ---------------------------------------------------------------------
  // Gating

  /** The readings proper: what `doMeasurements` refreshes. */
  ghost predicate SameReadings<V>(a: Readings<V>, b: Readings<V>) {
    a.lastRead == b.lastRead && a.temperature == b.temperature
    && a.pressure == b.pressure && a.humidity == b.humidity && a.gas == b.gas
  }

  /** While the sensor reports it is measuring or reading gas, nothing but
      the two register caches changes, and no measurement is taken. */
  lemma BusyKeepsReadings<V>(s: Readings<V>, st: Status, sub: int, m: Measured<V>)
    requires !Idle(st)
    ensures var r := DoMeasurements(s, Some(st), Some(sub), m);
            r.fault.None? && SameReadings(r.state, s)
            && r.state.status == st && r.state.subIndex == sub
            && r.actions == [ReadStatus(s.statusAddress), ReadSubIndex(s.subIndexAddress)]
  {
  }

  /** When the sensor is idle and every measurement completes, `lastRead`
      takes the sub-index just read and all four readings are the new
      results, measured temperature, humidity, pressure, gas in that order. */
  lemma IdleRefreshesAll<V>(s: Readings<V>, st: Status, sub: int, t: V, h: V, p: V, g: V)
    requires Idle(st)
    ensures var r := DoMeasurements(s, Some(st), Some(sub), Measured(Some(t), Some(h), Some(p), Some(g)));
            r.fault.None? && r.state.lastRead == sub
            && r.state.temperature == t && r.state.humidity == h
            && r.state.pressure == p && r.state.gas == g
            && r.actions == [ReadStatus(s.statusAddress), ReadSubIndex(s.subIndexAddress),
                             MeasureTemperature, MeasureHumidity, MeasurePressure, MeasureGas]
  {
  }

  /** A measurement is taken exactly when both register reads succeeded
      and the status is idle; any measurement taken comes after the
      temperature. */
  lemma MeasuresOnlyWhenIdle<V>(s: Readings<V>, statusReply: Option<Status>, subIndexReply: Option<int>,
                                m: Measured<V>)
    ensures var r := DoMeasurements(s, statusReply, subIndexReply, m);
            |r.actions| > 2 <==> statusReply.Some? && subIndexReply.Some? && Idle(statusReply.value)
    ensures var r := DoMeasurements(s, statusReply, subIndexReply, m);
            forall k :: 2 < k < |r.actions| ==>
              r.actions[k] != ReadStatus(s.statusAddress) && r.actions[k] != ReadSubIndex(s.subIndexAddress)
  {
  }

  /** A failed register read throws before any reading changes. */
  lemma ReadFailureKeepsReadings<V>(s: Readings<V>, statusReply: Option<Status>, subIndexReply: Option<int>,
                                       m: Measured<V>)
    requires statusReply.None? || subIndexReply.None?
    ensures var r := DoMeasurements(s, statusReply, subIndexReply, m);
            r.fault == Some(IoFault) && SameReadings(r.state, s) && |r.actions| <= 2
  {
  }

  /** How many measurements complete before the first that throws (4 when
      none does). */
  function Completed<V>(m: Measured<V>): (n: nat)
    ensures n <= 4
  {
    if m.temperature.None? then 0
    else if m.humidity.None? then 1
    else if m.pressure.None? then 2
    else if m.gas.None? then 3
    else 4
  }

  /** The `k`-th measurement's new value when it completed, the old
      reading otherwise. */
  function Taken<V>(m: Option<V>, k: nat, m0: Measured<V>, previous: V): V {
    if k < Completed(m0) && m.Some? then m.value else previous
  }

  /** When the sensor is idle and a measurement throws, the run ends with
      an I/O fault right after attempting it: the readings measured before
      it hold their new values, it and the ones after it keep the old
      ones, and `lastRead` has already taken the sub-index. */
  lemma MeasurementFailureIsPartial<V>(s: Readings<V>, st: Status, sub: int, m: Measured<V>)
    requires Idle(st) && Completed(m) < 4
    ensures var r := DoMeasurements(s, Some(st), Some(sub), m);
            r.fault == Some(IoFault) && r.state.lastRead == sub
            && |r.actions| == 2 + Completed(m) + 1
            && r.state.temperature == Taken(m.temperature, 0, m, s.temperature)
            && r.state.humidity == Taken(m.humidity, 1, m, s.humidity)
            && r.state.pressure == Taken(m.pressure, 2, m, s.pressure)
            && r.state.gas == s.gas
  {
  }

  /** With the same replies, a second call leaves the readings where the
      first put them. */
  lemma DoMeasurementsIdempotent<V>(s: Readings<V>, statusReply: Option<Status>, subIndexReply: Option<int>,
                                       m: Measured<V>)
    requires DoMeasurements(s, statusReply, subIndexReply, m).fault.None?
    ensures var once := DoMeasurements(s, statusReply, subIndexReply, m).state;
            DoMeasurements(once, statusReply, subIndexReply, m).state == once
  {
  }
}

=== FILE: threshold_pressure.dfy ===
/** `ThresholdPressureRegister` of the LPS25 pressure sensor: the two-byte
    THS_P register at 0x30. Multi-byte transfers on this device set bit 7 of
    the register address to make the address auto-increment, so the register
    stores the wire address 0x30 | 0x80 and reports the logical address with
    that flag cleared. */
module ThresholdPressure {
  import opened Registers

  const THS_P: bv32 := 0x30
  const AUTO_INCREMENT: bv32 := 0x80

  /** The register as constructed, holding an initial cached value. */
  function Create(value: bv32): (r: Register)
    ensures r.address == 0xB0 && r.width == 2 && r.name == "THS_P" && r.value == value
  {
    Register(THS_P | AUTO_INCREMENT, 2, "THS_P", value)
  }

  /** `getAddress()`: the stored address with the auto-increment flag
      cleared (`address & ~0x80`). */
  function LogicalAddress(address: bv32): bv32 {
    address & !AUTO_INCREMENT
  }

  function GetAddress(r: Register): (a: bv32)
    ensures a & 0x80 == 0 && a | (r.address & 0x80) == r.address
  {
    LogicalAddress(r.address)
  }

  /** The register reports the logical address 0x30 while it talks to the
      bus at 0xB0. */
  lemma ReportsLogicalAddress(value: bv32)
    ensures GetAddress(Create(value)) == 0x30
    ensures Create(value).address == GetAddress(Create(value)) | AUTO_INCREMENT
  {
  }

  /** The masking clears bit 7 and nothing else: putting bit 7 back gives the
      stored address. */
  lemma ClearsOnlyBit7(address: bv32)
    ensures LogicalAddress(address) & 0x80 == 0
    ensures LogicalAddress(address) | (address & 0x80) == address
  {
  }

  /** Masking twice is masking once. */
  lemma LogicalAddressIdempotent(address: bv32)
    ensures LogicalAddress(LogicalAddress(address)) == LogicalAddress(address)
  {
  }
}

=== FILE: time_helper.dfy ===
/** `TimeHelper.getTime`: the current time of day as the HT16K33 clock task
    shows it, hours and minutes (and optionally seconds), separated by
    colons or by spaces. The clock read `LocalTime.now()` is a parameter
    here. */
module TimeHelper {
  import opened Base

  /** A time of day to the second; the sub-second part never reaches the
      output and is not kept. */
  datatype LocalTime = LocalTime(hour: int, minute: int, second: int)

  predicate ValidTime(t: LocalTime) {
    0 <= t.hour < 24 && 0 <= t.minute < 60 && 0 <= t.second < 60
  }

  /** The pattern handed to the formatter: hours and minutes, and seconds
      when asked for, separated by spaces or by colons. */
  function Pattern(useSpace: bool, addSeconds: bool): (p: string)
    ensures |p| == (if addSeconds then 8 else 5)
    ensures p[2] == Separator(useSpace) && (addSeconds ==> p[5] == Separator(useSpace))
  {
    if useSpace then (if addSeconds then "HH mm ss" else "HH mm")
    else (if addSeconds then "HH:mm:ss" else "HH:mm")
  }

  /** The four flag combinations select four different patterns. */
  lemma PatternsDistinct(useSpace: bool, addSeconds: bool, useSpace': bool, addSeconds': bool)
    requires Pattern(useSpace, addSeconds) == Pattern(useSpace', addSeconds')
    ensures useSpace == useSpace' && addSeconds == addSeconds'
  {
    assert |Pattern(useSpace, addSeconds)| == |Pattern(useSpace', addSeconds')|;
    assert Pattern(useSpace, addSeconds)[2] == Pattern(useSpace', addSeconds')[2];
  }

  // ---------------------------------------------------------------------
  // The formatter, for the letters these patterns use

  /** The decimal digit character of `d`. */
  function DigitChar(d: int): (c: char)
    requires 0 <= d < 10
    ensures '0' <= c <= '9'
  {
    ['0', '1', '2', '3', '4', '5', '6', '7', '8', '9'][d]
  }

  /** A field printed with two digits, zero-padded (`HH`, `mm`, `ss`). */
  function TwoDigits(n: int): (r: string)
    requires 0 <= n < 100
    ensures |r| == 2 && IsDigit(r[0]) && IsDigit(r[1])
  {
    [DigitChar(n / 10), DigitChar(n % 10)]
  }

  predicate IsDigit(c: char) {
    '0' <= c <= '9'
  }

  /** `DateTimeFormatter.ofPattern(p)` applied to `t`: `HH` prints the hour
      of day, `mm` the minute, `ss` the second; any other character is
      copied as it is, which is how the formatter treats the space and the
      colon. */
  function Render(p: string, t: LocalTime): (r: string)
    requires ValidTime(t)
    decreases |p|
  {
    if |p| >= 2 && p[..2] == "HH" then TwoDigits(t.hour) + Render(p[2..], t)
    else if |p| >= 2 && p[..2] == "mm" then TwoDigits(t.minute) + Render(p[2..], t)
    else if |p| >= 2 && p[..2] == "ss" then TwoDigits(t.second) + Render(p[2..], t)
    else if |p| == 0 then ""
    else [p[0]] + Render(p[1..], t)
  }

  /** `getTime(useSpace, addSeconds)` with the clock reading `now`:
      two-digit hours, the separator, two-digit minutes, and with seconds a
      second separator and two-digit seconds. */
  function GetTime(useSpace: bool, addSeconds: bool, now: LocalTime): (r: string)
    requires ValidTime(now)
    ensures r == TwoDigits(now.hour) + [Separator(useSpace)] + TwoDigits(now.minute)
                 + (if addSeconds then [Separator(useSpace)] + TwoDigits(now.second) else "")
  {
    if addSeconds then
      RenderWithSeconds(Separator(useSpace), now);
      assert Pattern(useSpace, addSeconds) == "HH" + ([Separator(useSpace)] + ("mm" + ([Separator(useSpace)] + "ss")));
      Render(Pattern(useSpace, addSeconds), now)
    else
      RenderWithoutSeconds(Separator(useSpace), now);
      assert Pattern(useSpace, addSeconds) == "HH" + ([Separator(useSpace)] + "mm");
      Render(Pattern(useSpace, addSeconds), now)
  }

  /** The character between the fields. */
  function Separator(useSpace: bool): char {
    if useSpace then ' ' else ':'
  }

  lemma RenderHours(rest: string, t: LocalTime)
    requires ValidTime(t)
    ensures Render("HH" + rest, t) == TwoDigits(t.hour) + Render(rest, t)
  {
    assert ("HH" + rest)[..2] == "HH" && ("HH" + rest)[2..] == rest;
  }

  lemma RenderMinutes(rest: string, t: LocalTime)
    requires ValidTime(t)
    ensures Render("mm" + rest, t) == TwoDigits(t.minute) + Render(rest, t)
  {
    assert ("mm" + rest)[..2] == "mm" && ("mm" + rest)[2..] == rest;
  }

  lemma RenderSeconds(t: LocalTime)
    requires ValidTime(t)
    ensures Render("ss", t) == TwoDigits(t.second)
  {
    assert "ss"[..2] == "ss" && "ss"[2..] == "";
  }

  lemma RenderLiteral(c: char, rest: string, t: LocalTime)
    requires ValidTime(t) && (c == ' ' || c == ':')
    ensures Render([c] + rest, t) == [c] + Render(rest, t)
  {
    var p := [c] + rest;
    assert p[1..] == rest;
    if |p| >= 2 {
      assert p[..2][0] == c;
      assert p[..2] != "HH" && p[..2] != "mm" && p[..2] != "ss";
    }
  }

  lemma RenderWithSeconds(sep: char, now: LocalTime)
    requires ValidTime(now) && (sep == ' ' || sep == ':')
    ensures Render("HH" + ([sep] + ("mm" + ([sep] + "ss"))), now)
         == TwoDigits(now.hour) + [sep] + TwoDigits(now.minute) + ([sep] + TwoDigits(now.second))
  {
    RenderSeconds(now);
    RenderLiteral(sep, "ss", now);
    RenderMinutes([sep] + "ss", now);
    RenderLiteral(sep, "mm" + ([sep] + "ss"), now);
    RenderHours([sep] + ("mm" + ([sep] + "ss")), now);
  }

  lemma RenderWithoutSeconds(sep: char, now: LocalTime)
    requires ValidTime(now) && (sep == ' ' || sep == ':')
    ensures Render("HH" + ([sep] + "mm"), now) == TwoDigits(now.hour) + [sep] + TwoDigits(now.minute)
  {
    assert Render("", now) == "";
    RenderMinutes("", now);
    assert "mm" + "" == "mm";
    RenderLiteral(sep, "mm", now);
    RenderHours([sep] + "mm", now);
  }

  /** Eight characters with seconds, five without; the separator stands at
      index 2, and at index 5 when seconds are shown; every other character
      is a decimal digit. */
  lemma GetTimeShape(useSpace: bool, addSeconds: bool, now: LocalTime)
    requires ValidTime(now)
    ensures var r := GetTime(useSpace, addSeconds, now);
            |r| == (if addSeconds then 8 else 5)
            && r[2] == Separator(useSpace)
            && (addSeconds ==> r[5] == Separator(useSpace))
            && forall k :: 0 <= k < |r| && k != 2 && k != 5 ==> IsDigit(r[k])
  {
  }

  // ---------------------------------------------------------------------
  // Reading the string back

  function DigitValue(c: char): int {
    c as int - '0' as int
  }

  lemma DigitValueOfChar(d: int)
    requires 0 <= d < 10
    ensures DigitValue(DigitChar(d)) == d
  {
  }

  /** The number a two-digit field spells. */
  function FieldValue(f: string): int
    requires |f| == 2
  {
    DigitValue(f[0]) * 10 + DigitValue(f[1])
  }

  lemma FieldValueOfTwoDigits(n: int)
    requires 0 <= n < 100
    ensures FieldValue(TwoDigits(n)) == n
  {
    DigitValueOfChar(n / 10);
    DigitValueOfChar(n % 10);
  }

  /** Reads a rendered time back: hour, minute and, when present, second;
      a string of the wrong length or with a wrong separator is `None`. */
  function ParseTime(r: string, useSpace: bool): Option<LocalTime> {
    var sep := Separator(useSpace);
    if |r| == 5 && r[2] == sep then
      Some(LocalTime(FieldValue(r[0..2]), FieldValue(r[3..5]), 0))
    else if |r| == 8 && r[2] == sep && r[5] == sep then
      Some(LocalTime(FieldValue(r[0..2]), FieldValue(r[3..5]), FieldValue(r[6..8])))
    else None
  }

  /** The string shows the time it was made from: parsing it gives back the
      hour and minute, and the second when seconds are shown. */
  lemma ParseGetTime(useSpace: bool, addSeconds: bool, now: LocalTime)
    requires ValidTime(now)
    ensures ParseTime(GetTime(useSpace, addSeconds, now), useSpace)
         == Some(LocalTime(now.hour, now.minute, if addSeconds then now.second else 0))
  {
    var r := GetTime(useSpace, addSeconds, now);
    FieldValueOfTwoDigits(now.hour);
    FieldValueOfTwoDigits(now.minute);
    FieldValueOfTwoDigits(now.second);
    assert r[0..2] == TwoDigits(now.hour);
    assert r[3..5] == TwoDigits(now.minute);
    if addSeconds {
      assert r[6..8] == TwoDigits(now.second);
    }
  }
}
